=== FILE: README.md ===
# ZorkPython narrator pipeline — a Dafny model

This project models the deterministic text handling around the AI narrator of
ZorkPython, a terminal front end that plays Zork and asks a language model to
narrate each turn. The parts modelled are:

- **Prompt windowing.** The last *k* transcript lines are joined with `"\n"`
  and become a `[system, user]` message pair (`completions.py`, `zork_ai.py`).
- **Response recovery ladder** (`zork_ai.py`):
  1. strip a Markdown code fence;
  2. decode the reply as a JSON object;
  3. decode the slice between the first `{` and the last `}`;
  4. scan the text for a `"narration": "..."` field;
  5. fall back to the raw text.

  The simpler fallback in `completions.py` is modelled too. Both regular
  expressions are written as explicit scanners.
- **The greedy word chunker `_chunk`.** It splits the text to stream into
  pieces of at most 140 characters, never cutting a word.
- **The `ask_ai` controller protocol.** The renderer sees one start, then one
  write per chunk, then exactly one finalize. The model is a method that
  records the renderer calls as an event trace.
- **The wrap-aware viewport of the Rich UI.** It keeps the longest run of
  trailing lines whose wrapped rows fit the panel. This part also covers the
  append operations and the keystroke line editor of `read_prompt`.
- **The ASCII-art helpers:**
  - code-block extraction from the model's reply;
  - the record logic of `iter_transactions`;
  - the two prompt builders.
- **The text-to-image prompt builder:**
  - location extraction;
  - bullet extraction;
  - the prompt text;
  - the seed derivation.
- **The text-to-image state store.** It holds one payload slot and a turn
  counter.

Everything else is a pure function over immutable datatypes. Four operations
are methods: `ask_ai`, `read_prompt` and the bullet loop each run a loop, and
`stream_to_ui` is a straight-line method that records its renderer calls. Python's
notions are defined once in the `Text` module:

- whitespace as `str.isspace` sees it;
- `strip`, `split`, `"sep".join`, `find` and `splitlines`.

The components below are parameters rather than definitions:

- **The JSON codec** (`Json.Codec`). It holds `json.loads` as
  `decode: string -> Option<Json>`, where `None` stands for a
  `JSONDecodeError`; `str()` of a non-string value; and
  `json.dumps(..., indent=2)`.
- **Rich's row count** for a line at a given width (`Viewport.RowCount`).
- **SHA-256**, as a function returning 64 hex digits.
- **The model's reply** (`Prompt.Reply`: an answer, or a failed call).
- **The keys typed.**
- **The configured style preset.**

The audit log `ai.jsonl` is modelled as the sequence of entries appended to it.

Modules:

| file | module | source |
|---|---|---|
| wrappers.dfy | Wrappers | `Option` / `Result` |
| text.dfy | Text | Python string operations used throughout |
| json.dfy | Json | JSON values, truthiness, `dict.get`, the codec parameter |
| prompt.dfy | Prompt | message pairs, the line window, audit-log entries |
| chunker.dfy | Chunker | `completions.py` `_chunk` |
| completions.dfy | Completions | `completions.py` `build_messages`, `get_stream` |
| controller.dfy | Controller | `zork_ai_controllers.py` `ask_ai`, `completions.py` `stream_to_ui` |
| recovery.dfy | Recovery | `zork_ai.py` fence stripping, payload search, narration scan |
| narrator.dfy | Narrator | `zork_ai.py` `create_narration_context` |
| viewport.dfy | Viewport | `zork_ui.py` |
| ascii_art.dfy, art_prompts.dfy | AsciiArt, ArtPrompts | `zork_ascii_art.py` |
| image_defaults.dfy, image_prompt.dfy | ImageDefaults, ImagePrompt | `t2i/prompt_builder.py` |
| image_state.dfy | ImageState | `t2i/state.py` |

## Model

| member | source | states |
|---|---|---|
| Chunker.ChunkRoundTrip | completions.py:66-78 | concatenating every chunk gives the input's words joined by single spaces, so the chunks hold exactly the input's words in order |
| Chunker.ChunkShape | completions.py:72-78 | every chunk holds at least one word; every chunk but the last ends in exactly one space after a non-space; the last chunk ends in a non-space |
| Chunker.ChunkBounds | completions.py:69-76 | a chunk of two or more words is at most `size` long; only a single over-long word may exceed it, alone in its chunk; a chunk was closed only because the next word plus a space would overflow `size` |
| Chunker.ChunkEmpty | completions.py:69-78 | no chunks exactly when the text is empty or whitespace only |
| Chunker.GroupsShape | completions.py:67-76 | the greedy grouping keeps every word in order, never splits a word, keeps multi-word groups within `size`, and flushes only on overflow |
| Prompt.Window | zork_ai.py:83 | the window is the last `min(n, k)` lines in their original order, or all lines when `k` is 0 |
| Prompt.WindowMessagesExcerpt | zork_ai.py:83-90 | the user message is the template around an excerpt that is empty for no interactions and otherwise, when no windowed interaction holds a newline of its own, splits on `"\n"` back into exactly the last `min(n, limit)` interactions (a multi-line interaction would come back split into its lines) |
| Prompt.ChatPair | completions.py:53-56 | exactly two messages, the system prompt first and the user content second |
| Completions.BuildMessages | completions.py:49-56 | exactly two messages, system then user, the system one carrying the system prompt |
| Completions.BuildMessagesWindow | completions.py:49-56 | the user content is the template filled with an excerpt that, when none of the last 40 recent lines holds a newline of its own, splits on `"\n"` back into exactly the last `min(n, 40)` recent lines (a multi-line entry would come back split into its lines) |
| Completions.ResponseObject | completions.py:106-109 | the decoded reply when it decodes; otherwise the object `{"narration": content}`, whose narration is `""` for an empty reply |
| Completions.ChooseText | completions.py:116-120 | narration-only mode streams the payload's narration string, or `""` when the key is missing; otherwise it streams the indented dump of the object |
| Completions.StreamOutcome | completions.py:116-124 | the chunks streamed are exactly `_chunk` of the chosen text; an undecodable reply in narration-only mode streams the reply itself |
| Completions.Exchange | completions.py:84-124 | the request is logged once before the model call and the response once after it, earlier entries untouched; a failed call logs only the request |
| Completions.GetStream | completions.py:80-85 | the logged request is the message pair `build_messages` makes of the recent lines |
| Controller.AskAi | zork_ai_controllers.py:104-126 | start comes first and only once, with 40 box-drawing characters or none; chunks are written in order, each once; if `get_stream` raises there is no finalize; otherwise exactly one finalize comes last, carrying the chunks whose write returned; on normal completion the returned text is the finalized text |
| Controller.AsSource | zork_ai_controllers.py:108-113 | a failed model call inside the generator surfaces in the controller's `try` as a stream that raises before yielding, and a completed call streams its chunks |
| Controller.StreamToUi | completions.py:127-130 | the request is logged; the block starts with the separator and is finalized exactly once, even when the model call fails (then with `""`); a plain-text reply in narration-only mode is finalized as its words joined by single spaces |
| Recovery.StripCodeFence | zork_ai.py:135-140 | the result is trimmed; unfenced text comes back trimmed and unchanged; for fenced text the result is a piece of the text between the two fences |
| Recovery.FenceRoundTrip | zork_ai.py:56 | any body, fenced with a `json` tag in any case (or untagged when the body does not itself begin with `json`), comes back as exactly the trimmed body, whatever whitespace or newlines surround it |
| Recovery.UntaggedJsonBody | zork_ai.py:56 | an untagged fenced body that begins with `json` (any case) loses those four letters, because the optional tag takes them |
| Recovery.UnfencedUnchanged | zork_ai.py:136-140 | trimmed unfenced text is returned as it is |
| Recovery.BraceSlice | zork_ai.py:152-155 | a slice is found only when there is a `{` before a `}`; it opens with `{`, closes with `}`, and is part of the candidate |
| Recovery.PayloadFrom | zork_ai.py:144-162 | a candidate that decodes to an object wins; otherwise the payload, if any, is the decoded first-`{`-to-last-`}` slice; with no such slice there is none |
| Recovery.FindJsonPayload | zork_ai.py:143-162 | the payload is the de-fenced reply decoded as an object, or else its decoded brace slice |
| Recovery.EmbeddedObject | zork_ai.py:152-159 | an object with no `{` before it and no `}` after it is recovered from surrounding prose |
| Recovery.NoOpenBrace | zork_ai.py:154 | text without `{` has no brace slice |
| Recovery.MatchAt | zork_ai.py:57-60 | a field match starting at `i` has its value inside the text |
| Recovery.MatchAtSound | zork_ai.py:57-60 | a match is a case-insensitive `"narration"`, optional whitespace, `:`, optional whitespace and a quoted value of escapes and non-quote characters |
| Recovery.MatchAtComplete | zork_ai.py:57-60 | every such field occurrence is matched, with the value the regular expression captures |
| Recovery.Search | zork_ai.py:166 | the leftmost match at or after the start position, and none when no position matches |
| Recovery.SearchFindsFirst | zork_ai.py:166 | a match at `i` with no match between the start and `i` is the one the search returns |
| Recovery.NarrationAbsent | zork_ai.py:165-168 | no result exactly when no position of the text holds a narration field |
| Recovery.ExtractFindsField | zork_ai.py:165-173 | the first field found gives its value decoded as a JSON string, or un-escaped by hand when that decode fails |
| Recovery.UnescapePlain | zork_ai.py:173 | a value without backslashes is kept as it is by the manual un-escape |
| Narrator.EffectiveLimit | zork_ai.py:79-81 | a negative limit is a `ValueError`; `None` and `0` mean 40; any other limit is used as given, and the limit is always positive |
| Narrator.FallbackNarration | zork_ai.py:116 | the extracted value when truthy, else the raw content, so the result is truthy or `""` |
| Narrator.ReplyPayload | zork_ai.py:113-116 | the recovered JSON object when there is one, else a one-field `narration` object holding the fallback |
| Narrator.NarrationText | zork_ai.py:120 | `""` when the key is missing or its value is falsy, and the string itself when it is a string |
| Narrator.CreateNarrationContext | zork_ai.py:72-127 | a bad limit logs nothing and fails; otherwise the request for the windowed messages is logged first; a failed call logs nothing more; an answer logs the payload once and returns the messages, payload, narration and raw content |
| Narrator.ObjectReplyNarration | zork_ai.py:113-120 | a (possibly fenced) JSON-object reply is kept whole and its narration string becomes the narration |
| Narrator.PlainReplyNarration | zork_ai.py:113-120 | a reply with neither JSON nor a narration field is narrated verbatim |
| Viewport.SuffixRowsMonotone | zork_ui.py:40-51 | taking more trailing lines never needs fewer rows |
| Viewport.VisibleStart | zork_ui.py:40-51 | the shown lines fit the height, and adding the next older line would overflow it |
| Viewport.RenderableLines | zork_ui.py:25-53 | an empty log renders as `""`; otherwise the output is the visible trailing run joined by `"\n"` in original order |
| Viewport.VisibleIsLongest | zork_ui.py:47-48 | every longer suffix overflows, so selection stops at the first overflow |
| Viewport.AllFitAllShown | zork_ui.py:40-51 | when the whole log fits, every line is shown |
| Viewport.RenderableSplits | zork_ui.py:50-53 | when no line of the log holds a newline of its own, the rendered text splits back into exactly the selected suffix (a multi-line entry would come back split into its lines) |
| Viewport.AppendedLineShown | zork_ui.py:47-51 | a newly appended line that fits the panel on its own is always shown |
| Viewport.AppendZork | zork_ui.py:110-112 | the line is appended to the game log; the AI log and the prompt are unchanged |
| Viewport.AppendAi | zork_ui.py:114-116 | the line is appended to the AI log; the game log and the prompt are unchanged |
| Viewport.SetPrompt | zork_ui.py:84-85 | only the prompt text changes |
| Viewport.Render | zork_ui.py:55-78 | the body height is the console height less 4 rows of prompt panel and 2 rows of borders; the left pane shows the renderable tail of the game log at the left width and that height, the right pane that of the AI log at the right width; the prompt panel shows the prompt text; an empty log renders as an empty pane |
| Viewport.AppendsAreIndependent | zork_ui.py:110-116 | appending to one log changes neither the other panel nor the prompt |
| Viewport.Edit | zork_ui.py:100-104 | backspace or delete drops the last character, and does nothing on an empty buffer; any other key is appended |
| Viewport.TypedPlain | zork_ui.py:103-104 | plain keys build the buffer verbatim |
| Viewport.BackspaceUndoes | zork_ui.py:100-104 | a key followed by backspace leaves the buffer as it was |
| Viewport.BackspaceOnEmpty | zork_ui.py:100-102 | backspace on an empty buffer is a no-op |
| Viewport.ReadPrompt | zork_ui.py:89-105 | reading stops at the first Enter and returns the edited buffer; every other key redraws the prompt followed by the buffer; the prompt is cleared on return |
| AsciiArt.FencedBody | zork_ascii_art.py:125-130 | the block body never ends in whitespace |
| AsciiArt.ExtractCodeBlock | zork_ascii_art.py:118-131 | without an opening fence, or without a closing one, the trimmed text; otherwise the body up to the first closing fence, right-trimmed; never ends in whitespace |
| AsciiArt.ClosingFenceFound | zork_ascii_art.py:121-130 | a fenced reply whose inner part holds no fence and does not end in a backtick (exactly when the first fence after the opening one is the closing one, so backticks elsewhere in the art are allowed) yields its inner part, hint line dropped and right-trimmed |
| AsciiArt.HintDropped | zork_ascii_art.py:127-129 | for art whose only line breaks are `\n`, followed by a final newline, a first line of `ascii`, `text` or `json` (any case) is dropped and the art comes back exactly, right-trimmed; the source rejoins the remaining lines with `\n`, so other line breaks (`\r\n`, `\r`, `\u2028`, …) in the art would be rewritten, and this lemma does not cover such art |
| AsciiArt.PrintedOf | zork_ascii_art.py:59-68 | a printed entry exists exactly for a list whose first element is a non-blank string; its text is that string trimmed, its source is the second element when that is a string and `""` otherwise, and it carries the current command |
| AsciiArt.PrintedEntries | zork_ascii_art.py:57-68 | every entry yielded is a trimmed non-blank printed text carrying the current command, at most one per item |
| AsciiArt.PrintedEntriesAppend | zork_ascii_art.py:59-68 | the entries of a list are those of its first items followed by those of the rest, in order |
| AsciiArt.PrintedEntriesSingle | zork_ascii_art.py:59-68 | one item yields exactly its own entry when it qualifies, and nothing otherwise |
| AsciiArt.CommandOf | zork_ascii_art.py:52-55 | a command is yielded exactly for a non-blank string message, and it is that message trimmed |
| AsciiArt.RecordStep | zork_ascii_art.py:52-68 | a record's command comes before its printed entries and becomes the previous command for them and for later records |
| AsciiArt.RecordStepContents | zork_ascii_art.py:52-68 | with a command message a record yields that command first, then exactly the entries of its `printed_messages` list under that command, which stays in force; without one, exactly those entries under the command already in force, which is unchanged |
| AsciiArt.LastCommandAppend | zork_ascii_art.py:41-55 | the latest command after two runs of records is the latest of the second run, starting from the first run's |
| AsciiArt.ReadLine | zork_ascii_art.py:43-50 | a line is skipped exactly when it is blank once trimmed or does not decode; it is a record exactly when it decodes to an object, whose fields it then holds |
| AsciiArt.Transactions | zork_ascii_art.py:32-68 | every yielded text is trimmed and non-blank |
| AsciiArt.FileConcat | zork_ascii_art.py:41-68 | the yields of a file are those of its first lines followed, unless those ended in an error, by those of the remaining lines read with the latest command so far in force |
| AsciiArt.ObjectLine | zork_ascii_art.py:44-68 | a non-blank line holding a JSON object yields exactly what its record yields |
| AsciiArt.NonObjectLine | zork_ascii_art.py:48-52 | a line holding JSON that is not an object ends the scan with an error, and no later line changes the outcome |
| AsciiArt.PreviousIsLatestCommand | zork_ascii_art.py:41-68 | every printed transaction carries the latest command yielded before it, or none |
| AsciiArt.SkippedLine | zork_ascii_art.py:44-50 | a blank or undecodable line anywhere in a file leaves the file's yields exactly as if the line were absent |
| ArtPrompts.BuildAsciiArtPrompt | zork_ascii_art.py:71-93 | a `[system, user]` pair with the scene system prompt, whose user text is the fixed head, then exactly the scene lines joined by `"\n"`, then the fixed tail |
| ArtPrompts.ScenePromptKeepsAllLines | zork_ascii_art.py:77-88 | for at least one scene line, none holding a newline of its own, the excerpt splits back into every scene line, in order and without truncation |
| ArtPrompts.PreviousLabel | zork_ascii_art.py:98 | `"> cmd"` for a non-empty command, else `"(no previous command)"` |
| ArtPrompts.BuildAsciiArtPromptSingle | zork_ascii_art.py:96-115 | a `[system, user]` pair with the single-moment system prompt |
| ArtPrompts.SinglePromptFields | zork_ascii_art.py:106-111 | when the previous command, the printed text and the source function are single lines, the user text's first four lines are those three fields, then a blank line; a multi-line printed text (a room description, say) would instead spread over several lines, pushing the later fields down |
| ImagePrompt.ExtractLocation | t2i/prompt_builder.py:58-66 | the empty path is `"Unknown location"`; the result is trimmed and non-empty for any path that is not blank |
| ImagePrompt.LocationFromSeparator | t2i/prompt_builder.py:61-65 | when the k-th separator is the first, in the fixed order, that is present and leaves a non-blank part, the result is the last non-blank part split on it |
| ImagePrompt.LocationWithoutSeparator | t2i/prompt_builder.py:61-66 | when no separator yields a part, the result is the trimmed path |
| ImagePrompt.LastSegment | t2i/prompt_builder.py:63-65 | the chosen part is non-empty and trimmed |
| ImagePrompt.NonBlankEmpty | t2i/prompt_builder.py:63-64 | no parts are kept exactly when every part is blank |
| ImagePrompt.NonBlankLast | t2i/prompt_builder.py:63-65 | the last kept part is the trimmed last non-blank part, with only blank parts after it |
| ImagePrompt.CutBefore | t2i/prompt_builder.py:76-78 | the part before the first separator character: a prefix without that character, and the whole text when it is absent |
| ImagePrompt.Clean | t2i/prompt_builder.py:74-78 | the item is trimmed and holds no em dash; without an em dash it holds no hyphen either; an item with neither is only trimmed |
| ImagePrompt.CleanHead | t2i/prompt_builder.py:74-78 | with an em dash, the item is the trimmed text before the first em dash; otherwise, with a hyphen, the trimmed text before the first hyphen |
| ImagePrompt.CleanDropsNote | t2i/prompt_builder.py:75-76 | `"name — note"` keeps only the name |
| ImagePrompt.Raws | t2i/prompt_builder.py:70-73 | a list yields its items and a string its characters; anything else yields nothing |
| ImagePrompt.Bullets | t2i/prompt_builder.py:69-83 | at most `max_items` results, and at most one when `max_items` is 0; nothing for a non-sequence |
| ImagePrompt.ExtractBullets | t2i/prompt_builder.py:69-83 | the loop with its early break yields the cleaned non-empty items in order, up to the limit |
| ImagePrompt.BulletShape | t2i/prompt_builder.py:74-80 | every bullet is non-empty, trimmed and free of em dashes |
| ImagePrompt.HexRoundTrip | t2i/prompt_builder.py:89 | reading hex digits as a number and printing it back at the same width gives the digits back |
| ImagePrompt.DeriveSeed | t2i/prompt_builder.py:86-89 | the seed lies in [0, 2^32) |
| ImagePrompt.SeedKeepsDigestPrefix | t2i/prompt_builder.py:86-89 | the seed, written as eight hex digits, is the first eight digits of the digest of `location|turn` |
| ImagePrompt.ChoosePreset | t2i/prompt_builder.py:36 | the argument when non-empty; otherwise the configured value exactly as configured, even when it is empty; the default preset only when nothing is configured |
| ImagePrompt.ChooseNegative | t2i/prompt_builder.py:37 | the argument when non-empty, else the base negative prompt |
| ImagePrompt.Field | t2i/prompt_builder.py:43 | a payload field as trimmed text |
| ImagePrompt.Location | t2i/prompt_builder.py:39-40 | the location used is never empty |
| ImagePrompt.Objects | t2i/prompt_builder.py:41 | at most three objects |
| ImagePrompt.Changes | t2i/prompt_builder.py:42 | at most two changes |
| ImagePrompt.Details | t2i/prompt_builder.py:46-51 | the optional parts appear only when present and are never empty |
| ImagePrompt.PromptLayout | t2i/prompt_builder.py:45-53 | the prompt is the preset (if any), the scene, then objects, changes and mood, joined by `". "` with empty parts skipped |
| ImagePrompt.PromptOpening | t2i/prompt_builder.py:45-53 | the prompt starts with the preset and the scene part, or with the scene part when there is no preset |
| ImagePrompt.PromptClosing | t2i/prompt_builder.py:50-53 | with a mood, the prompt ends with `". Mood: <mood>"` |
| ImagePrompt.BuildPromptBundle | t2i/prompt_builder.py:27-55 | the bundle's prompt follows that layout with at most three objects and two changes; its negative prompt is the chosen one; its seed depends only on location and turn and lies below 2^32 |
| ImageState.StoreAiPayload | t2i/state.py:12-16 | the stored payload replaces the last one and the counter is unchanged |
| ImageState.NextTurn | t2i/state.py:25-30 | the counter is incremented and the new value returned; the payload is unchanged |
| ImageState.ResetTurnCounter | t2i/state.py:33-37 | the counter is zero and the payload unchanged |
| ImageState.NothingStoredInitially | t2i/state.py:7-22 | before any store there is no payload |
| ImageState.StoreThenGet | t2i/state.py:12-22 | a store followed by a get returns the stored payload |
| ImageState.ResetThenNext | t2i/state.py:25-37 | after a reset, the next turn is 1 |
| ImageState.SuccessiveTurns | t2i/state.py:25-30 | k successive turns from n return n+1, n+2, …, n+k and leave the payload alone |
| ImageState.CounterCallsKeepPayload | t2i/state.py:19-37 | any run of calls without a store keeps the payload |
| ImageState.PayloadCallsKeepCounter | t2i/state.py:12-22 | any run of stores and gets keeps the counter |
| ImageState.LastStoreWins | t2i/state.py:12-22 | after any run of calls, the payload held is the one stored last, or the initial one |

## Left out

- Network calls to the model: the Foundry Local bootstrap and the OpenAI client. The reply is a parameter: text, no text, or a call that raises. The `max_tokens` setting only shapes that call and is left out.
- Configuration and schema loading, and the prompt templates. The system prompt and the user template are parameters. `USER_TMPL.format(game_log=…)` is modelled as fixed text before and after the single excerpt placeholder.
- File I/O. The truncation of `ai.jsonl` at start-up is not modelled. Each append is one entry of an in-memory log. Opening the JSONL file in `iter_transactions` and its `FileNotFoundError` are replaced by the file's lines as a parameter.
- `json.loads`, `json.dumps` and `str()` of non-string values are functions of the `Json.Codec` parameter. Nothing is assumed about what they return.
- `json.loads` exceptions other than `JSONDecodeError` are not modelled. Examples are the `RecursionError` of very deeply nested arrays and the `ValueError` of an integer literal over 4300 digits. The source catches only `JSONDecodeError` in `_find_json_payload`, `_extract_narration_field` and `iter_transactions`, so such a reply or line would propagate out of `create_narration_context` or the scan. The model has `decode` return `None` for every failure. It therefore moves on to the next recovery step, or skips the line. The `except Exception` of the completions reply handler is modelled as written.
- Key order of JSON objects: `JObject` holds a `map`, which has no insertion order. `json.dumps`, the log entries and `str()` of a dict depend on that order, and they are functions of the codec, so the model promises nothing about the order of keys in their output.
- Rich: row counting of a line at a width is the `RowCount` parameter. `Live`, `Layout`, `Panel`, colours and redraws are left out. The panel widths are passed in instead of computed with `int(total_width * 0.4)` and `int(total_width * 0.6)`, because those are floating-point products.
- `msvcrt.getwch` is replaced by the sequence of keys typed. The `console.print()` echo after Enter is left out.
- Controller.AskAi: a raising `finalize_ai_message` and a failing `stream.close()` are not modelled. Only `get_stream`, the generator and `write_ai` may raise.
- Controller.StreamToUi: the contract pins down the finalized text only for a plain-text reply in narration-only mode. In the other cases it states the request log and the one finalize.
- SHA-256 is a parameter returning 64 hex digits, and UTF-8 encoding of the seed basis is part of it.
- The `Lock` of `t2i/state.py`: the store is modelled sequentially.
- The copies made on store and get: `payload.copy()` is shallow, so nested lists stay shared with the caller, while the model's immutable values behave like deep copies. The sharing is never observed in the repository. The only reader, the image hook in `zork_t2i_integration.py`, reads the payload without mutating it, and `store_ai_payload` has no caller there. A caller that mutated a nested list after storing it would see the change in the source but not in the model.
- ImageState.GetLastAiPayload: it carries no contract of its own. Its behaviour is stated by `StoreThenGet`, `NothingStoredInitially` and `LastStoreWins`.
- Case-insensitive matching (`re.IGNORECASE`, `.lower()`) is modelled for ASCII letters only. Python also folds a few non-ASCII letters, such as the long s and the Kelvin sign, onto ASCII ones.
- `call_model_for_art`, `call_model_for_art_single`, `render_colorful_art` and `main` in `zork_ascii_art.py` are model calls and terminal styling.
- `image_companion_gui.py`, `zork_t2i_integration.py` and `zork_config.py` are left out: a Tkinter window with threads, module-global glue, and a dictionary lookup. The configured style preset is an `Option<string>` parameter.

=== FILE: art_prompts.dfy ===
/** The two chat prompts of `zork_ascii_art.py` that ask the model for a
    picture: one for a window of the scene log, one for a single
    transaction.  Kept apart from the parsing code because the fixed prompt
    texts are long. */
module ArtPrompts {
  import opened Wrappers
  import opened Text
  import opened Prompt

  // ---------------------------------------------------------------------
  // build_ascii_art_prompt / build_ascii_art_prompt_single
  // ---------------------------------------------------------------------

  const SceneSystemPrompt: string :=
    "You are an in-world artist for a text adventure. "
    + "Create a compact ASCII art depiction of the current scene described by the log. "
    + "Stay complementary and avoid spoilers or inventing unseen objects. "
    + "Constraints: 40\U{2013}60 columns wide, 12\U{2013}20 rows tall, use only standard ASCII. "
    + "Output STRICTLY a single fenced code block with just the art (no commentary)."

  const SceneUserHead: string := "Recent scene log (game outputs interleaved with commands):\n\n"
  const SceneUserTail: string :=
    "\n\nPlease render one ASCII art panel representing the location and salient objects."

  /** `build_ascii_art_prompt(scene_lines)`: every scene line, in order,
      between the fixed head and tail of the user message. */
  function BuildAsciiArtPrompt(sceneLines: seq<string>): (msgs: seq<Message>)
    ensures |msgs| == 2 && msgs[0] == Message(System, SceneSystemPrompt) && msgs[1].role == User
    ensures var c := msgs[1].content;
      && |c| == |SceneUserHead| + |Join(sceneLines, "\n")| + |SceneUserTail|
      && c[..|SceneUserHead|] == SceneUserHead
      && c[|c| - |SceneUserTail|..] == SceneUserTail
      && c[|SceneUserHead|..|c| - |SceneUserTail|] == Join(sceneLines, "\n")
  {
    ChatPair(SceneSystemPrompt, SceneUserHead + Join(sceneLines, "\n") + SceneUserTail)
  }

  /** No scene line is dropped: the excerpt splits back into all of them. */
  lemma ScenePromptKeepsAllLines(sceneLines: seq<string>)
    requires |sceneLines| > 0
    requires forall i, j :: 0 <= i < |sceneLines| && 0 <= j < |sceneLines[i]| ==> sceneLines[i][j] != '\n'
    ensures var c := BuildAsciiArtPrompt(sceneLines)[1].content;
      Split(c[|SceneUserHead|..|c| - |SceneUserTail|], "\n") == sceneLines
  {
    var c := BuildAsciiArtPrompt(sceneLines)[1].content;
    assert c[|SceneUserHead|..|c| - |SceneUserTail|] == Join(sceneLines, "\n");
    SplitJoin(sceneLines, '\n');
  }

  const MomentSystemPrompt: string :=
    "You are an in-world artist for a text adventure. "
    + "Create a compact ASCII art depiction of the current moment. "
    + "Stay complementary and avoid spoilers or inventing unseen objects. "
    + "Constraints: 40\U{2013}60 columns wide, 12\U{2013}20 rows tall, ASCII only. "
    + "Output STRICTLY a single fenced code block with just the art."

  const NoPreviousCommand: string := "(no previous command)"

  /** How the previous command is shown: `> cmd`, or a placeholder when
      there is none or it is empty. */
  function PreviousLabel(previous: Option<string>): (r: string)
    ensures previous.Some? && previous.value != "" ==> r == "> " + previous.value
    ensures previous.None? || previous.value == "" ==> r == NoPreviousCommand
  {
    if previous.Some? && previous.value != "" then "> " + previous.value else NoPreviousCommand
  }

  const PreviousField: string := "Previous command: "
  const OutputField: string := "Game output: "
  const SourceField: string := "Source function: "
  const MomentRequest: string := "Render one ASCII panel representing this moment."

  /** The five lines of the single-moment user message: the labelled
      command, output and printing function, a blank line, the request. */
  function MomentLines(previous: Option<string>, printedText: string, sourceFunc: string): seq<string> {
    [PreviousField + PreviousLabel(previous),
     OutputField + printedText,
     SourceField + sourceFunc,
     "",
     MomentRequest]
  }

  /** The single-moment user message: its lines joined by `\n`. */
  function MomentText(previous: Option<string>, printedText: string, sourceFunc: string): string {
    Join(MomentLines(previous, printedText, sourceFunc), "\n")
  }

  /** `build_ascii_art_prompt_single(prev_cmd, printed_text, source_func)`. */
  function BuildAsciiArtPromptSingle(previous: Option<string>, printedText: string, sourceFunc: string): (msgs: seq<Message>)
    ensures |msgs| == 2 && msgs[0] == Message(System, MomentSystemPrompt)
    ensures msgs[1] == Message(User, MomentText(previous, printedText, sourceFunc))
  {
    ChatPair(MomentSystemPrompt, MomentText(previous, printedText, sourceFunc))
  }

  /** The single-moment prompt names the command, the output and the
      printing function on their own labelled lines, then a blank line. */
  lemma SinglePromptFields(previous: Option<string>, printedText: string, sourceFunc: string)
    requires Lacks(printedText, '\n') && Lacks(sourceFunc, '\n')
    requires previous.Some? ==> Lacks(previous.value, '\n')
    ensures var lines := Split(MomentText(previous, printedText, sourceFunc), "\n");
      && |lines| >= 4
      && lines[..4] == [PreviousField + PreviousLabel(previous),
                        OutputField + printedText,
                        SourceField + sourceFunc,
                        ""]
  {
    var parts := MomentLines(previous, printedText, sourceFunc);
    MomentFieldsSingleLine(previous, printedText, sourceFunc);
    FieldLinesSplit(parts[0], parts[1], parts[2], parts[4]);
  }

  lemma FieldLabelsSingleLine()
    ensures Lacks(PreviousField, '\n') && Lacks(OutputField, '\n') && Lacks(SourceField, '\n')
  {
  }

  /** The three labelled fields carry no line break of their own. */
  lemma MomentFieldsSingleLine(previous: Option<string>, printedText: string, sourceFunc: string)
    requires Lacks(printedText, '\n') && Lacks(sourceFunc, '\n')
    requires previous.Some? ==> Lacks(previous.value, '\n')
    ensures var parts := MomentLines(previous, printedText, sourceFunc);
      Lacks(parts[0], '\n') && Lacks(parts[1], '\n') && Lacks(parts[2], '\n')
  {
    assert Lacks(PreviousLabel(previous), '\n') by {
      if previous.Some? && previous.value != "" {
        LacksConcat("> ", previous.value, '\n');
      }
    }
    FieldLabelsSingleLine();
    LacksConcat(PreviousField, PreviousLabel(previous), '\n');
    LacksConcat(OutputField, printedText, '\n');
    LacksConcat(SourceField, sourceFunc, '\n');
  }

  /** Three single-line fields, a blank line and a tail split back into
      those fields and the blank line first. */
  lemma FieldLinesSplit(a: string, b: string, c: string, tail: string)
    requires Lacks(a, '\n') && Lacks(b, '\n') && Lacks(c, '\n')
    ensures var lines := Split(Join([a, b, c, "", tail], "\n"), "\n");
      |lines| >= 4 && lines[..4] == [a, b, c, ""]
  {
    var fields := [a, b, c, ""];
    assert [a, b, c, "", tail] == fields + [tail];
    assert forall i :: 0 <= i < |fields| ==> Lacks(fields[i], '\n');
    SplitJoinPrefix(fields, tail, '\n');
    assert "\n" == ['\n'];
  }
}

=== FILE: ascii_art.dfy ===
/** `zork_ascii_art.py`: reading a recorded playthrough into command /
    printed-output transactions, the two art prompts, and pulling the art
    out of a fenced reply. */
module AsciiArt {
  import opened Wrappers
  import opened Text
  import opened Json
  import opened Prompt


  // ---------------------------------------------------------------------
  // extract_code_block
  // ---------------------------------------------------------------------

  /** A first line that only names the block's language. */
  predicate IsLanguageHint(line: string) {
    Strip(Lower(line)) in LanguageHints
  }

  const LanguageHints: set<string> := {"ascii", "text", "json"}

  /** The body between the opening fence and the first closing fence after
      it, with a language-hint first line dropped, right-trimmed. */
  function FencedBody(inner: string): (r: string)
    ensures r == [] || !IsSpace(r[|r| - 1])
  {
    RStrip(DropHint(inner))
  }

  /** `inner` without its first line when that line is a language hint;
      the remaining lines are rejoined with `\n`. */
  function DropHint(inner: string): string {
    var lines := SplitLines(inner);
    if |lines| > 0 && IsLanguageHint(lines[0]) then Join(lines[1..], "\n") else inner
  }

  /** `extract_code_block(text)`: the art inside the first fenced block of
      the reply, or the whole trimmed reply when there is none. */
  function ExtractCodeBlock(text: string): (r: string)
    // the result never ends in whitespace
    ensures r == [] || !IsSpace(r[|r| - 1])
    // no opening fence, or no closing one: the trimmed reply
    ensures |Strip(text)| < 3 || Strip(text)[..3] != Fence ==> r == Strip(text)
    ensures |Strip(text)| >= 3 && Strip(text)[..3] == Fence && Find(Strip(text), Fence, 3).None? ==> r == Strip(text)
    // otherwise the body up to the first closing fence
    ensures |Strip(text)| >= 3 && Strip(text)[..3] == Fence && Find(Strip(text), Fence, 3).Some? ==>
      var inner := Strip(text)[3..Find(Strip(text), Fence, 3).value];
      && !Contains(inner, Fence)
      && r == FencedBody(inner)
  {
    var stripped := Strip(text);
    if |stripped| >= 3 && stripped[..3] == Fence then
      match Find(stripped, Fence, 3)
      case None => stripped
      case Some(end) =>
        var inner := stripped[3..end];
        assert !Contains(inner, Fence) by {
          if Contains(inner, Fence) {
            var j := Find(inner, Fence, 0).value;
            OccursInSlice(stripped, Fence, 3, end, j);
          }
        }
        FencedBody(inner)
    else stripped
  }

  /** A fenced reply whose inner part holds no fence and does not end in a
      backtick (exactly when the first fence after the opening one is the
      closing one): its body is the inner part, with any hint line dropped
      and right-trimmed. */
  lemma ClosingFenceFound(inner: string)
    requires !Contains(inner, Fence)
    requires inner == [] || inner[|inner| - 1] != '`'
    ensures ExtractCodeBlock(Fence + inner + Fence) == FencedBody(inner)
  {
    var s := Fence + inner + Fence;
    assert s[0] == '`' && s[|s| - 1] == '`';
    StripTrimmed(s);
    assert s[..3] == Fence;
    var end := |s| - 3;
    assert s[3..end] == inner;
    assert OccursAt(s, Fence, end) by { assert s[end..end + 3] == Fence; }
    forall j | 3 <= j < end ensures !OccursAt(s, Fence, j) {
      NoFenceBefore(s, inner, j);
    }
    FindFirst(s, Fence, 3, end);
  }

  /** No fence starts inside `Fence + inner + Fence` before the closing
      one: one lying wholly in `inner` would be a fence of `inner`, and one
      reaching into the closing fence would start on its last character. */
  lemma NoFenceBefore(s: string, inner: string, j: int)
    requires s == Fence + inner + Fence
    requires !Contains(inner, Fence)
    requires inner == [] || inner[|inner| - 1] != '`'
    requires 3 <= j < |s| - 3
    ensures !OccursAt(s, Fence, j)
  {
    var end := |s| - 3;
    if j + 3 <= end {
      assert !OccursAt(inner, Fence, j - 3);
      assert s[j..j + 3] == inner[j - 3..j];
    } else {
      assert s[end - 1] == inner[|inner| - 1];
      assert s[j..j + 3][end - 1 - j] == s[end - 1];
    }
  }

  /** A language-hint first line is dropped and the art below it comes back
      exactly, right-trimmed. */
  lemma HintDropped(hint: string, art: string)
    requires IsLanguageHint(hint)
    requires forall j :: 0 <= j < |hint| ==> !IsLineBreak(hint[j])
    requires forall j :: 0 <= j < |art| && IsLineBreak(art[j]) ==> art[j] == '\n'
    ensures FencedBody(hint + "\n" + (art + "\n")) == RStrip(art)
  {
    SplitLinesFirst(hint, art + "\n");
    assert SplitLines(hint + "\n" + (art + "\n"))[1..] == SplitLines(art + "\n");
    SplitLinesTerminated(art);
  }

  // ---------------------------------------------------------------------
  // iter_transactions
  // ---------------------------------------------------------------------

  /** One yielded transaction: a player command, or a piece of game output
      with the function that printed it and the latest command before it. */
  datatype Transaction =
    | Command(command: string)
    | Printed(text: string, source: string, previous: Option<string>)

  /** The transactions yielded, and whether iteration ended in the
      `AttributeError` of `obj.get` on a record that is not an object. */
  datatype Scan = Scan(transactions: seq<Transaction>, failed: bool)

  /** Text that is non-blank and carries no surrounding whitespace, as every
      yielded string is. */
  predicate NonBlankTrimmed(s: string) {
    s != [] && Trimmed(s)
  }

  predicate WellFormed(t: Transaction) {
    match t
    case Command(c) => NonBlankTrimmed(c)
    case Printed(text, _, _) => NonBlankTrimmed(text)
  }

  /** A `printed_messages` entry: a list whose first element is a non-blank
      string, with an optional string source. */
  function PrintedOf(pair: Json, previous: Option<string>): (r: Option<Transaction>)
    ensures r.Some? ==> r.value.Printed? && WellFormed(r.value) && r.value.previous == previous
    ensures r.Some? <==> pair.JArray? && |pair.items| >= 1 && pair.items[0].JString? && Strip(pair.items[0].s) != []
    ensures r.Some? ==> r.value.text == Strip(pair.items[0].s)
    ensures r.Some? && |pair.items| > 1 && pair.items[1].JString? ==> r.value.source == pair.items[1].s
    ensures r.Some? && !(|pair.items| > 1 && pair.items[1].JString?) ==> r.value.source == ""
  {
    if pair.JArray? && |pair.items| >= 1 && pair.items[0].JString? && Strip(pair.items[0].s) != [] then
      var source := if |pair.items| > 1 && pair.items[1].JString? then pair.items[1].s else "";
      Some(Printed(Strip(pair.items[0].s), source, previous))
    else None
  }

  /** The printed entries of one record, in order, each tagged with the
      command in force. */
  function PrintedEntries(items: seq<Json>, previous: Option<string>): (txs: seq<Transaction>)
    ensures |txs| <= |items|
    ensures forall k :: 0 <= k < |txs| ==> txs[k].Printed? && WellFormed(txs[k]) && txs[k].previous == previous
  {
    if items == [] then []
    else
      match PrintedOf(items[0], previous)
      case Some(t) => [t] + PrintedEntries(items[1..], previous)
      case None => PrintedEntries(items[1..], previous)
  }

  /** Every printed entry of a record's `printed_messages` list, or none
      when that field is missing or not a list. */
  function PrintedList(fields: Payload, previous: Option<string>): seq<Transaction> {
    var printed := Get(fields, "printed_messages", JNull);
    if printed.JArray? then PrintedEntries(printed.items, previous) else []
  }

  /** The entries of two runs of items are those of each run in turn. */
  lemma {:induction false} PrintedEntriesAppend(a: seq<Json>, b: seq<Json>, previous: Option<string>)
    ensures PrintedEntries(a + b, previous) == PrintedEntries(a, previous) + PrintedEntries(b, previous)
    decreases |a|
  {
    if a == [] {
      assert a + b == b;
    } else {
      assert (a + b)[0] == a[0] && (a + b)[1..] == a[1..] + b;
      PrintedEntriesAppend(a[1..], b, previous);
    }
  }

  /** One item yields its entry when it qualifies, and nothing otherwise. */
  lemma PrintedEntriesSingle(x: Json, previous: Option<string>)
    ensures PrintedOf(x, previous).Some? ==> PrintedEntries([x], previous) == [PrintedOf(x, previous).value]
    ensures PrintedOf(x, previous).None? ==> PrintedEntries([x], previous) == []
  {
    assert [x][1..] == [];
  }

  /** What one decoded record yields, and the command in force after it. */
  datatype Step = Step(transactions: seq<Transaction>, previous: Option<string>)

  /** The command a record's `message` gives: a non-blank string, trimmed. */
  function CommandOf(msg: Json): (r: Option<string>)
    ensures r.Some? ==> NonBlankTrimmed(r.value)
    ensures r.Some? <==> msg.JString? && Strip(msg.s) != []
    ensures r.Some? ==> r.value == Strip(msg.s)
  {
    if msg.JString? && Strip(msg.s) != [] then Some(Strip(msg.s)) else None
  }

  /** The body of the loop for one object record: its command (if it has a
      non-blank string `message`), then its printed entries, each tagged with
      the command in force. */
  function RecordStep(fields: Payload, previous: Option<string>): (st: Step)
    ensures forall k :: 0 <= k < |st.transactions| ==> WellFormed(st.transactions[k])
    ensures st.previous == LastCommand(st.transactions, previous)
    ensures forall k :: 0 <= k < |st.transactions| && st.transactions[k].Printed? ==>
      st.transactions[k].previous == st.previous
    ensures |st.transactions| > 0 && st.transactions[0].Command? ==> st.previous == Some(st.transactions[0].command)
    ensures forall k :: 0 < k < |st.transactions| ==> st.transactions[k].Printed?
  {
    var cmd := CommandOf(Get(fields, "message", JNull));
    var prev := if cmd.Some? then cmd else previous;
    var printed := Get(fields, "printed_messages", JNull);
    var entries := if printed.JArray? then PrintedEntries(printed.items, prev) else [];
    Assemble(cmd, entries, previous)
  }

  /** What one record yields: a command message comes first and is in force
      for the printed entries; without one, only the printed entries, under
      the command already in force. */
  lemma RecordStepContents(fields: Payload, previous: Option<string>)
    ensures var st := RecordStep(fields, previous);
      CommandOf(Get(fields, "message", JNull)).Some? ==>
        && |st.transactions| >= 1
        && st.transactions[0] == Command(CommandOf(Get(fields, "message", JNull)).value)
        && st.previous == CommandOf(Get(fields, "message", JNull))
        && st.transactions[1..] == PrintedList(fields, st.previous)
    ensures var st := RecordStep(fields, previous);
      CommandOf(Get(fields, "message", JNull)).None? ==>
        st.previous == previous && st.transactions == PrintedList(fields, previous)
  {
    var cmd := CommandOf(Get(fields, "message", JNull));
    var st := RecordStep(fields, previous);
    if cmd.Some? {
      assert st.transactions == [Command(cmd.value)] + PrintedList(fields, cmd);
    } else {
      assert st.transactions == [] + PrintedList(fields, previous);
    }
  }

  /** The record's command (if any) followed by its printed entries. */
  function Assemble(cmd: Option<string>, entries: seq<Transaction>, previous: Option<string>): (st: Step)
    requires cmd.Some? ==> NonBlankTrimmed(cmd.value)
    requires forall k :: 0 <= k < |entries| ==>
      entries[k].Printed? && WellFormed(entries[k]) && entries[k].previous == (if cmd.Some? then cmd else previous)
    ensures forall k :: 0 <= k < |st.transactions| ==> WellFormed(st.transactions[k])
    ensures st.previous == LastCommand(st.transactions, previous)
    ensures forall k :: 0 <= k < |st.transactions| && st.transactions[k].Printed? ==>
      st.transactions[k].previous == st.previous
    ensures |st.transactions| > 0 && st.transactions[0].Command? ==> st.previous == Some(st.transactions[0].command)
    ensures forall k :: 0 < k < |st.transactions| ==> st.transactions[k].Printed?
  {
    var prev := if cmd.Some? then cmd else previous;
    var head := if cmd.Some? then [Command(cmd.value)] else [];
    PrintedHasNoCommand(entries, prev);
    LastCommandAppend(head, entries, previous);
    assert LastCommand(head, previous) == prev;
    Step(head + entries, prev)
  }

  /** The latest command in `txs`, or `initial` when there is none. */
  function LastCommand(txs: seq<Transaction>, initial: Option<string>): Option<string> {
    if txs == [] then initial
    else if txs[|txs| - 1].Command? then Some(txs[|txs| - 1].command)
    else LastCommand(txs[..|txs| - 1], initial)
  }

  lemma {:induction false} LastCommandAppend(a: seq<Transaction>, b: seq<Transaction>, initial: Option<string>)
    ensures LastCommand(a + b, initial) == LastCommand(b, LastCommand(a, initial))
    decreases |b|
  {
    if b == [] {
      assert a + b == a;
    } else {
      assert (a + b)[..|a + b| - 1] == a + b[..|b| - 1];
      LastCommandAppend(a, b[..|b| - 1], initial);
    }
  }

  lemma {:induction false} PrintedHasNoCommand(txs: seq<Transaction>, previous: Option<string>)
    requires forall k :: 0 <= k < |txs| ==> txs[k].Printed?
    ensures LastCommand(txs, previous) == previous
    decreases |txs|
  {
    if txs != [] {
      PrintedHasNoCommand(txs[..|txs| - 1], previous);
    }
  }

  /** How one line of the file is read: skipped (blank, or not JSON), a
      JSON value that is not an object, or an object record. */
  datatype LineRead = Skipped | NotObject | Record(fields: Payload)

  /** `raw.strip()`, then `json.loads`; a `JSONDecodeError` skips the line. */
  function ReadLine(codec: Codec, line: string): (r: LineRead)
    ensures r.Skipped? <==> Strip(line) == [] || codec.decode(Strip(line)).None?
    ensures r.Record? <==> Strip(line) != [] && codec.decode(Strip(line)).Some? && codec.decode(Strip(line)).value.JObject?
    ensures r.Record? ==> codec.decode(Strip(line)) == Some(JObject(r.fields))
  {
    var raw := Strip(line);
    if raw == [] then Skipped
    else
      match codec.decode(raw)
      case None => Skipped
      case Some(JObject(fields)) => Record(fields)
      case Some(_) => NotObject
  }

  /** Every line of the file, read. */
  function ReadLines(codec: Codec, lines: seq<string>): (rs: seq<LineRead>)
    ensures |rs| == |lines|
    ensures forall k :: 0 <= k < |lines| ==> rs[k] == ReadLine(codec, lines[k])
  {
    seq(|lines|, k requires 0 <= k < |lines| => ReadLine(codec, lines[k]))
  }

  /** The loop of `iter_transactions` over lines already read, `previous`
      being the command in force.  A record that is not an object ends the
      scan with the `AttributeError` of `obj.get`. */
  function ScanReads(rs: seq<LineRead>, previous: Option<string>): (sc: Scan)
    ensures forall k :: 0 <= k < |sc.transactions| ==> WellFormed(sc.transactions[k])
    decreases |rs|
  {
    if rs == [] then Scan([], false)
    else
      match rs[0]
      case Skipped => ScanReads(rs[1..], previous)
      case NotObject => Scan([], true)
      case Record(fields) =>
        var st := RecordStep(fields, previous);
        var rest := ScanReads(rs[1..], st.previous);
        Scan(st.transactions + rest.transactions, rest.failed)
  }

  /** `iter_transactions` over the lines `lines`, starting with `previous`
      as the command in force. */
  function TransactionsFrom(codec: Codec, lines: seq<string>, previous: Option<string>): (sc: Scan)
    ensures forall k :: 0 <= k < |sc.transactions| ==> WellFormed(sc.transactions[k])
  {
    ScanReads(ReadLines(codec, lines), previous)
  }

  /** `iter_transactions(path)` for a file whose lines are `lines`. */
  function Transactions(codec: Codec, lines: seq<string>): (sc: Scan)
    ensures forall k :: 0 <= k < |sc.transactions| ==> WellFormed(sc.transactions[k])
  {
    TransactionsFrom(codec, lines, None)
  }

  /** How a scan of the first lines continues over the rest: a failure
      ends everything, otherwise the rest is scanned with the latest
      command yielded so far in force, and the yields are concatenated. */
  function Continue(codec: Codec, first: Scan, rest: seq<string>, previous: Option<string>): Scan {
    if first.failed then first
    else
      var more := TransactionsFrom(codec, rest, LastCommand(first.transactions, previous));
      Scan(first.transactions + more.transactions, more.failed)
  }

  /** Reading a file in two parts: the yields of the whole file are those
      of the first part, followed (unless it failed) by those of the
      second, read with the command the first part left in force. */
  lemma FileConcat(codec: Codec, a: seq<string>, b: seq<string>, previous: Option<string>)
    ensures TransactionsFrom(codec, a + b, previous) == Continue(codec, TransactionsFrom(codec, a, previous), b, previous)
  {
    ReadLinesAppend(codec, a, b);
    ScanAppend(ReadLines(codec, a), ReadLines(codec, b), previous);
  }

  lemma ReadLinesAppend(codec: Codec, a: seq<string>, b: seq<string>)
    ensures ReadLines(codec, a + b) == ReadLines(codec, a) + ReadLines(codec, b)
  {
    forall k | 0 <= k < |a| + |b|
      ensures ReadLines(codec, a + b)[k] == (ReadLines(codec, a) + ReadLines(codec, b))[k]
    {
      ReadLinesAt(codec, a, b, k);
    }
  }

  lemma ReadLinesAt(codec: Codec, a: seq<string>, b: seq<string>, k: int)
    requires 0 <= k < |a| + |b|
    ensures ReadLines(codec, a + b)[k] == (ReadLines(codec, a) + ReadLines(codec, b))[k]
  {
    if k < |a| {
      assert (a + b)[k] == a[k];
    } else {
      assert (a + b)[k] == b[k - |a|];
    }
  }

  lemma {:induction false} ScanAppend(r1: seq<LineRead>, r2: seq<LineRead>, previous: Option<string>)
    ensures var first := ScanReads(r1, previous);
      ScanReads(r1 + r2, previous) ==
        if first.failed then first
        else
          var more := ScanReads(r2, LastCommand(first.transactions, previous));
          Scan(first.transactions + more.transactions, more.failed)
    decreases |r1|
  {
    if r1 == [] {
      assert r1 + r2 == r2;
    } else {
      assert (r1 + r2)[0] == r1[0] && (r1 + r2)[1..] == r1[1..] + r2;
      match r1[0]
      case Skipped =>
        ScanAppend(r1[1..], r2, previous);
      case NotObject =>
      case Record(fields) =>
        var st := RecordStep(fields, previous);
        ScanAppend(r1[1..], r2, st.previous);
        var first := ScanReads(r1[1..], st.previous);
        var more := ScanReads(r2, LastCommand(first.transactions, st.previous));
        LastCommandAppend(st.transactions, first.transactions, previous);
        AppendAssoc(st.transactions, first.transactions, more.transactions);
    }
  }

  /** A single non-blank line holding a JSON object yields exactly what its
      record yields. */
  lemma ObjectLine(codec: Codec, line: string, fields: Payload, previous: Option<string>)
    requires Strip(line) != []
    requires codec.decode(Strip(line)) == Some(JObject(fields))
    ensures TransactionsFrom(codec, [line], previous) == Scan(RecordStep(fields, previous).transactions, false)
  {
    var rs := ReadLines(codec, [line]);
    assert rs == [Record(fields)];
    var st := RecordStep(fields, previous);
    assert ScanReads(rs[1..], st.previous) == Scan([], false);
    assert ScanReads(rs, previous) == Scan(st.transactions + [], false);
    AppendAssoc(st.transactions, [], []);
  }

  /** A line holding JSON that is not an object stops the scan with the
      error of `obj.get`: nothing after it is read. */
  lemma NonObjectLine(codec: Codec, before: seq<string>, line: string, after: seq<string>)
    requires Strip(line) != []
    requires codec.decode(Strip(line)).Some? && !codec.decode(Strip(line)).value.JObject?
    ensures Transactions(codec, before + [line] + after) == Transactions(codec, before + [line])
    ensures (Transactions(codec, before + [line])).failed
  {
    FileConcat(codec, before + [line], after, None);
    FileConcat(codec, before, [line], None);
    assert ReadLines(codec, [line]) == [NotObject];
  }

  /** A blank or undecodable line yields nothing and changes nothing: the
      file reads as if it were absent. */
  lemma SkippedLine(codec: Codec, before: seq<string>, line: string, after: seq<string>)
    requires Strip(line) == [] || codec.decode(Strip(line)).None?
    ensures Transactions(codec, before + [line] + after) == Transactions(codec, before + after)
  {
    FileConcat(codec, before + [line], after, None);
    FileConcat(codec, before, [line], None);
    FileConcat(codec, before, after, None);
    var first := Transactions(codec, before);
    SkippedAlone(codec, line, LastCommand(first.transactions, None));
    AppendAssoc(first.transactions, [], []);
  }

  lemma SkippedAlone(codec: Codec, line: string, previous: Option<string>)
    requires Strip(line) == [] || codec.decode(Strip(line)).None?
    ensures TransactionsFrom(codec, [line], previous) == Scan([], false)
  {
    var rs := ReadLines(codec, [line]);
    assert rs == [Skipped];
    assert ScanReads(rs, previous) == ScanReads(rs[1..], previous);
  }

  /** Every printed entry in `txs` carries the latest command before it,
      `previous` standing for the commands before `txs`. */
  ghost predicate PreviousConsistent(txs: seq<Transaction>, previous: Option<string>) {
    forall k :: 0 <= k < |txs| && txs[k].Printed? ==> txs[k].previous == LastCommand(txs[..k], previous)
  }

  /** Every printed entry carries the latest command yielded before it
      (or `previous` when no command came first). */
  lemma PreviousIsLatestCommand(codec: Codec, lines: seq<string>, previous: Option<string>)
    ensures PreviousConsistent(TransactionsFrom(codec, lines, previous).transactions, previous)
  {
    ScanConsistent(ReadLines(codec, lines), previous);
  }

  lemma {:induction false} ScanConsistent(rs: seq<LineRead>, previous: Option<string>)
    ensures PreviousConsistent(ScanReads(rs, previous).transactions, previous)
    decreases |rs|
  {
    if rs != [] {
      match rs[0]
      case Skipped =>
        ScanConsistent(rs[1..], previous);
      case NotObject =>
      case Record(fields) =>
        var st := RecordStep(fields, previous);
        ScanConsistent(rs[1..], st.previous);
        StepConsistent(st, previous);
        ConcatConsistent(st.transactions, ScanReads(rs[1..], st.previous).transactions, previous);
    }
  }

  lemma ConcatConsistent(a: seq<Transaction>, b: seq<Transaction>, previous: Option<string>)
    requires PreviousConsistent(a, previous)
    requires PreviousConsistent(b, LastCommand(a, previous))
    ensures PreviousConsistent(a + b, previous)
  {
    var txs := a + b;
    forall k | 0 <= k < |txs| && txs[k].Printed?
      ensures txs[k].previous == LastCommand(txs[..k], previous)
    {
      if k < |a| {
        assert txs[..k] == a[..k];
      } else {
        var k' := k - |a|;
        assert txs[k] == b[k'];
        assert txs[..k] == a + b[..k'];
        LastCommandAppend(a, b[..k'], previous);
      }
    }
  }

  /** Inside one record, a printed entry's command is the latest one so far. */
  lemma StepConsistent(st: Step, previous: Option<string>)
    requires st.previous == LastCommand(st.transactions, previous)
    requires forall j :: 0 <= j < |st.transactions| && st.transactions[j].Printed? ==>
      st.transactions[j].previous == st.previous
    requires forall j :: 0 < j < |st.transactions| ==> st.transactions[j].Printed?
    ensures PreviousConsistent(st.transactions, previous)
  {
    var txs := st.transactions;
    forall k | 0 <= k < |txs| && txs[k].Printed?
      ensures txs[k].previous == LastCommand(txs[..k], previous)
    {
      PrintedSuffix(txs, k, previous);
    }
  }

  /** From a printed entry on, a run of printed entries leaves the latest
      command as it was before the entry. */
  lemma PrintedSuffix(txs: seq<Transaction>, k: nat, previous: Option<string>)
    requires k < |txs| && txs[k].Printed?
    requires forall j :: 0 < j < |txs| ==> txs[j].Printed?
    ensures LastCommand(txs, previous) == LastCommand(txs[..k], previous)
  {
    var head, tail := txs[..k], txs[k..];
    assert txs == head + tail;
    LastCommandAppend(head, tail, previous);
    forall j | 0 <= j < |tail| ensures tail[j].Printed? {
      assert tail[j] == txs[k + j];
    }
    PrintedHasNoCommand(tail, LastCommand(head, previous));
  }
}

=== FILE: chunker.dfy ===
/** The pseudo-streaming chunker `OpenAICompletionService._chunk`: split a
    complete reply into word-safe pieces of about `size` characters.

    The generator keeps a buffer of words and its running count (each word
    costs its length plus one separator).  A word that would push a non-empty
    buffer past `size` first flushes the buffer as `" ".join(buf) + " "`; the
    words left at the end are flushed without the trailing space. */
module Chunker {
  import opened Text

  const DefaultSize: int := 140

  /** The running count of a buffer: every word plus one separator. */
  function Cost(buf: seq<string>): nat {
    if |buf| == 0 then 0 else |buf[0]| + 1 + Cost(buf[1..])
  }

  lemma {:induction false} CostAppend(a: seq<string>, w: string)
    ensures Cost(a + [w]) == Cost(a) + |w| + 1
  {
    if |a| == 0 {
      assert a + [w] == [w];
    } else {
      assert (a + [w])[1..] == a[1..] + [w];
      CostAppend(a[1..], w);
    }
  }

  /** The generator loop over the remaining words, with the buffer and count
      it has accumulated so far; each result element is one flushed buffer. */
  function Groups(words: seq<string>, buf: seq<string>, count: int, size: int): seq<seq<string>>
    decreases |words|
  {
    if |words| == 0 then
      if |buf| == 0 then [] else [buf]
    else
      var w := words[0];
      var wl := |w| + 1;
      if |buf| > 0 && count + wl > size then
        [buf] + Groups(words[1..], [w], wl, size)
      else
        Groups(words[1..], buf + [w], count + wl, size)
  }

  /** What is yielded for a sequence of flushed buffers: every buffer but the
      last is followed by one space. */
  function Render(groups: seq<seq<string>>): seq<string> {
    if |groups| == 0 then []
    else if |groups| == 1 then [Join(groups[0], " ")]
    else [Join(groups[0], " ") + " "] + Render(groups[1..])
  }

  /** `_chunk(text, size)`: the sequence of strings the generator yields. */
  function Chunk(text: string, size: int): seq<string> {
    Render(Groups(Words(text), [], 0, size))
  }

  // ---------------------------------------------------------------------
  // Properties of the grouping
  // ---------------------------------------------------------------------

  function Flatten(groups: seq<seq<string>>): seq<string> {
    if |groups| == 0 then [] else groups[0] + Flatten(groups[1..])
  }

  /** A buffer holding two or more words never exceeds the size. */
  predicate Fits(g: seq<string>, size: int) {
    |g| >= 2 ==> Cost(g) <= size
  }

  /** Every flush happened because the next word did not fit. */
  predicate Greedy(groups: seq<seq<string>>, size: int)
    requires forall i :: 0 <= i < |groups| ==> |groups[i]| > 0
  {
    forall i :: 0 <= i < |groups| - 1 ==> Cost(groups[i]) + |groups[i + 1][0]| + 1 > size
  }

  /** Every flushed buffer is non-empty. */
  lemma {:induction false} GroupsNonEmpty(words: seq<string>, buf: seq<string>, count: int, size: int)
    ensures forall i :: 0 <= i < |Groups(words, buf, count, size)| ==> |Groups(words, buf, count, size)[i]| > 0
    decreases |words|
  {
    if |words| > 0 {
      var w := words[0];
      if |buf| > 0 && count + |w| + 1 > size {
        GroupsNonEmpty(words[1..], [w], |w| + 1, size);
      } else {
        GroupsNonEmpty(words[1..], buf + [w], count + |w| + 1, size);
      }
    }
  }

  /** The first flushed buffer starts with the first word of the buffer the
      loop holds. */
  lemma {:induction false} GroupsHead(words: seq<string>, buf: seq<string>, count: int, size: int)
    requires |buf| > 0
    ensures |Groups(words, buf, count, size)| > 0 && |Groups(words, buf, count, size)[0]| > 0 && Groups(words, buf, count, size)[0][0] == buf[0]
    decreases |words|
  {
    if |words| > 0 {
      var w := words[0];
      if !(count + |w| + 1 > size) {
        GroupsHead(words[1..], buf + [w], count + |w| + 1, size);
      }
    }
  }

  /** The flushed buffers hold the buffer's words and then the remaining
      words, in order. */
  lemma {:induction false} GroupsFlatten(words: seq<string>, buf: seq<string>, count: int, size: int)
    ensures Flatten(Groups(words, buf, count, size)) == buf + words
    decreases |words|
  {
    var gs := Groups(words, buf, count, size);
    if |words| == 0 {
      if |buf| > 0 {
        assert Flatten(gs) == buf + Flatten([]);
      }
    } else {
      var w := words[0];
      var wl := |w| + 1;
      assert words == [w] + words[1..];
      if |buf| > 0 && count + wl > size {
        var rest := Groups(words[1..], [w], wl, size);
        GroupsFlatten(words[1..], [w], wl, size);
        assert gs[1..] == rest;
        assert Flatten(gs) == buf + Flatten(rest);
      } else {
        GroupsFlatten(words[1..], buf + [w], count + wl, size);
        assert buf + words == (buf + [w]) + words[1..];
      }
    }
  }

  /** Every flushed buffer of two or more words fits the size. */
  lemma {:induction false} GroupsFit(words: seq<string>, buf: seq<string>, count: int, size: int)
    requires count == Cost(buf) && Fits(buf, size)
    ensures forall i :: 0 <= i < |Groups(words, buf, count, size)| ==> Fits(Groups(words, buf, count, size)[i], size)
    decreases |words|
  {
    if |words| > 0 {
      var w := words[0];
      var wl := |w| + 1;
      CostAppend([], w);
      if |buf| > 0 && count + wl > size {
        GroupsFit(words[1..], [w], wl, size);
      } else {
        CostAppend(buf, w);
        GroupsFit(words[1..], buf + [w], count + wl, size);
      }
    }
  }

  /** Every flush happened because the next word did not fit. */
  lemma {:induction false} GroupsGreedy(words: seq<string>, buf: seq<string>, count: int, size: int)
    requires count == Cost(buf)
    ensures forall i :: 0 <= i < |Groups(words, buf, count, size)| ==> |Groups(words, buf, count, size)[i]| > 0
    ensures Greedy(Groups(words, buf, count, size), size)
    decreases |words|
  {
    var gs := Groups(words, buf, count, size);
    GroupsNonEmpty(words, buf, count, size);
    if |words| > 0 {
      var w := words[0];
      var wl := |w| + 1;
      CostAppend([], w);
      if |buf| > 0 && count + wl > size {
        var rest := Groups(words[1..], [w], wl, size);
        GroupsGreedy(words[1..], [w], wl, size);
        GroupsHead(words[1..], [w], wl, size);
        assert gs == [buf] + rest;
      } else {
        CostAppend(buf, w);
        GroupsGreedy(words[1..], buf + [w], count + wl, size);
      }
    }
  }

  /** The loop keeps every word, in order, in non-empty, fitting, greedily
      flushed buffers. */
  lemma GroupsShape(words: seq<string>, buf: seq<string>, count: int, size: int)
    requires count == Cost(buf) && Fits(buf, size)
    ensures var gs := Groups(words, buf, count, size);
      && Flatten(gs) == buf + words
      && (forall i :: 0 <= i < |gs| ==> |gs[i]| > 0 && Fits(gs[i], size))
      && Greedy(gs, size)
  {
    GroupsFlatten(words, buf, count, size);
    GroupsFit(words, buf, count, size);
    GroupsGreedy(words, buf, count, size);
  }

  lemma {:induction false} FlattenWords(gs: seq<seq<string>>)
    requires AllWords(Flatten(gs))
    ensures forall i :: 0 <= i < |gs| ==> AllWords(gs[i])
  {
    if |gs| > 0 {
      forall k | 0 <= k < |gs[0]|
        ensures IsWord(gs[0][k])
      {
        assert Flatten(gs)[k] == gs[0][k];
      }
      forall k | 0 <= k < |Flatten(gs[1..])|
        ensures IsWord(Flatten(gs[1..])[k])
      {
        assert Flatten(gs)[|gs[0]| + k] == Flatten(gs[1..])[k];
      }
      FlattenWords(gs[1..]);
    }
  }

  // ---------------------------------------------------------------------
  // Properties of the rendered chunks
  // ---------------------------------------------------------------------

  lemma {:induction false} RenderShape(gs: seq<seq<string>>)
    ensures |Render(gs)| == |gs|
    ensures forall i :: 0 <= i < |gs| - 1 ==> Render(gs)[i] == Join(gs[i], " ") + " "
    ensures |gs| > 0 ==> Render(gs)[|gs| - 1] == Join(gs[|gs| - 1], " ")
  {
    if |gs| > 1 {
      RenderShape(gs[1..]);
    }
  }

  /** Gluing the rendered buffers back together gives the words joined by
      single spaces. */
  lemma {:induction false} RenderConcat(gs: seq<seq<string>>)
    requires forall i :: 0 <= i < |gs| ==> |gs[i]| > 0
    ensures Concat(Render(gs)) == Join(Flatten(gs), " ")
  {
    if |gs| == 1 {
      assert Flatten(gs) == gs[0] + Flatten([]) == gs[0];
      assert Render(gs) == [Join(gs[0], " ")];
      assert Concat([Join(gs[0], " ")]) == Join(gs[0], " ") + Concat([]);
    } else if |gs| > 1 {
      RenderConcat(gs[1..]);
      var tail := Flatten(gs[1..]);
      assert |tail| > 0 by {
        assert tail == gs[1] + Flatten(gs[2..]);
      }
      JoinAppend(gs[0], tail, " ");
    }
  }

  lemma {:induction false} JoinLength(g: seq<string>)
    requires |g| > 0
    ensures |Join(g, " ")| + 1 == Cost(g)
  {
    if |g| > 1 {
      JoinLength(g[1..]);
    }
  }

  lemma {:induction false} JoinEndsInWord(g: seq<string>)
    requires |g| > 0 && AllWords(g)
    ensures |Join(g, " ")| > 0 && !IsSpace(Join(g, " ")[|Join(g, " ")| - 1])
  {
    if |g| > 1 {
      JoinEndsInWord(g[1..]);
      var t := Join(g[1..], " ");
      assert Join(g, " ") == g[0] + " " + t;
    } else {
      assert IsWord(g[0]);
    }
  }

  /** The words of a rendered buffer are the buffer itself. */
  lemma WordsOfRendered(g: seq<string>)
    requires |g| > 0 && AllWords(g)
    ensures Words(Join(g, " ")) == g
    ensures Words(Join(g, " ") + " ") == g
  {
    WordsOfJoin(g);
    WordsTrailingSpace(Join(g, " "));
  }

  lemma WordsTrailingSpace(s: string)
    ensures Words(s + " ") == Words(s)
  {
    WordsFromTrailingSpace(s, 0);
  }

  lemma {:induction false} WordsFromTrailingSpace(s: string, i: nat)
    requires i <= |s|
    ensures WordsFrom(s + " ", i) == WordsFrom(s, i)
    decreases |s| - i
  {
    var t := s + " ";
    if i == |s| {
      WordsFromSkip(t, i);
    } else if IsSpace(s[i]) {
      WordsFromSkip(t, i);
      WordsFromSkip(s, i);
      WordsFromTrailingSpace(s, i + 1);
    } else {
      var e := RunEnd(s, i);
      RunEndAt(t, i, e);
      WordsFromRun(t, i);
      WordsFromRun(s, i);
      assert t[i..e] == s[i..e];
      WordsFromTrailingSpace(s, e);
    }
  }

  // ---------------------------------------------------------------------
  // The contract of `_chunk`
  // ---------------------------------------------------------------------

  /** Gluing all chunks together gives the text's words joined by single
      spaces: nothing is lost, reordered or split inside a word. */
  lemma ChunkRoundTrip(text: string, size: int)
    ensures Concat(Chunk(text, size)) == Join(Words(text), " ")
    ensures Words(Concat(Chunk(text, size))) == Words(text)
  {
    var gs := Groups(Words(text), [], 0, size);
    GroupsShape(Words(text), [], 0, size);
    assert Flatten(gs) == Words(text);
    RenderConcat(gs);
    WordsOfJoin(Words(text));
  }

  /** Empty or whitespace-only text yields no chunks, and any other text
      yields at least one. */
  lemma ChunkEmpty(text: string, size: int)
    ensures Chunk(text, size) == [] <==> AllSpace(text)
  {
    var gs := Groups(Words(text), [], 0, size);
    GroupsShape(Words(text), [], 0, size);
    RenderShape(gs);
    if gs == [] {
      assert Words(text) == Flatten(gs) == [];
    } else {
      assert |Flatten(gs)| > 0 by {
        assert Flatten(gs) == gs[0] + Flatten(gs[1..]);
      }
    }
  }

  /** What one flushed buffer looks like once rendered: `last` says whether
      it is the final chunk, which carries no trailing space. */
  lemma RenderedGroup(g: seq<string>, size: int, last: bool)
    requires |g| > 0 && AllWords(g) && Fits(g, size)
    ensures var c := if last then Join(g, " ") else Join(g, " ") + " ";
      && Words(c) == g
      && (last ==> |c| > 0 && !IsSpace(c[|c| - 1]))
      && (!last ==> |c| >= 2 && c[|c| - 1] == ' ' && !IsSpace(c[|c| - 2]))
      && (!last ==> |c| == Cost(g))
      && (|g| >= 2 ==> |c| <= size)
      && (|c| > size ==> Words(c) == [Strip(c)])
  {
    var j := Join(g, " ");
    WordsOfRendered(g);
    JoinLength(g);
    JoinEndsInWord(g);
    var c := if last then j else j + " ";
    if !last {
      assert c[|c| - 2] == j[|j| - 1];
    }
    if |c| > size {
      assert |g| == 1;
      assert j == g[0];
      assert IsWord(g[0]);
      StripTrimmed(g[0]);
      if !last {
        StripTrailingSpace(g[0]);
      }
    }
  }

  /** The flushed buffers behind the chunks of `text`, with the facts the
      chunk lemmas build on. */
  lemma GroupsOfText(text: string, size: int)
    ensures var gs := Groups(Words(text), [], 0, size);
      && |Chunk(text, size)| == |gs|
      && (forall i :: 0 <= i < |gs| ==> |gs[i]| > 0 && AllWords(gs[i]) && Fits(gs[i], size))
      && Greedy(gs, size)
      && (forall i :: 0 <= i < |gs| - 1 ==> Chunk(text, size)[i] == Join(gs[i], " ") + " ")
      && (|gs| > 0 ==> Chunk(text, size)[|gs| - 1] == Join(gs[|gs| - 1], " "))
  {
    var gs := Groups(Words(text), [], 0, size);
    GroupsShape(Words(text), [], 0, size);
    FlattenWords(gs);
    RenderShape(gs);
  }

  /** Each chunk is exactly the words of one flushed buffer, every chunk but
      the last ends in one space after a word, and the last ends in a word. */
  lemma ChunkShape(text: string, size: int)
    ensures var cs := Chunk(text, size);
      && (forall i :: 0 <= i < |cs| ==> |Words(cs[i])| > 0)
      && (forall i :: 0 <= i < |cs| - 1 ==>
            |cs[i]| >= 2 && cs[i][|cs[i]| - 1] == ' ' && !IsSpace(cs[i][|cs[i]| - 2]))
      && (|cs| > 0 ==> |cs[|cs| - 1]| > 0 && !IsSpace(cs[|cs| - 1][|cs[|cs| - 1]| - 1]))
  {
    var gs := Groups(Words(text), [], 0, size);
    var cs := Chunk(text, size);
    GroupsOfText(text, size);
    forall i | 0 <= i < |cs|
      ensures |Words(cs[i])| > 0
      ensures i < |cs| - 1 ==> |cs[i]| >= 2 && cs[i][|cs[i]| - 1] == ' ' && !IsSpace(cs[i][|cs[i]| - 2])
      ensures i == |cs| - 1 ==> |cs[i]| > 0 && !IsSpace(cs[i][|cs[i]| - 1])
    {
      RenderedGroup(gs[i], size, i == |cs| - 1);
    }
  }

  /** A chunk holding two or more words is at most `size` characters long, so
      only a single over-long word can exceed it, and it comes whole and alone.
      Each flush was forced: the next chunk's first word would not have fit. */
  lemma ChunkBounds(text: string, size: int)
    ensures var cs := Chunk(text, size);
      && (forall i :: 0 <= i < |cs| ==> |Words(cs[i])| > 0)
      && (forall i :: 0 <= i < |cs| && |Words(cs[i])| >= 2 ==> |cs[i]| <= size)
      && (forall i :: 0 <= i < |cs| && |cs[i]| > size ==> Words(cs[i]) == [Strip(cs[i])])
      && (forall i :: 0 <= i < |cs| - 1 ==> |cs[i]| + |Words(cs[i + 1])[0]| + 1 > size)
  {
    var gs := Groups(Words(text), [], 0, size);
    var cs := Chunk(text, size);
    GroupsOfText(text, size);
    forall i | 0 <= i < |cs|
      ensures Words(cs[i]) == gs[i]
      ensures |gs[i]| >= 2 ==> |cs[i]| <= size
      ensures |cs[i]| > size ==> Words(cs[i]) == [Strip(cs[i])]
      ensures i < |cs| - 1 ==> |cs[i]| == Cost(gs[i])
    {
      RenderedGroup(gs[i], size, i == |cs| - 1);
    }
  }

  lemma StripTrailingSpace(w: string)
    requires IsWord(w)
    ensures Strip(w + " ") == w
  {
    var s := w + " ";
    assert s[0] == w[0] && s[..|s| - 1] == w;
    calc {
      Strip(s);
      RStrip(s);
      RStrip(w);
      w;
    }
  }
}

=== FILE: completions.dfy ===
/** `completions.py`: the prompt window of `build_messages` and the request /
    response cycle of `OpenAICompletionService.get_stream`, which makes one
    atomic model call and then replays the chosen text as chunks. */
module Completions {
  import opened Wrappers
  import opened Text
  import opened Json
  import opened Prompt
  import Chunker

  /** Lines of game log included in a prompt. */
  const MaxLogLines: nat := 40

  /** `build_messages(recent_lines)`: the system prompt, then the user
      template filled with the last `MaxLogLines` lines joined by newlines. */
  function BuildMessages(prompts: Prompts, recentLines: seq<string>): (msgs: seq<Message>)
    ensures |msgs| == 2
    ensures msgs[0] == Message(System, prompts.system) && msgs[1].role == User
  {
    WindowMessages(prompts, recentLines, MaxLogLines)
  }

  /** The user message holds exactly the last min(n, 40) lines, in their
      original order: cutting off the template text and splitting at newlines
      gives them back (when no line inside the window holds a newline of
      its own). */
  lemma BuildMessagesWindow(prompts: Prompts, recentLines: seq<string>)
    requires forall k, j :: |recentLines| - MaxLogLines <= k < |recentLines| && 0 <= k && 0 <= j < |recentLines[k]| ==> recentLines[k][j] != '\n'
    ensures var content := BuildMessages(prompts, recentLines)[1].content;
      var n := |recentLines|;
      var m := if n < MaxLogLines then n else MaxLogLines;
      && |prompts.userBefore| + |prompts.userAfter| <= |content|
      && content[..|prompts.userBefore|] == prompts.userBefore
      && content[|content| - |prompts.userAfter|..] == prompts.userAfter
      && var excerpt := content[|prompts.userBefore|..|content| - |prompts.userAfter|];
         && (n == 0 ==> excerpt == "")
         && (n > 0 ==> Split(excerpt, "\n") == recentLines[n - m..])
  {
    WindowMessagesExcerpt(prompts, recentLines, MaxLogLines);
  }

  /** Why the stream yielded nothing.  `TransportError` is the model call's
      exception; the other two are the `AttributeError`s of `obj.get(...)`
      on a non-object reply and of `_chunk` on a non-string narration. */
  datatype StreamError = TransportError | NotAnObject | NarrationNotText

  /** What the generator produces when iterated: the chunks it yields and the
      text it returns. */
  datatype Streamed = Streamed(chunks: seq<string>, full: string)

  /** The audit log after the call, and the stream or the error. */
  datatype StreamRun = StreamRun(log: seq<Entry>, outcome: Result<Streamed, StreamError>)

  /** The object logged as the response: the decoded reply, or
      `{"narration": content}` when it does not decode. */
  function ResponseObject(codec: Codec, content: string): (obj: Json)
    ensures codec.decode(content).Some? ==> obj == codec.decode(content).value
    ensures codec.decode(content).None? ==> obj.JObject? && obj.fields == map["narration" := JString(content)]
  {
    match codec.decode(content)
    case Some(v) => v
    case None => JObject(map["narration" := JString(content)])
  }

  /** The text `get_stream` decides to stream: the narration alone, or the
      whole object as indented JSON for debugging. */
  function ChooseText(codec: Codec, obj: Json, onlyNarration: bool): (r: Result<string, StreamError>)
    ensures !onlyNarration ==> r == Ok(codec.dumpsIndented(obj))
    ensures onlyNarration && r.Ok? ==>
      obj.JObject? && Get(obj.fields, "narration", JString("")) == JString(r.value)
    ensures onlyNarration && obj.JObject? && "narration" !in obj.fields ==> r == Ok("")
    ensures onlyNarration && obj.JObject? && "narration" in obj.fields && obj.fields["narration"].JString? ==>
      r == Ok(obj.fields["narration"].s)
    ensures onlyNarration && !obj.JObject? ==> r == Err(NotAnObject)
  {
    if !onlyNarration then Ok(codec.dumpsIndented(obj))
    else if !obj.JObject? then Err(NotAnObject)
    else
      match Get(obj.fields, "narration", JString(""))
      case JString(s) => Ok(s)
      case _ => Err(NarrationNotText)
  }

  /** What iterating the generator produces once the reply text is in hand:
      the chunks of the chosen text, and that text as the return value. */
  function StreamOutcome(codec: Codec, onlyNarration: bool, content: string): (r: Result<Streamed, StreamError>)
    ensures r.Ok? ==> r.value.chunks == Chunker.Chunk(r.value.full, Chunker.DefaultSize)
    ensures onlyNarration && codec.decode(content).None? ==>
      r == Ok(Streamed(Chunker.Chunk(content, Chunker.DefaultSize), content))
    ensures onlyNarration && r.Ok? ==>
      var obj := ResponseObject(codec, content);
      obj.JObject? && Get(obj.fields, "narration", JString("")) == JString(r.value.full)
    ensures !onlyNarration ==> r.Ok? && r.value.full == codec.dumpsIndented(ResponseObject(codec, content))
  {
    var obj := ResponseObject(codec, content);
    assert codec.decode(content).None? ==> obj.fields["narration"] == JString(content);
    match ChooseText(codec, obj, onlyNarration)
    case Err(e) => Err(e)
    case Ok(text) => Ok(Streamed(Chunker.Chunk(text, Chunker.DefaultSize), text))
  }

  /** The request/response cycle of `get_stream` for a built prompt: log the
      request, call the model, log the response object, then stream the
      chosen text.  The request entry is written before the call and the
      response entry after it, once each; a failed call logs no response. */
  function Exchange(messages: seq<Message>, onlyNarration: bool, codec: Codec,
                    reply: Reply, log: seq<Entry>): (run: StreamRun)
    ensures |run.log| >= |log| + 1
    ensures forall i :: 0 <= i < |log| ==> run.log[i] == log[i]
    ensures run.log[|log|] == Request(messages)
    ensures reply.TransportFailure? ==> |run.log| == |log| + 1 && run.outcome == Err(TransportError)
    ensures reply.Answered? ==>
      && |run.log| == |log| + 2
      && run.log[|log| + 1] == Response(ResponseObject(codec, ReplyText(reply.content)))
      && run.outcome == StreamOutcome(codec, onlyNarration, ReplyText(reply.content))
  {
    var requested := log + [Request(messages)];
    match reply
    case TransportFailure => StreamRun(requested, Err(TransportError))
    case Answered(raw) =>
      var content := ReplyText(raw);
      StreamRun(requested + [Response(ResponseObject(codec, content))], StreamOutcome(codec, onlyNarration, content))
  }

  /** `get_stream(recent_lines)`: the cycle above for the prompt that
      `build_messages` makes of the recent lines. */
  function GetStream(prompts: Prompts, onlyNarration: bool, codec: Codec, recentLines: seq<string>,
                     reply: Reply, log: seq<Entry>): (run: StreamRun)
    ensures |run.log| >= |log| + 1
    ensures run.log[|log|] == Request(BuildMessages(prompts, recentLines))
  {
    Exchange(BuildMessages(prompts, recentLines), onlyNarration, codec, reply, log)
  }
}

=== FILE: controller.dfy ===
/** `zork_ai_controllers.py`: `ask_ai` runs one AI turn against a renderer
    (start, one write per chunk, exactly one finalize), and `stream_to_ui`
    in `completions.py` plugs the OpenAI service into it.  Each renderer call
    is recorded as an event, so a run is described by its trace. */
module Controller {
  import opened Wrappers
  import opened Text
  import opened Json
  import opened Prompt
  import Chunker
  import Completions

  /** Forty box-drawing horizontal lines. */
  const SeparatorLine: string := seq(40, _ => '\U{2500}')

  /** One call on the renderer. */
  datatype Event =
    | Start(separator: Option<string>)
    | Write(chunk: string)
    | Finalize(fullText: string)

  /** What `svc.get_stream(recent_lines)` gives the controller: either the
      call itself raises, or it returns a generator that yields `chunks`,
      then raises or returns `returnValue`. */
  datatype Source =
    | CallRaises
    | Generator(chunks: seq<string>, raisesAtEnd: bool, returnValue: string)

  /** How `ask_ai` ends: it returns the reply text, or an exception escapes. */
  datatype Outcome = Returned(text: string) | Raised

  /** Number of `write_ai` calls made when the write with index `failing`
      (if any) raises. */
  function WritesMade(chunks: seq<string>, failing: Option<nat>): nat {
    if failing.Some? && failing.value < |chunks| then failing.value + 1 else |chunks|
  }

  /** Number of `write_ai` calls that returned. */
  function WritesDone(chunks: seq<string>, failing: Option<nat>): nat {
    if failing.Some? && failing.value < |chunks| then failing.value else |chunks|
  }

  /** `ask_ai(ui, recent_lines, svc, show_separator=...)`; `failingWrite`
      is the index of the `write_ai` call that raises, if one does. */
  method AskAi(showSeparator: bool, src: Source, failingWrite: Option<nat>)
    returns (trace: seq<Event>, outcome: Outcome)
    ensures |trace| >= 1
    ensures trace[0] == Start(if showSeparator then Some(SeparatorLine) else None)
    ensures forall i :: 0 < i < |trace| ==> !trace[i].Start?
    // get_stream raising leaves the block started but never finalized
    ensures src.CallRaises? ==> trace == [trace[0]] && outcome == Raised
    // otherwise: the chunks in order, each once, until a write fails ...
    ensures src.Generator? ==>
      var made := WritesMade(src.chunks, failingWrite);
      && |trace| == made + 2
      && (forall i :: 1 <= i <= made ==> trace[i] == Write(src.chunks[i - 1]))
    // ... then exactly one finalize, last, with the chunks whose write returned
    ensures src.Generator? ==>
      trace[|trace| - 1] == Finalize(Concat(src.chunks[..WritesDone(src.chunks, failingWrite)]))
    // it returns exactly the finalized text when nothing failed
    ensures src.Generator? ==>
      (outcome.Returned? <==> WritesDone(src.chunks, failingWrite) == |src.chunks| && !src.raisesAtEnd)
    ensures outcome.Returned? ==> trace[|trace| - 1] == Finalize(outcome.text)
    ensures src.Generator? && failingWrite.None? && !src.raisesAtEnd ==> outcome == Returned(Concat(src.chunks))
  {
    var separator := if showSeparator then Some(SeparatorLine) else None;
    trace := [Start(separator)];
    if src.CallRaises? {
      outcome := Raised;
      return;
    }
    var chunks := src.chunks;
    var parts: seq<string> := [];
    var failed := false;
    var i := 0;
    while i < |chunks| && !failed
      invariant 0 <= i <= |chunks|
      invariant parts == chunks[..i]
      invariant failed ==> failingWrite == Some(i) && i < |chunks|
      invariant !failed ==> i <= WritesDone(chunks, failingWrite)
      invariant |trace| == 1 + i + (if failed then 1 else 0)
      invariant trace[0] == Start(separator)
      invariant forall k :: 1 <= k < |trace| ==> trace[k] == Write(chunks[k - 1])
      decreases |chunks| - i, if failed then 0 else 1
    {
      trace := trace + [Write(chunks[i])];
      if failingWrite == Some(i) {
        failed := true;
      } else {
        parts := parts + [chunks[i]];
        i := i + 1;
      }
    }
    assert !failed ==> parts == chunks;
    var fullText := Concat(parts);
    trace := trace + [Finalize(fullText)];
    outcome := if failed || src.raisesAtEnd then Raised else Returned(fullText);
  }

  /** The source `get_stream` is to the controller.  Calling a generator
      function runs none of its body, so even a failed model call surfaces
      inside the controller's `try`, as a generator that raises at once. */
  function AsSource(run: Completions.StreamRun): (src: Source)
    ensures src.Generator?
    ensures run.outcome.Ok? ==> src.chunks == run.outcome.value.chunks && !src.raisesAtEnd
    ensures run.outcome.Err? ==> src.chunks == [] && src.raisesAtEnd
  {
    match run.outcome
    case Ok(s) => Generator(s.chunks, false, s.full)
    case Err(_) => Generator([], true, "")
  }

  /** `stream_to_ui(ui, recent_lines)`: one narrated turn through the OpenAI
      service with the separator shown.  Whatever happens after the request
      is logged, the block is finalized exactly once.  `stream_to_ui` itself
      returns nothing: `outcome` only tells whether an exception escaped,
      and a completed plain-text turn finalizes the reply with its
      whitespace collapsed to single spaces between words. */
  method StreamToUi(prompts: Prompts, onlyNarration: bool, codec: Codec, recentLines: seq<string>,
                    reply: Reply, log: seq<Entry>, failingWrite: Option<nat>)
    returns (newLog: seq<Entry>, trace: seq<Event>, outcome: Outcome)
    ensures |newLog| >= |log| + 1 && newLog[|log|] == Request(Completions.BuildMessages(prompts, recentLines))
    ensures |trace| >= 2 && trace[0] == Start(Some(SeparatorLine)) && trace[|trace| - 1].Finalize?
    ensures reply.TransportFailure? ==> |trace| == 2 && trace[1] == Finalize("") && outcome == Raised
    ensures reply.Answered? && onlyNarration && codec.decode(ReplyText(reply.content)).None? && failingWrite.None? ==>
      outcome.Returned? && trace[|trace| - 1] == Finalize(Join(Words(ReplyText(reply.content)), " "))
  {
    var messages := Completions.BuildMessages(prompts, recentLines);
    var run := Completions.GetStream(prompts, onlyNarration, codec, recentLines, reply, log);
    assert run == Completions.Exchange(messages, onlyNarration, codec, reply, log);
    newLog := run.log;
    var src := AsSource(run);
    if reply.TransportFailure? {
      assert run.outcome.Err?;
    }
    trace, outcome := AskAi(true, src, failingWrite);
    if reply.TransportFailure? {
      assert src.chunks == [] && src.raisesAtEnd;
      assert WritesDone(src.chunks, failingWrite) == 0;
      assert src.chunks[..0] == [];
      assert Concat([]) == "";
      assert WritesMade(src.chunks, failingWrite) == 0;
      assert |trace| == 2;
      assert trace[1] == Finalize("");
      assert outcome == Raised;
    }
    if run.outcome.Ok? {
      var full := run.outcome.value.full;
      Chunker.ChunkRoundTrip(full, Chunker.DefaultSize);
    }
  }
}

=== FILE: image_defaults.dfy ===
/** The fixed style and negative prompts of `t2i/prompt_builder.py`, kept
    apart from the proofs that only pass them through. */
module ImageDefaults {
  /** Style applied when neither the caller nor the configuration gives one. */
  const DefaultStylePreset: string :=
    "monochrome ink illustration, retro text-adventure vibe, no UI chrome, no text overlays, avoid anachronisms"

  /** Negative prompt used when the caller gives none. */
  const NegativePromptBase: string :=
    "spoilers, puzzle solutions, inventory not visible, photorealism, modern devices, text overlays, disallowed content"
}

=== FILE: image_prompt.dfy ===
/** `t2i/prompt_builder.py`: turns the narrator's structured payload into a
    text-to-image prompt, a negative prompt and a seed.  The location is the
    last segment of the room path, the bullets are short labels cut before
    any dash, and the seed is the first 32 bits of a SHA-256 digest. */
module ImagePrompt {
  import opened Wrappers
  import opened Text
  import opened Json
  import ImageDefaults

  const UnknownLocation: string := "Unknown location"

  /** Room-path separators, in the order they are tried. */
  const Separators: seq<string> := ["->", "\U{2192}", "|", ","]

  const EmDash: char := '\U{2014}'

  const MaxObjects: nat := 3
  const MaxChanges: nat := 2

  /** `hashlib.sha256(...).hexdigest()`: 64 lower-case hex digits. */
  type HexDigest = s: string | |s| == 64 && forall i :: 0 <= i < |s| ==> IsHexDigit(s[i])
    witness seq(64, _ => '0')

  /** `PromptBundle(prompt, negative_prompt, seed)`. */
  datatype PromptBundle = PromptBundle(prompt: string, negativePrompt: string, seed: nat)

  // ---------------------------------------------------------------------
  // keeping the present values of a sequence, in order
  // ---------------------------------------------------------------------

  /** The values of `xs` that are present, in order. */
  function Compact<T>(xs: seq<Option<T>>): (r: seq<T>)
    ensures |r| <= |xs|
  {
    if xs == [] then []
    else Compact(xs[..|xs| - 1]) + (if xs[|xs| - 1].Some? then [xs[|xs| - 1].value] else [])
  }

  lemma CompactStep<T>(xs: seq<Option<T>>, i: nat)
    requires i < |xs|
    ensures Compact(xs[..i + 1]) == Compact(xs[..i]) + (if xs[i].Some? then [xs[i].value] else [])
  {
    assert xs[..i + 1][..i] == xs[..i];
  }

  /** Compacting a prefix gives a prefix of the compacted whole. */
  lemma {:induction false} CompactPrefix<T>(xs: seq<Option<T>>, i: nat)
    requires i <= |xs|
    ensures |Compact(xs[..i])| <= |Compact(xs)|
    ensures Compact(xs)[..|Compact(xs[..i])|] == Compact(xs[..i])
    decreases |xs| - i
  {
    if i < |xs| {
      CompactPrefix(xs, i + 1);
      CompactStep(xs, i);
    } else {
      assert xs[..i] == xs;
    }
  }

  /** Nothing is kept exactly when nothing is present. */
  lemma {:induction false} CompactEmpty<T>(xs: seq<Option<T>>)
    ensures Compact(xs) == [] <==> forall i :: 0 <= i < |xs| ==> xs[i].None?
  {
    if xs != [] {
      var init := xs[..|xs| - 1];
      CompactEmpty(init);
      assert forall i :: 0 <= i < |init| ==> init[i] == xs[i];
    }
  }

  /** No value after index `i` is present. */
  predicate NoneAfter<T>(xs: seq<Option<T>>, i: nat) {
    forall j :: i < j < |xs| ==> xs[j].None?
  }

  /** The last kept value is the last present one. */
  lemma {:induction false} CompactLast<T>(xs: seq<Option<T>>)
    requires Compact(xs) != []
    ensures exists i :: 0 <= i < |xs| && xs[i] == Some(Compact(xs)[|Compact(xs)| - 1]) && NoneAfter(xs, i)
  {
    var n := |xs|;
    var init := xs[..n - 1];
    var x := Compact(xs)[|Compact(xs)| - 1];
    if xs[n - 1].None? {
      assert Compact(xs) == Compact(init);
      CompactLast(init);
      var i :| 0 <= i < |init| && init[i] == Some(x) && NoneAfter(init, i);
      assert xs[i] == init[i];
      assert forall j :: i < j < n - 1 ==> init[j] == xs[j];
      assert NoneAfter(xs, i);
    } else {
      assert xs[n - 1] == Some(x) && NoneAfter(xs, n - 1);
    }
  }

  /** A property every present value has holds of every kept value. */
  lemma {:induction false} CompactAll<T>(xs: seq<Option<T>>, p: T -> bool)
    requires forall j :: 0 <= j < |xs| && xs[j].Some? ==> p(xs[j].value)
    ensures forall k :: 0 <= k < |Compact(xs)| ==> p(Compact(xs)[k])
  {
    if xs != [] {
      var init := xs[..|xs| - 1];
      assert forall j :: 0 <= j < |init| ==> init[j] == xs[j];
      CompactAll(init, p);
    }
  }

  /** Every kept value was present. */
  lemma {:induction false} CompactMember<T>(xs: seq<Option<T>>, x: T)
    requires x in Compact(xs)
    ensures Some(x) in xs
  {
    var init := xs[..|xs| - 1];
    if x in Compact(init) {
      CompactMember(init, x);
      var j :| 0 <= j < |init| && init[j] == Some(x);
      assert xs[j] == Some(x);
    } else {
      assert xs[|xs| - 1] == Some(x);
    }
  }

  // ---------------------------------------------------------------------
  // _extract_location
  // ---------------------------------------------------------------------

  /** A part's trimmed text when it is not blank. */
  function TrimmedPart(part: string): (r: Option<string>)
    ensures r.Some? <==> !AllSpace(part)
    ensures r.Some? ==> r.value == Strip(part) && r.value != "" && Trimmed(r.value)
  {
    var t := Strip(part);
    if t != "" then Some(t) else None
  }

  /** `p.strip()` of every part, kept only when not blank. */
  function TrimmedParts(parts: seq<string>): (xs: seq<Option<string>>)
    ensures |xs| == |parts|
    ensures forall i :: 0 <= i < |parts| ==> xs[i] == TrimmedPart(parts[i])
  {
    seq(|parts|, i requires 0 <= i < |parts| => TrimmedPart(parts[i]))
  }

  /** `[p.strip() for p in parts if p.strip()]`. */
  function NonBlank(parts: seq<string>): (r: seq<string>)
    ensures |r| <= |parts|
  {
    Compact(TrimmedParts(parts))
  }

  /** Some part is kept exactly when some part is not blank. */
  lemma NonBlankEmpty(parts: seq<string>)
    ensures NonBlank(parts) == [] <==> forall i :: 0 <= i < |parts| ==> AllSpace(parts[i])
  {
    CompactEmpty(TrimmedParts(parts));
  }

  /** Every kept part is non-empty and trimmed. */
  lemma KeptShape(parts: seq<string>, k: nat)
    requires k < |NonBlank(parts)|
    ensures NonBlank(parts)[k] != "" && Trimmed(NonBlank(parts)[k])
  {
    var xs := TrimmedParts(parts);
    var x := NonBlank(parts)[k];
    CompactMember(xs, x);
    var j :| 0 <= j < |xs| && xs[j] == Some(x);
    assert TrimmedPart(parts[j]) == Some(x);
  }

  /** Every part after index `i` is blank. */
  predicate BlankAfter(parts: seq<string>, i: nat) {
    forall j :: i < j < |parts| ==> AllSpace(parts[j])
  }

  /** The last kept part: `parts[-1]` of the kept list. */
  function LastKept(parts: seq<string>): string
    requires NonBlank(parts) != []
  {
    NonBlank(parts)[|NonBlank(parts)| - 1]
  }

  /** The last kept part is the trimmed last non-blank part. */
  lemma NonBlankLast(parts: seq<string>)
    requires NonBlank(parts) != []
    ensures exists i :: (0 <= i < |parts| && !AllSpace(parts[i])
      && LastKept(parts) == Strip(parts[i]) && BlankAfter(parts, i))
  {
    var xs := TrimmedParts(parts);
    var x := LastKept(parts);
    CompactLast(xs);
    var i :| 0 <= i < |xs| && xs[i] == Some(x) && NoneAfter(xs, i);
    assert TrimmedPart(parts[i]) == Some(x);
    assert BlankAfter(parts, i) by {
      forall j | i < j < |parts| ensures AllSpace(parts[j]) {
        assert xs[j].None?;
      }
    }
  }

  /** Splitting at `sep` leaves at least one non-blank part. */
  predicate Yields(roomPath: string, sep: string) {
    sep != "" && Contains(roomPath, sep) && NonBlank(Split(roomPath, sep)) != []
  }

  /** The last kept part of the split at `sep`. */
  function LastSegment(roomPath: string, sep: string): (r: string)
    requires Yields(roomPath, sep)
    ensures r != "" && Trimmed(r)
  {
    var parts := Split(roomPath, sep);
    KeptShape(parts, |NonBlank(parts)| - 1);
    LastKept(parts)
  }

  /** The segment chosen by the first separator of `seps` that yields one. */
  function PickSegment(roomPath: string, seps: seq<string>): (r: Option<string>)
    ensures r.Some? ==> r.value != "" && Trimmed(r.value)
  {
    if seps == [] then None
    else if Yields(roomPath, seps[0]) then Some(LastSegment(roomPath, seps[0]))
    else PickSegment(roomPath, seps[1..])
  }

  /** `_extract_location(room_path)`. */
  function ExtractLocation(roomPath: string): (r: string)
    ensures roomPath == "" ==> r == UnknownLocation
    ensures Trimmed(r)
    ensures roomPath == "" || !AllSpace(roomPath) ==> r != ""
  {
    if roomPath == "" then UnknownLocation
    else
      match PickSegment(roomPath, Separators)
      case Some(segment) => segment
      case None => Strip(roomPath)
  }

  /** The first separator that yields a part decides the segment. */
  lemma {:induction false} PickFrom(roomPath: string, seps: seq<string>, k: nat)
    requires k < |seps| && Yields(roomPath, seps[k])
    requires forall j :: 0 <= j < k ==> !Yields(roomPath, seps[j])
    ensures PickSegment(roomPath, seps) == Some(LastSegment(roomPath, seps[k]))
  {
    if k > 0 {
      assert !Yields(roomPath, seps[0]);
      var rest := seps[1..];
      assert forall j :: 0 <= j < k - 1 ==> rest[j] == seps[j + 1];
      PickFrom(roomPath, rest, k - 1);
    }
  }

  /** No segment is picked when no separator yields a part. */
  lemma {:induction false} PickNone(roomPath: string, seps: seq<string>)
    requires forall j :: 0 <= j < |seps| ==> !Yields(roomPath, seps[j])
    ensures PickSegment(roomPath, seps) == None
  {
    if seps != [] {
      assert !Yields(roomPath, seps[0]);
      var rest := seps[1..];
      assert forall j :: 0 <= j < |rest| ==> rest[j] == seps[j + 1];
      PickNone(roomPath, rest);
    }
  }

  /** When no separator leaves a non-blank part, the location is the whole
      trimmed path. */
  lemma LocationWithoutSeparator(roomPath: string)
    requires roomPath != ""
    requires forall j :: 0 <= j < |Separators| ==> !Yields(roomPath, Separators[j])
    ensures ExtractLocation(roomPath) == Strip(roomPath)
  {
    PickNone(roomPath, Separators);
  }

  /** When the `k`-th separator is the first that leaves a non-blank part,
      the location is the last kept part of that split (which
      `NonBlankLast` identifies as the trimmed last non-blank part). */
  lemma LocationFromSeparator(roomPath: string, k: nat)
    requires roomPath != "" && k < |Separators|
    requires forall j :: 0 <= j < k ==> !Yields(roomPath, Separators[j])
    requires Yields(roomPath, Separators[k])
    ensures ExtractLocation(roomPath) == LastKept(Split(roomPath, Separators[k]))
  {
    PickFrom(roomPath, Separators, k);
  }

  // ---------------------------------------------------------------------
  // _extract_bullets
  // ---------------------------------------------------------------------

  /** `text.split(c, 1)[0]`: everything before the first `c`. */
  function CutBefore(t: string, c: char): (r: string)
    ensures |r| <= |t| && r == t[..|r|]
    ensures Lacks(r, c)
    ensures Lacks(t, c) ==> r == t
    ensures !Lacks(t, c) ==> |r| < |t| && t[|r|] == c
  {
    match Find(t, [c], 0)
    case None =>
      assert Lacks(t, c) by {
        forall j | 0 <= j < |t| ensures t[j] != c {
          assert !OccursAt(t, [c], j);
          assert t[j..j + 1][0] == t[j];
        }
      }
      t
    case Some(i) =>
      assert Lacks(t[..i], c) by {
        forall j | 0 <= j < i ensures t[..i][j] != c {
          assert !OccursAt(t, [c], j);
          assert t[j..j + 1][0] == t[j];
        }
      }
      assert !Lacks(t, c) by { assert t[i..i + 1][0] == t[i]; }
      t[..i]
  }

  /** One bullet: `str(raw).strip()`, cut before the first em dash, or
      failing that the first hyphen, and trimmed again. */
  function Clean(raw: string): (r: string)
    ensures Trimmed(r)
    ensures Lacks(r, EmDash)
    ensures Lacks(Strip(raw), EmDash) ==> Lacks(r, '-')
    ensures Lacks(Strip(raw), EmDash) && Lacks(Strip(raw), '-') ==> r == Strip(raw)
  {
    var t := Strip(raw);
    if !Lacks(t, EmDash) then
      var cut := CutBefore(t, EmDash);
      LacksStrip(cut, EmDash);
      Strip(cut)
    else if !Lacks(t, '-') then
      var cut := CutBefore(t, '-');
      assert Lacks(cut, EmDash) by {
        assert forall j :: 0 <= j < |cut| ==> cut[j] == t[j];
      }
      LacksStrip(cut, EmDash);
      LacksStrip(cut, '-');
      Strip(cut)
    else t
  }

  /** `c` occurs at `k` in `t` and nowhere before it. */
  predicate FirstAt(t: string, c: char, k: int) {
    0 <= k < |t| && t[k] == c && Lacks(t[..k], c)
  }

  /** An item holding an em dash keeps the stripped text before its first
      em dash; one holding a hyphen but no em dash keeps the stripped text
      before its first hyphen. */
  lemma CleanHead(raw: string)
    ensures !Lacks(Strip(raw), EmDash) ==>
      exists k :: FirstAt(Strip(raw), EmDash, k) && Clean(raw) == Strip(Strip(raw)[..k])
    ensures Lacks(Strip(raw), EmDash) && !Lacks(Strip(raw), '-') ==>
      exists k :: FirstAt(Strip(raw), '-', k) && Clean(raw) == Strip(Strip(raw)[..k])
  {
    var t := Strip(raw);
    if !Lacks(t, EmDash) {
      var cut := CutBefore(t, EmDash);
      assert FirstAt(t, EmDash, |cut|) && t[..|cut|] == cut;
    } else if !Lacks(t, '-') {
      var cut := CutBefore(t, '-');
      assert FirstAt(t, '-', |cut|) && t[..|cut|] == cut;
    }
  }

  /** A labelled bullet `"<name> — <note>"` keeps only its name. */
  lemma CleanDropsNote(name: string, note: string)
    requires name != "" && Trimmed(name) && Lacks(name, EmDash)
    requires note != "" && Trimmed(note)
    ensures Clean(name + " " + [EmDash] + " " + note) == name
  {
    var raw := name + " " + [EmDash] + " " + note;
    assert raw[0] == name[0] && raw[|raw| - 1] == note[|note| - 1];
    StripTrimmed(raw);
    assert !Lacks(raw, EmDash) by { assert raw[|name| + 1] == EmDash; }
    assert raw == (name + " ") + ([EmDash] + " " + note);
    assert Lacks(name + " ", EmDash) by {
      assert forall j :: 0 <= j < |name| ==> (name + " ")[j] == name[j];
    }
    CutBeforeAt(name + " ", [EmDash] + " " + note, EmDash);
    StripPadded("", name, " ");
    assert "" + name + " " == name + " ";
    StripTrimmed(name);
  }

  /** Cutting before `c` keeps exactly the part in front of its first
      occurrence. */
  lemma CutBeforeAt(a: string, b: string, c: char)
    requires Lacks(a, c) && |b| > 0 && b[0] == c
    ensures CutBefore(a + b, c) == a
  {
    var t := a + b;
    assert OccursAt(t, [c], |a|) by { assert t[|a|..|a| + 1] == [c]; }
    forall j | 0 <= j < |a| ensures !OccursAt(t, [c], j) {
      assert t[j] == a[j];
      assert t[j..j + 1][0] == t[j];
    }
    assert Find(t, [c], 0) == Some(|a|);
    assert t[..|a|] == a;
  }

  /** The strings `for raw in value` iterates over, through `str(raw)`:
      the items of a list, the characters of a string, nothing otherwise
      (a dict, a number, `None` and a boolean are not sequences). */
  function Raws(codec: Codec, value: Json): (r: seq<string>)
    ensures value.JArray? ==> |r| == |value.items|
    ensures value.JString? ==> |r| == |value.s|
    ensures !value.JArray? && !value.JString? ==> r == []
  {
    match value
    case JArray(items) => seq(|items|, i requires 0 <= i < |items| => Str(codec, items[i]))
    case JString(s) => seq(|s|, i requires 0 <= i < |s| => [s[i]])
    case _ => []
  }

  /** A bullet's cleaned text when it is not empty. */
  function Candidate(raw: string): Option<string> {
    var text := Clean(raw);
    if text != "" then Some(text) else None
  }

  /** The candidates of each raw item, in order. */
  function Candidates(raws: seq<string>): (xs: seq<Option<string>>)
    ensures |xs| == |raws|
    ensures forall i :: 0 <= i < |raws| ==> xs[i] == Candidate(raws[i])
  {
    seq(|raws|, i requires 0 <= i < |raws| => Candidate(raws[i]))
  }

  /** The first element, if any. */
  function First<T>(xs: seq<T>): (r: seq<T>)
    ensures |r| <= 1 && |r| <= |xs| && r == xs[..|r|]
    ensures xs != [] ==> |r| == 1
  {
    if xs == [] then [] else xs[..1]
  }

  /** `ys[:m]`. */
  function Limit<T>(ys: seq<T>, m: nat): (r: seq<T>)
    ensures |r| <= m && |r| <= |ys| && r == ys[..|r|]
    ensures |ys| <= m ==> r == ys
  {
    if |ys| <= m then ys else ys[..m]
  }

  /** Stopping once `m` values are kept, or at the end, keeps the first `m`
      present values. */
  lemma LimitCompact<T>(xs: seq<Option<T>>, i: nat, m: nat)
    requires i <= |xs| && |Compact(xs[..i])| <= m
    requires |Compact(xs[..i])| == m || i == |xs|
    ensures Limit(Compact(xs), m) == Compact(xs[..i])
  {
    CompactPrefix(xs, i);
    if i == |xs| {
      assert xs[..i] == xs;
    }
  }

  /** What `_extract_bullets(value, max_items=maxItems)` returns: the first
      `maxItems` non-empty cleaned bullets, in order.  The limit is checked
      after each item, so a limit of zero still admits the first item. */
  function Bullets(codec: Codec, value: Json, maxItems: nat): (r: seq<string>)
    ensures |r| <= (if maxItems == 0 then 1 else maxItems)
    ensures !value.JArray? && !value.JString? ==> r == []
  {
    UpTo(Candidates(Raws(codec, value)), maxItems)
  }

  /** The present values of `xs`, stopping once `maxItems` are kept (and
      after the first item when `maxItems` is zero). */
  function UpTo<T>(xs: seq<Option<T>>, maxItems: nat): seq<T> {
    if maxItems == 0 then Compact(First(xs)) else Limit(Compact(xs), maxItems)
  }

  /** `f` applied to every item, in order. */
  function MapAll<S, T>(items: seq<S>, f: S -> T): (r: seq<T>)
    ensures |r| == |items|
    ensures forall i :: 0 <= i < |items| ==> r[i] == f(items[i])
  {
    seq(|items|, i requires 0 <= i < |items| => f(items[i]))
  }

  /** `_extract_bullets(value, max_items=maxItems)`, loop as written. */
  method ExtractBullets(codec: Codec, value: Json, maxItems: nat) returns (results: seq<string>)
    ensures results == Bullets(codec, value, maxItems)
  {
    var raws := Raws(codec, value);
    results := CollectUpTo(raws, Candidate, maxItems);
    assert MapAll(raws, Candidate) == Candidates(raws);
  }

  /** The loop of `_extract_bullets`: clean each item with `f`, keep what is
      present, and stop once `maxItems` are kept; the limit is checked after
      each item. */
  method CollectUpTo<S, T>(raws: seq<S>, f: S -> Option<T>, maxItems: nat) returns (results: seq<T>)
    ensures results == UpTo(MapAll(raws, f), maxItems)
  {
    ghost var xs := MapAll(raws, f);
    results := [];
    var i := 0;
    while i < |raws|
      invariant 0 <= i <= |raws|
      invariant results == Compact(xs[..i])
      invariant maxItems == 0 ==> i == 0
      invariant maxItems > 0 ==> |results| < maxItems
    {
      var candidate := f(raws[i]);
      CompactStep(xs, i);
      if candidate.Some? {
        results := results + [candidate.value];
      }
      i := i + 1;
      if |results| >= maxItems {
        break;
      }
    }
    if maxItems == 0 {
      assert First(xs) == xs[..i];
    } else {
      LimitCompact(xs, i, maxItems);
    }
  }


  /** The shape every bullet has: a non-empty trimmed label without an em
      dash. */
  predicate Label(b: string) {
    b != "" && Trimmed(b) && Lacks(b, EmDash)
  }

  /** Every candidate that is kept is a label. */
  lemma CandidatesAreLabels(raws: seq<string>)
    ensures forall j :: 0 <= j < |raws| && Candidates(raws)[j].Some? ==> Label(Candidates(raws)[j].value)
  {
    forall j | 0 <= j < |raws| && Candidates(raws)[j].Some?
      ensures Label(Candidates(raws)[j].value)
    {
      assert Candidates(raws)[j] == Candidate(raws[j]);
    }
  }

  /** Every bullet is a non-empty trimmed label without an em dash. */
  lemma BulletShape(codec: Codec, value: Json, maxItems: nat, k: nat)
    requires k < |Bullets(codec, value, maxItems)|
    ensures Bullets(codec, value, maxItems)[k] != ""
    ensures Trimmed(Bullets(codec, value, maxItems)[k])
    ensures Lacks(Bullets(codec, value, maxItems)[k], EmDash)
  {
    var raws := Raws(codec, value);
    CandidatesAreLabels(raws);
    UpToAll(Candidates(raws), maxItems, Label);
    assert Label(Bullets(codec, value, maxItems)[k]);
  }

  /** A property every present value has holds of every value kept. */
  lemma UpToAll<T>(xs: seq<Option<T>>, maxItems: nat, p: T -> bool)
    requires forall j :: 0 <= j < |xs| && xs[j].Some? ==> p(xs[j].value)
    ensures forall k :: 0 <= k < |UpTo(xs, maxItems)| ==> p(UpTo(xs, maxItems)[k])
  {
    var ys := if maxItems == 0 then First(xs) else xs;
    assert forall j :: 0 <= j < |ys| ==> ys[j] == xs[j];
    CompactAll(ys, p);
    var bs := UpTo(xs, maxItems);
    assert bs == Compact(ys)[..|bs|];
  }

  // ---------------------------------------------------------------------
  // _derive_seed
  // ---------------------------------------------------------------------

  /** The lower-case hex digit of a value below 16. */
  function HexChar(v: nat): (c: char)
    requires v < 16
    ensures IsHexDigit(c) && HexValue(c) == v
  {
    if v < 10 then ('0' as int + v) as char else ('a' as int + v - 10) as char
  }

  /** `format(n, "0{width}x")` for `n` below `16 ** width`. */
  function HexDigits(n: nat, width: nat): (s: string)
    ensures |s| == width
  {
    if width == 0 then "" else HexDigits(n / 16, width - 1) + [HexChar(n % 16)]
  }

  /** Reading a hex string and writing the value back at the same width
      gives the string again: `int(s, 16)` loses nothing. */
  lemma {:induction false} HexRoundTrip(s: string)
    requires forall i :: 0 <= i < |s| ==> IsHexDigit(s[i])
    ensures HexDigits(ParseHex(s), |s|) == s
  {
    if |s| > 0 {
      var init := s[..|s| - 1];
      var last := s[|s| - 1];
      assert forall i :: 0 <= i < |init| ==> init[i] == s[i];
      HexRoundTrip(init);
      var v := ParseHex(s);
      assert v == ParseHex(init) * 16 + HexValue(last);
      assert v / 16 == ParseHex(init) && v % 16 == HexValue(last);
      assert HexChar(HexValue(last)) == last by {
        HexCharOfValue(last);
      }
      assert s == init + [last];
    }
  }

  lemma HexCharOfValue(c: char)
    requires IsHexDigit(c)
    ensures HexChar(HexValue(c)) == c
  {
  }

  /** The text the digest is taken of: `f"{location}|{turn_index}"`. */
  function SeedBasis(location: string, turnIndex: int): string {
    location + "|" + IntToString(turnIndex)
  }

  /** `_derive_seed(location, turn_index)`: the first eight hex digits of
      the SHA-256 digest, read as an unsigned 32-bit number. */
  function DeriveSeed(sha: string -> HexDigest, location: string, turnIndex: int): (seed: nat)
    ensures seed < 0x1_0000_0000
  {
    var digest := sha(SeedBasis(location, turnIndex));
    var head := digest[..8];
    assert forall i :: 0 <= i < 8 ==> head[i] == digest[i];
    assert Pow16(8) == 0x1_0000_0000;
    ParseHex(head)
  }

  /** The seed, written back as eight hex digits, is the digest's prefix. */
  lemma SeedKeepsDigestPrefix(sha: string -> HexDigest, location: string, turnIndex: int)
    ensures HexDigits(DeriveSeed(sha, location, turnIndex), 8) == sha(SeedBasis(location, turnIndex))[..8]
  {
    var digest := sha(SeedBasis(location, turnIndex));
    var head := digest[..8];
    assert forall i :: 0 <= i < 8 ==> head[i] == digest[i];
    HexRoundTrip(head);
  }

  // ---------------------------------------------------------------------
  // build_prompt_bundle
  // ---------------------------------------------------------------------

  /** `style_preset or get_config_value("image_style_preset",
      DEFAULT_STYLE_PRESET)`; `configured` is the configuration entry. */
  function ChoosePreset(stylePreset: Option<string>, configured: Option<string>): (r: string)
    ensures stylePreset.Some? && stylePreset.value != "" ==> r == stylePreset.value
    ensures (stylePreset.None? || stylePreset.value == "") && configured.Some? ==> r == configured.value
    ensures (stylePreset.None? || stylePreset.value == "") && configured.None? ==> r == ImageDefaults.DefaultStylePreset
  {
    if stylePreset.Some? && stylePreset.value != "" then stylePreset.value
    else configured.GetOr(ImageDefaults.DefaultStylePreset)
  }

  /** `negative_prompt or NEGATIVE_PROMPT_BASE`. */
  function ChooseNegative(negativePrompt: Option<string>): (r: string)
    ensures negativePrompt.Some? && negativePrompt.value != "" ==> r == negativePrompt.value
    ensures negativePrompt.None? || negativePrompt.value == "" ==> r == ImageDefaults.NegativePromptBase
  {
    if negativePrompt.Some? && negativePrompt.value != "" then negativePrompt.value
    else ImageDefaults.NegativePromptBase
  }

  /** `str(payload.get(key, "")).strip()`. */
  function Field(codec: Codec, payload: Payload, key: string): (r: string)
    ensures Trimmed(r)
    ensures key !in payload ==> r == ""
  {
    Strip(Str(codec, Get(payload, key, JString(""))))
  }

  /** The location the prompt and the seed use. */
  function Location(codec: Codec, payload: Payload): (r: string)
    ensures r != "" && Trimmed(r)
  {
    ExtractLocation(Field(codec, payload, "game-room-path"))
  }

  /** `[part for part in parts if part]`. */
  function NonEmpty(parts: seq<string>): (r: seq<string>)
    ensures |r| <= |parts|
    ensures forall k :: 0 <= k < |r| ==> r[k] != ""
  {
    if parts == [] then []
    else (if parts[0] != "" then [parts[0]] else []) + NonEmpty(parts[1..])
  }

  /** The optional parts after the scene, in order. */
  function Details(objects: seq<string>, changes: seq<string>, mood: string): (r: seq<string>)
    ensures Filled(r)
  {
    (if objects != [] then ["Objects in view: " + Join(objects, ", ")] else [])
    + (if changes != [] then ["Recent changes: " + Join(changes, ", ")] else [])
    + (if mood != "" then ["Mood: " + mood] else [])
  }

  /** The scene part and the details after it. */
  function SceneOnward(location: string, objects: seq<string>, changes: seq<string>, mood: string): seq<string> {
    [Strip("Scene: " + location)] + Details(objects, changes, mood)
  }

  /** `". ".join(part for part in prompt_parts if part)`. */
  function PromptText(preset: string, location: string, objects: seq<string>, changes: seq<string>, mood: string): string {
    Join(NonEmpty([preset] + SceneOnward(location, objects, changes, mood)), ". ")
  }

  /** The preset, unless it is empty. */
  function Opening(preset: string): seq<string> {
    if preset != "" then [preset] else []
  }

  /** The scene part keeps its label and the whole location. */
  lemma SceneLabel(location: string)
    requires location != "" && Trimmed(location)
    ensures Strip("Scene: " + location) == "Scene: " + location
  {
    var scene := "Scene: " + location;
    assert scene[0] == 'S' && scene[|scene| - 1] == location[|location| - 1];
    StripTrimmed(scene);
  }

  lemma NonEmptyCons(x: string, rest: seq<string>)
    ensures NonEmpty([x] + rest) == Opening(x) + NonEmpty(rest)
  {
    ConsAppend([x], rest);
  }

  /** No part is empty. */
  predicate Filled(parts: seq<string>) {
    forall k :: 0 <= k < |parts| ==> parts[k] != ""
  }

  lemma FilledCons(x: string, parts: seq<string>)
    requires x != "" && Filled(parts)
    ensures Filled([x] + parts)
  {
    assert forall k :: 0 < k < |parts| + 1 ==> ([x] + parts)[k] == parts[k - 1];
  }

  lemma {:induction false} NonEmptyKeepsFilled(parts: seq<string>)
    requires Filled(parts)
    ensures NonEmpty(parts) == parts
  {
    if parts != [] {
      NonEmptyKeepsFilled(parts[1..]);
      ConsAppend(parts, []);
    }
  }

  lemma PromptPartsKept(preset: string, location: string, objects: seq<string>, changes: seq<string>, mood: string)
    requires location != "" && Trimmed(location)
    ensures NonEmpty([preset] + SceneOnward(location, objects, changes, mood))
      == Opening(preset) + (["Scene: " + location] + Details(objects, changes, mood))
  {
    var rest := ["Scene: " + location] + Details(objects, changes, mood);
    assert SceneOnward(location, objects, changes, mood) == rest by {
      SceneLabel(location);
    }
    FilledCons("Scene: " + location, Details(objects, changes, mood));
    NonEmptyKeepsFilled(rest);
    NonEmptyCons(preset, rest);
  }

  /** The prompt is the preset when it is not empty, the scene, then the
      objects, changes and mood that are present, joined by `". "`: only
      the preset can be dropped. */
  lemma PromptLayout(preset: string, location: string, objects: seq<string>, changes: seq<string>, mood: string)
    requires location != "" && Trimmed(location)
    ensures PromptText(preset, location, objects, changes, mood) ==
      Join(Opening(preset) + (["Scene: " + location] + Details(objects, changes, mood)), ". ")
  {
    PromptPartsKept(preset, location, objects, changes, mood);
  }

  /** The prompt opens with the preset and the scene. */
  lemma PromptOpening(preset: string, location: string, objects: seq<string>, changes: seq<string>, mood: string)
    requires location != "" && Trimmed(location)
    ensures preset != "" ==> StartsWith(PromptText(preset, location, objects, changes, mood), preset + ". " + ("Scene: " + location))
    ensures preset == "" ==> StartsWith(PromptText(preset, location, objects, changes, mood), "Scene: " + location)
  {
    PromptLayout(preset, location, objects, changes, mood);
    var rest := ["Scene: " + location] + Details(objects, changes, mood);
    var ws := Opening(preset) + rest;
    if preset != "" {
      assert ws[0] == preset && ws[1] == "Scene: " + location;
      JoinOpening(ws, ". ");
    } else {
      assert ws == rest;
      JoinHead(rest, ". ");
    }
  }

  /** A mood, when there is one, closes the prompt. */
  lemma PromptClosing(preset: string, location: string, objects: seq<string>, changes: seq<string>, mood: string)
    requires location != "" && Trimmed(location) && mood != ""
    ensures EndsWith(PromptText(preset, location, objects, changes, mood), ". " + ("Mood: " + mood))
  {
    PromptLayout(preset, location, objects, changes, mood);
    var details := Details(objects, changes, mood);
    assert details[|details| - 1] == "Mood: " + mood;
    var ws := Opening(preset) + (["Scene: " + location] + details);
    assert ws[|ws| - 1] == "Mood: " + mood;
    JoinClosing(ws, ". ");
  }

  /** The objects in view. */
  function Objects(codec: Codec, payload: Payload): (r: seq<string>)
    ensures |r| <= MaxObjects
  {
    Bullets(codec, Get(payload, "game-last-objects", JArray([])), MaxObjects)
  }

  /** The recent changes. */
  function Changes(codec: Codec, payload: Payload): (r: seq<string>)
    ensures |r| <= MaxChanges
  {
    Bullets(codec, Get(payload, "game-last-changes", JArray([])), MaxChanges)
  }

  /** `build_prompt_bundle(payload, turn_index=..., style_preset=...,
      negative_prompt=...)`.  The prompt opens with the chosen preset (when
      not empty) and the scene, lists at most three objects and two
      changes, and closes with the mood when there is one. */
  function BuildPromptBundle(codec: Codec, sha: string -> HexDigest, payload: Payload, turnIndex: int,
                             stylePreset: Option<string>, negativePrompt: Option<string>,
                             configured: Option<string>): (b: PromptBundle)
    ensures b.negativePrompt == ChooseNegative(negativePrompt)
    ensures b.seed == DeriveSeed(sha, Location(codec, payload), turnIndex) && b.seed < 0x1_0000_0000
    ensures b.prompt == Join(
      Opening(ChoosePreset(stylePreset, configured))
      + (["Scene: " + Location(codec, payload)]
         + Details(Objects(codec, payload), Changes(codec, payload), Field(codec, payload, "game-intent"))), ". ")
  {
    var location := Location(codec, payload);
    var preset := ChoosePreset(stylePreset, configured);
    var objects := Objects(codec, payload);
    var changes := Changes(codec, payload);
    var mood := Field(codec, payload, "game-intent");
    PromptLayout(preset, location, objects, changes, mood);
    PromptBundle(PromptText(preset, location, objects, changes, mood),
                 ChooseNegative(negativePrompt),
                 DeriveSeed(sha, location, turnIndex))
  }
}

=== FILE: image_state.dfy ===
/** `t2i/state.py`: the shared slot holding the latest structured AI payload
    and the turn counter of the image companion.  The lock only serialises
    the calls, so the state is modelled as a value that each call maps to
    its successor.  Payloads are immutable values.  The source's copies on
    store and on read are shallow, so nested lists stay shared with the
    caller.  The model behaves like a deep copy; the only reader in the
    repository (the image hook) reads the payload without mutating it, and
    `store_ai_payload` has no caller there, so the sharing is never
    observed. */
module ImageState {
  import opened Wrappers
  import opened Json

  /** `_last_ai_payload` and `_turn_index`. */
  datatype Store = Store(last: Option<Payload>, turn: int)

  /** The state at import time: no payload, counter at zero. */
  const Initial: Store := Store(None, 0)

  /** `store_ai_payload(payload)`: replaces the slot, keeps the counter. */
  function StoreAiPayload(st: Store, payload: Payload): (r: Store)
    ensures r.last == Some(payload)
    ensures r.turn == st.turn
  {
    st.(last := Some(payload))
  }

  /** `get_last_ai_payload()`. */
  function GetLastAiPayload(st: Store): Option<Payload> {
    st.last
  }

  /** `next_turn()`: increments the counter and returns the new value. */
  function NextTurn(st: Store): (r: (Store, int))
    ensures r.1 == st.turn + 1
    ensures r.0.turn == r.1
    ensures r.0.last == st.last
  {
    var n := st.turn + 1;
    (st.(turn := n), n)
  }

  /** `reset_turn_counter()`. */
  function ResetTurnCounter(st: Store): (r: Store)
    ensures r.turn == 0
    ensures r.last == st.last
  {
    st.(turn := 0)
  }

  /** One call on the module. */
  datatype Call = StoreCall(payload: Payload) | GetCall | NextCall | ResetCall

  /** What a call returns: nothing, a payload slot, or a turn number. */
  datatype Answer = NoAnswer | PayloadAnswer(payload: Option<Payload>) | TurnAnswer(turn: int)

  /** The state after one call, and its answer. */
  function Step(st: Store, call: Call): (Store, Answer) {
    match call
    case StoreCall(p) => (StoreAiPayload(st, p), NoAnswer)
    case GetCall => (st, PayloadAnswer(GetLastAiPayload(st)))
    case NextCall => var (s, n) := NextTurn(st); (s, TurnAnswer(n))
    case ResetCall => (ResetTurnCounter(st), NoAnswer)
  }

  /** The state after a sequence of calls, and their answers in order. */
  function Run(st: Store, calls: seq<Call>): (r: (Store, seq<Answer>))
    ensures |r.1| == |calls|
    decreases |calls|
  {
    if calls == [] then (st, [])
    else
      var (s, a) := Step(st, calls[0]);
      var (t, rest) := Run(s, calls[1..]);
      (t, [a] + rest)
  }

  /** Before any store, there is no payload. */
  lemma NothingStoredInitially()
    ensures GetLastAiPayload(Initial) == None
  {
  }

  /** A read after a store gives back the stored mapping. */
  lemma StoreThenGet(st: Store, payload: Payload)
    ensures GetLastAiPayload(StoreAiPayload(st, payload)) == Some(payload)
  {
  }

  /** After a reset, the next turn is 1. */
  lemma ResetThenNext(st: Store)
    ensures NextTurn(ResetTurnCounter(st)).1 == 1
  {
  }

  /** `k` successive `next_turn()` calls return `n + 1`, ..., `n + k`. */
  lemma {:induction false} SuccessiveTurns(st: Store, k: nat)
    ensures var r := Run(st, seq(k, _ => NextCall));
      && r.0.turn == st.turn + k
      && r.0.last == st.last
      && forall i :: 0 <= i < k ==> r.1[i] == TurnAnswer(st.turn + i + 1)
    decreases k
  {
    if k > 0 {
      var calls := seq(k, _ => NextCall);
      assert calls[1..] == seq(k - 1, _ => NextCall);
      var s := NextTurn(st).0;
      SuccessiveTurns(s, k - 1);
    }
  }

  /** Calls that do not store leave the payload alone. */
  lemma {:induction false} CounterCallsKeepPayload(st: Store, calls: seq<Call>)
    requires forall i :: 0 <= i < |calls| ==> !calls[i].StoreCall?
    ensures Run(st, calls).0.last == st.last
    decreases |calls|
  {
    if calls != [] {
      CounterCallsKeepPayload(Step(st, calls[0]).0, calls[1..]);
    }
  }

  /** Calls that neither count nor reset leave the counter alone. */
  lemma {:induction false} PayloadCallsKeepCounter(st: Store, calls: seq<Call>)
    requires forall i :: 0 <= i < |calls| ==> calls[i].StoreCall? || calls[i].GetCall?
    ensures Run(st, calls).0.turn == st.turn
    decreases |calls|
  {
    if calls != [] {
      PayloadCallsKeepCounter(Step(st, calls[0]).0, calls[1..]);
    }
  }

  /** The payload a sequence of calls leaves behind is the last one stored,
      or the earlier one when nothing was stored. */
  function LastStored(calls: seq<Call>, before: Option<Payload>): Option<Payload> {
    if calls == [] then before
    else if calls[|calls| - 1].StoreCall? then Some(calls[|calls| - 1].payload)
    else LastStored(calls[..|calls| - 1], before)
  }

  lemma {:induction false} RunAppend(st: Store, calls: seq<Call>, c: Call)
    ensures Run(st, calls + [c]).0 == Step(Run(st, calls).0, c).0
    decreases |calls|
  {
    if calls != [] {
      assert (calls + [c])[1..] == calls[1..] + [c];
      RunAppend(Step(st, calls[0]).0, calls[1..], c);
    } else {
      assert [] + [c] == [c];
    }
  }

  /** A read after any calls returns the last payload stored. */
  lemma {:induction false} LastStoreWins(st: Store, calls: seq<Call>)
    ensures Run(st, calls).0.last == LastStored(calls, st.last)
  {
    if calls != [] {
      var init := calls[..|calls| - 1];
      assert calls == init + [calls[|calls| - 1]];
      RunAppend(st, init, calls[|calls| - 1]);
      LastStoreWins(st, init);
    }
  }
}

=== FILE: json.dfy ===
/** JSON values as Python's `json` module hands them to the narrator, and the
    library operations the pipeline calls but does not implement. */
module Json {
  import opened Wrappers
  import opened Text

  /** A decoded JSON value.  Objects are Python dicts: one value per key. */
  datatype Json =
    | JNull
    | JBool(b: bool)
    | JNumber(n: real)
    | JString(s: string)
    | JArray(items: seq<Json>)
    | JObject(fields: map<string, Json>)

  /** A JSON object: the structured payload of a model reply. */
  type Payload = map<string, Json>

  /** Python truthiness of a decoded value: `None`, `False`, zero, and empty
      strings, lists and dicts are falsy. */
  predicate Truthy(v: Json) {
    match v
    case JNull => false
    case JBool(b) => b
    case JNumber(n) => n != 0.0
    case JString(s) => s != ""
    case JArray(items) => items != []
    case JObject(fields) => fields != map[]
  }

  /** The library code the narrator calls on JSON text, left uninterpreted:
      `decode` is `json.loads` (None where it raises; every failure is
      treated as a `JSONDecodeError`), `repr` is `str()` of a
      number, list or dict, `dumpsIndented` is `json.dumps(v, indent=2)`. */
  datatype Codec = Codec(
    decode: string -> Option<Json>,
    repr: Json -> string,
    dumpsIndented: Json -> string)

  /** Python `str(v)` of a decoded value. */
  function Str(codec: Codec, v: Json): (r: string)
    ensures v.JString? ==> r == v.s
  {
    match v
    case JString(s) => s
    case JNull => "None"
    case JBool(b) => if b then "True" else "False"
    case _ => codec.repr(v)
  }

  /** `payload.get(key, default)`. */
  function Get(payload: Payload, key: string, default: Json): (r: Json)
    ensures key in payload ==> r == payload[key]
    ensures key !in payload ==> r == default
  {
    if key in payload then payload[key] else default
  }
}

=== FILE: narrator.dfy ===
/** `create_narration_context` in `zork_ai.py`: the non-streaming narration
    call that builds the prompt from the last interactions, logs the request,
    recovers a structured payload from the reply and normalises the
    narration text. */
module Narrator {
  import opened Wrappers
  import opened Text
  import opened Json
  import opened Prompt
  import Recovery

  /** Default number of interactions sent to the model. */
  const MaxLogLines: nat := 40

  /** Why no context was produced: a negative `max_log_lines`, or the
      exception of the model call. */
  datatype NarrationError = ValueError | TransportError

  /** The normalised snapshot of one narration call. */
  datatype NarrationContext = NarrationContext(
    messages: seq<Message>,
    payload: Payload,
    narration: string,
    rawContent: string)

  /** The audit log after the call, and the context or the error. */
  datatype ContextRun = ContextRun(log: seq<Entry>, result: Result<NarrationContext, NarrationError>)

  /** `max_log_lines or MAX_LOG_LINES`, rejected when not positive: `None`
      and `0` fall back to the default, a negative value is an error. */
  function EffectiveLimit(maxLogLines: Option<int>): (r: Result<nat, NarrationError>)
    ensures r.Ok? ==> r.value > 0
    ensures r.Err? <==> maxLogLines.Some? && maxLogLines.value < 0
    ensures r.Ok? && maxLogLines.Some? && maxLogLines.value != 0 ==> r.value == maxLogLines.value
    ensures maxLogLines == None || maxLogLines == Some(0) ==> r == Ok(MaxLogLines)
  {
    var limit := if maxLogLines.None? || maxLogLines.value == 0 then MaxLogLines else maxLogLines.value;
    if limit <= 0 then Err(ValueError) else Ok(limit)
  }

  /** `extracted or content or ""`: the extracted field value when it is
      truthy, else the raw reply text. */
  function FallbackNarration(extracted: Option<Json>, content: string): (v: Json)
    ensures extracted.Some? && Truthy(extracted.value) ==> v == extracted.value
    ensures !(extracted.Some? && Truthy(extracted.value)) ==> v == JString(content)
    ensures Truthy(v) || v == JString("")
  {
    if extracted.Some? && Truthy(extracted.value) then extracted.value else JString(content)
  }

  /** The payload kept for a reply: the recovered JSON object, else a
      one-field object holding the fallback narration. */
  function ReplyPayload(codec: Codec, content: string): (p: Payload)
    ensures Recovery.FindJsonPayload(codec, content).Some? ==> p == Recovery.FindJsonPayload(codec, content).value
    ensures Recovery.FindJsonPayload(codec, content).None? ==>
      p == map["narration" := FallbackNarration(Recovery.ExtractNarration(codec, content), content)]
  {
    match Recovery.FindJsonPayload(codec, content)
    case Some(p) => p
    case None => map["narration" := FallbackNarration(Recovery.ExtractNarration(codec, content), content)]
  }

  /** `str(payload.get("narration", "") or "")`. */
  function NarrationText(codec: Codec, payload: Payload): (r: string)
    ensures "narration" !in payload ==> r == ""
    ensures "narration" in payload && !Truthy(payload["narration"]) ==> r == ""
    ensures "narration" in payload && payload["narration"].JString? ==> r == payload["narration"].s
  {
    var v := Get(payload, "narration", JString(""));
    if Truthy(v) then Str(codec, v) else ""
  }

  /** `create_narration_context(interactions, max_log_lines=...)`.  The
      request is logged before the model call and the payload after it; a
      rejected limit logs nothing, a failed call logs only the request. */
  function CreateNarrationContext(prompts: Prompts, codec: Codec, interactions: seq<string>,
                                  maxLogLines: Option<int>, reply: Reply, log: seq<Entry>): (run: ContextRun)
    ensures EffectiveLimit(maxLogLines).Err? ==> run == ContextRun(log, Err(ValueError))
    ensures EffectiveLimit(maxLogLines).Ok? ==>
      var messages := WindowMessages(prompts, interactions, EffectiveLimit(maxLogLines).value);
      && |run.log| >= |log| + 1
      && (forall i :: 0 <= i < |log| ==> run.log[i] == log[i])
      && run.log[|log|] == Request(messages)
    ensures EffectiveLimit(maxLogLines).Ok? && reply.TransportFailure? ==>
      |run.log| == |log| + 1 && run.result == Err(TransportError)
    ensures EffectiveLimit(maxLogLines).Ok? && reply.Answered? ==>
      var content := ReplyText(reply.content);
      && run.result.Ok?
      && |run.log| == |log| + 2
      && run.log[|log| + 1] == Response(JObject(run.result.value.payload))
      && run.result.value.messages == run.log[|log|].messages
      && run.result.value.payload == ReplyPayload(codec, content)
      && run.result.value.narration == NarrationText(codec, run.result.value.payload)
      && run.result.value.rawContent == content
  {
    match EffectiveLimit(maxLogLines)
    case Err(e) => ContextRun(log, Err(e))
    case Ok(limit) =>
      var messages := WindowMessages(prompts, interactions, limit);
      var requested := log + [Request(messages)];
      match reply
      case TransportFailure => ContextRun(requested, Err(TransportError))
      case Answered(raw) =>
        var content := ReplyText(raw);
        var payload := ReplyPayload(codec, content);
        ContextRun(requested + [Response(JObject(payload))],
                   Ok(NarrationContext(messages, payload, NarrationText(codec, payload), content)))
  }

  /** A reply that is a JSON object (possibly fenced) is kept whole, and its
      narration string is the context's narration. */
  lemma ObjectReplyNarration(codec: Codec, content: string, p: Payload, text: string)
    requires Recovery.DecodesTo(codec, Recovery.StripCodeFence(content), p)
    requires "narration" in p && p["narration"] == JString(text)
    ensures ReplyPayload(codec, content) == p
    ensures NarrationText(codec, ReplyPayload(codec, content)) == text
  {
  }

  /** A reply that is neither JSON nor carries a narration field is narrated
      verbatim. */
  lemma PlainReplyNarration(codec: Codec, content: string)
    requires Recovery.FindJsonPayload(codec, content).None?
    requires forall k :: Recovery.MatchAt(content, Recovery.FieldName, k).None?
    ensures ReplyPayload(codec, content) == map["narration" := JString(content)]
    ensures NarrationText(codec, ReplyPayload(codec, content)) == content
  {
    Recovery.NarrationAbsent(codec, content);
  }
}

=== FILE: prompt.dfy ===
/** Chat messages, the transcript window and the audit-log entries shared by
    the narrator's prompt builders. */
module Prompt {
  import opened Wrappers
  import opened Text
  import opened Json

  datatype Role = System | User

  /** One `{"role": ..., "content": ...}` chat message. */
  datatype Message = Message(role: Role, content: string)

  /** The configured prompts: the system prompt (with the response schema
      already substituted for `{response_schema}`) and the user template cut
      at its single `{game_log}` slot. */
  datatype Prompts = Prompts(system: string, userBefore: string, userAfter: string) {

    /** `user_prompt_template.format(game_log=excerpt)`. */
    function Fill(excerpt: string): string {
      userBefore + excerpt + userAfter
    }
  }

  /** The `[system, user]` pair every prompt builder returns. */
  function ChatPair(system: string, user: string): (msgs: seq<Message>)
    ensures |msgs| == 2
    ensures msgs[0].role == System && msgs[1].role == User
    ensures msgs[0].content == system && msgs[1].content == user
  {
    [Message(System, system), Message(User, user)]
  }

  /** Python's `lines[-k:]`: the last `k` lines, or all of them when there
      are fewer (for `k == 0` the slice `lines[-0:]` is the whole list). */
  function Window(lines: seq<string>, k: nat): (w: seq<string>)
    ensures k > 0 ==> |w| == if |lines| < k then |lines| else k
    ensures k == 0 ==> w == lines
    ensures w == lines[|lines| - |w|..]
  {
    if k == 0 || |lines| <= k then lines else lines[|lines| - k..]
  }

  /** The `[system, user]` pair for a transcript: the user template filled
      with the last `k` lines joined by newlines. */
  function WindowMessages(prompts: Prompts, lines: seq<string>, k: nat): (msgs: seq<Message>)
    ensures |msgs| == 2
    ensures msgs[0] == Message(System, prompts.system) && msgs[1].role == User
  {
    ChatPair(prompts.system, prompts.Fill(Join(Window(lines, k), "\n")))
  }

  /** The user message holds exactly the last min(n, k) lines, in their
      original order: cutting off the template text and splitting at
      newlines gives them back (when no line inside the window holds a
      newline of its own; older lines may hold anything). */
  lemma WindowMessagesExcerpt(prompts: Prompts, lines: seq<string>, k: nat)
    requires k > 0
    requires forall i, j :: |lines| - k <= i < |lines| && 0 <= i && 0 <= j < |lines[i]| ==> lines[i][j] != '\n'
    ensures var content := WindowMessages(prompts, lines, k)[1].content;
      var n := |lines|;
      var m := if n < k then n else k;
      && |prompts.userBefore| + |prompts.userAfter| <= |content|
      && content[..|prompts.userBefore|] == prompts.userBefore
      && content[|content| - |prompts.userAfter|..] == prompts.userAfter
      && var excerpt := content[|prompts.userBefore|..|content| - |prompts.userAfter|];
         && (n == 0 ==> excerpt == "")
         && (n > 0 ==> Split(excerpt, "\n") == lines[n - m..])
  {
    var w := Window(lines, k);
    var excerpt := Join(w, "\n");
    var content := prompts.Fill(excerpt);
    assert content[|prompts.userBefore|..|content| - |prompts.userAfter|] == excerpt;
    if |lines| > 0 {
      forall i, j | 0 <= i < |w| && 0 <= j < |w[i]|
        ensures w[i][j] != '\n'
      {
        assert w[i] == lines[|lines| - |w| + i];
      }
      SplitJoin(w, '\n');
    }
  }

  /** One line of the session's `ai.jsonl` audit log. */
  datatype Entry = Request(messages: seq<Message>) | Response(payload: Json)

  /** The reply of the model call: a transport failure (the exception
      propagates), or a message whose `content` may be missing or non-text. */
  datatype Reply = TransportFailure | Answered(content: Option<string>)

  /** `msg.content if isinstance(msg.content, str) else ""`. */
  function ReplyText(content: Option<string>): string {
    content.GetOr("")
  }
}

=== FILE: recovery.dfy ===
/** The response-recovery ladder of `zork_ai.py`: strip a Markdown code
    fence, decode the reply as a JSON object (whole, or the slice between
    the first `{` and the last `}`), and failing that scan the raw text for
    a `"narration": "..."` field.  The two regular expressions are written
    out as explicit scanners. */
module Recovery {
  import opened Wrappers
  import opened Text
  import opened Json

  // ---------------------------------------------------------------------
  // _CODE_FENCE_RE  =  ^```(?:json)?\s*(.*?)\s*```$   (IGNORECASE, DOTALL)
  // ---------------------------------------------------------------------

  /** `t` opens and closes with a fence, the two not overlapping. */
  predicate Fenced(t: string) {
    |t| >= 6 && t[..3] == Fence && t[|t| - 3..] == Fence
  }

  /** `s` begins with `json` in any letter case. */
  predicate StartsWithJson(s: string) {
    |s| >= 4 && Lower(s[..4]) == "json"
  }

  /** Where the fenced body starts: after the optional `json` tag when the
      tag fits before the closing fence. */
  function BodyStart(t: string): (k: nat)
    requires Fenced(t)
    ensures k == 3 || k == 7
    ensures k <= |t| - 3
  {
    if |t| >= 10 && StartsWithJson(t[3..]) then 7 else 3
  }

  /** `_strip_code_fence(text)`: the trimmed interior of a fenced reply,
      otherwise the trimmed reply.  The lazy group and the `\s*` around it
      leave exactly the stripped body. */
  function StripCodeFence(text: string): (r: string)
    ensures Trimmed(r)
    ensures !Fenced(Strip(text)) ==> r == Strip(text)
    ensures Fenced(Strip(text)) ==> |r| <= |Strip(text)| - 6
    ensures Fenced(Strip(text)) ==> IsInfix(r, Strip(text)[3..|Strip(text)| - 3])
  {
    var t := Strip(text);
    if Fenced(t) then
      var k := BodyStart(t);
      InteriorInfix(t, k);
      Strip(t[k..|t| - 3])
    else t
  }

  /** The stripped body after the tag lies between the two fences. */
  lemma InteriorInfix(t: string, k: nat)
    requires 3 <= k <= |t| - 3
    ensures IsInfix(Strip(t[k..|t| - 3]), t[3..|t| - 3])
  {
    var inner := t[3..|t| - 3];
    var body := t[k..|t| - 3];
    assert OccursAt(inner, body, k - 3) by {
      assert inner[k - 3..k - 3 + |body|] == body;
    }
    StripIsInfix(body);
    InfixTransitive(Strip(body), body, inner);
  }

  /** A body between fences comes back stripped, whether the opening fence
      carries a `json` tag (any case) or none; without a tag the body must
      not itself begin with `json`, which the tag would swallow.  The body
      may sit on the fence lines or on its own lines. */
  lemma FenceRoundTrip(tag: string, body: string)
    requires Lower(tag) == "json" || (tag == "" && !StartsWithJson(body))
    ensures StripCodeFence(Fence + tag + body + Fence) == Strip(body)
  {
    var s := Fence + tag + body + Fence;
    FencedWhole(tag, body);
    TaggedBodyStart(tag, body);
    assert s[3 + |tag|..|s| - 3] == body;
  }

  /** Without a tag, a body that begins with `json` loses those four
      letters: the optional group of the pattern takes them as the tag. */
  lemma UntaggedJsonBody(body: string)
    requires StartsWithJson(body)
    ensures StripCodeFence(Fence + body + Fence) == Strip(body[4..])
  {
    var s := Fence + body + Fence;
    FencedWhole("", body);
    assert s[3..] == body + Fence;
    assert (body + Fence)[..4] == body[..4];
    assert BodyStart(s) == 7;
    assert s[7..|s| - 3] == body[4..];
  }

  /** Fences around anything make a trimmed, fenced text. */
  lemma FencedWhole(tag: string, body: string)
    ensures Strip(Fence + tag + body + Fence) == Fence + tag + body + Fence
    ensures Fenced(Fence + tag + body + Fence)
  {
    var s := Fence + tag + body + Fence;
    assert s[0] == '`' && s[|s| - 1] == '`';
    StripTrimmed(s);
    assert s[..3] == Fence && s[|s| - 3..] == Fence;
  }

  lemma TaggedBodyStart(tag: string, body: string)
    requires Lower(tag) == "json" || (tag == "" && !StartsWithJson(body))
    requires Fenced(Fence + tag + body + Fence)
    ensures BodyStart(Fence + tag + body + Fence) == 3 + |tag|
  {
    var s := Fence + tag + body + Fence;
    if tag == "" {
      assert s[3..] == body + Fence;
      if |body| >= 4 {
        assert (body + Fence)[..4] == body[..4];
      }
    } else {
      assert |tag| == 4;
      assert s[3..][..4] == tag;
    }
  }

  /** Text that is already trimmed and carries no fence passes unchanged. */
  lemma UnfencedUnchanged(s: string)
    requires Trimmed(s) && !Fenced(s)
    ensures StripCodeFence(s) == s
  {
    StripTrimmed(s);
  }

  // ---------------------------------------------------------------------
  // _find_json_payload
  // ---------------------------------------------------------------------

  /** `json.loads(s)` succeeds and yields a dict with these fields. */
  predicate DecodesTo(codec: Codec, s: string, p: Payload) {
    codec.decode(s) == Some(JObject(p))
  }

  predicate DecodesToObject(codec: Codec, s: string) {
    codec.decode(s).Some? && codec.decode(s).value.JObject?
  }

  /** The slice from the first `{` to the last `}` of `c`, when the first
      comes before the last. */
  function BraceSlice(c: string): (r: Option<string>)
    ensures r.Some? ==> |r.value| >= 2 && r.value[0] == '{' && r.value[|r.value| - 1] == '}'
    ensures r.Some? ==> IsInfix(r.value, c)
  {
    match (Find(c, "{", 0), RFindChar(c, '}'))
    case (Some(start), Some(end)) =>
      if start < end then
        assert c[start..start + 1] == "{";
        assert OccursAt(c, c[start..end + 1], start);
        Some(c[start..end + 1])
      else None
    case _ => None
  }

  /** The ladder after fence stripping: the candidate decoded whole, else
      its brace slice decoded, each accepted only when it is a dict. */
  function PayloadFrom(codec: Codec, candidate: string): (r: Option<Payload>)
    // the whole candidate decoding to an object wins
    ensures DecodesToObject(codec, candidate) ==> r == Some(codec.decode(candidate).value.fields)
    // any payload found is the decoded candidate or its decoded brace slice
    ensures r.Some? ==>
      || DecodesTo(codec, candidate, r.value)
      || (BraceSlice(candidate).Some? && DecodesTo(codec, BraceSlice(candidate).value, r.value))
    // nothing else is tried
    ensures !DecodesToObject(codec, candidate) && BraceSlice(candidate).None? ==> r.None?
  {
    match codec.decode(candidate)
    case Some(JObject(fields)) => Some(fields)
    case _ =>
      match BraceSlice(candidate)
      case None => None
      case Some(snippet) =>
        match codec.decode(snippet)
        case Some(JObject(fields)) => Some(fields)
        case _ => None
  }

  /** `_find_json_payload(text)`: a dict recovered from the reply, or None. */
  function FindJsonPayload(codec: Codec, text: string): (r: Option<Payload>)
    ensures DecodesToObject(codec, StripCodeFence(text)) ==>
      r == Some(codec.decode(StripCodeFence(text)).value.fields)
    ensures r.Some? ==>
      || DecodesTo(codec, StripCodeFence(text), r.value)
      || (BraceSlice(StripCodeFence(text)).Some? && DecodesTo(codec, BraceSlice(StripCodeFence(text)).value, r.value))
  {
    PayloadFrom(codec, StripCodeFence(text))
  }

  /** An object embedded in prose is found when the prose before it has no
      `{` and the prose after it has no `}`. */
  lemma EmbeddedObject(codec: Codec, prefix: string, obj: string, suffix: string, p: Payload)
    requires !DecodesToObject(codec, prefix + obj + suffix)
    requires |obj| >= 2 && obj[0] == '{' && obj[|obj| - 1] == '}'
    requires forall k :: 0 <= k < |prefix| ==> prefix[k] != '{'
    requires forall k :: 0 <= k < |suffix| ==> suffix[k] != '}'
    requires DecodesTo(codec, obj, p)
    ensures PayloadFrom(codec, prefix + obj + suffix) == Some(p)
  {
    var c := prefix + obj + suffix;
    var start := |prefix|;
    var end := |prefix| + |obj| - 1;
    assert c[start] == '{' && c[end] == '}';
    assert OccursAt(c, "{", start) by { assert c[start..start + 1] == "{"; }
    forall j | 0 <= j < start ensures !OccursAt(c, "{", j) {
      assert c[j..j + 1][0] == c[j] == prefix[j];
    }
    assert Find(c, "{", 0) == Some(start);
    forall j | end < j < |c| ensures c[j] != '}' {
      assert c[j] == suffix[j - |prefix| - |obj|];
    }
    assert RFindChar(c, '}') == Some(end);
    assert c[start..end + 1] == obj;
  }

  /** Without a `{` there is no brace slice. */
  lemma NoOpenBrace(c: string)
    requires forall k :: 0 <= k < |c| ==> c[k] != '{'
    ensures BraceSlice(c).None?
  {
    forall j | 0 <= j ensures !OccursAt(c, "{", j) {
      if j + 1 <= |c| { assert c[j..j + 1][0] == c[j]; }
    }
  }

  // ---------------------------------------------------------------------
  // _NARRATION_FIELD_RE  =  "narration"\s*:\s*"(?P<value>(?:\\.|[^\\"])*)"
  //                         (IGNORECASE, DOTALL)
  // ---------------------------------------------------------------------

  const FieldName: string := "\"narration\""

  /** The value group's language: pairs of a backslash and any character,
      and characters other than a backslash or a quote. */
  predicate ValueBody(v: string)
    decreases |v|
  {
    || v == []
    || (v[0] == '\\' && |v| >= 2 && ValueBody(v[2..]))
    || (v[0] != '\\' && v[0] != '"' && ValueBody(v[1..]))
  }

  /** The whole pattern matches at `i` with the colon at `p`, the opening
      quote at `q` and the closing quote at `e`. */
  ghost predicate FieldAt(s: string, name: string, i: nat, p: nat, q: nat, e: nat) {
    && i + |name| <= p < q < e < |s|
    && FoldedMatchAt(s, i, name)
    && AllSpace(s[i + |name|..p]) && s[p] == ':'
    && AllSpace(s[p + 1..q]) && s[q] == '"'
    && ValueBody(s[q + 1..e]) && s[e] == '"'
  }

  /** End of the whitespace run from `i` (greedy `\s*`). */
  function SkipSpace(s: string, i: nat): (r: nat)
    requires i <= |s|
    ensures i <= r <= |s|
    decreases |s| - i
  {
    if i < |s| && IsSpace(s[i]) then SkipSpace(s, i + 1) else i
  }

  /** The skipped run is whitespace, and it stops at a non-space. */
  lemma {:induction false} SkipSpaceSound(s: string, i: nat)
    requires i <= |s|
    ensures AllSpace(s[i..SkipSpace(s, i)])
    ensures SkipSpace(s, i) < |s| ==> !IsSpace(s[SkipSpace(s, i)])
    decreases |s| - i
  {
    if i < |s| && IsSpace(s[i]) {
      SkipSpaceSound(s, i + 1);
      var r := SkipSpace(s, i);
      assert s[i..r] == [s[i]] + s[i + 1..r];
    }
  }

  /** End of the greedy `(?:\\.|[^\\"])*` run from `i`: scanning stops at a
      quote, or at a backslash with nothing after it. */
  function ScanValue(s: string, i: nat): (r: nat)
    requires i <= |s|
    ensures i <= r <= |s|
    decreases |s| - i
  {
    if i < |s| && s[i] == '\\' && i + 1 < |s| then ScanValue(s, i + 2)
    else if i < |s| && s[i] != '\\' && s[i] != '"' then ScanValue(s, i + 1)
    else i
  }

  /** The scanned run is a value body, and it stops at a quote or at a
      trailing backslash. */
  lemma {:induction false} ScanValueSound(s: string, i: nat)
    requires i <= |s|
    ensures ValueBody(s[i..ScanValue(s, i)])
    ensures ScanValue(s, i) < |s| ==> s[ScanValue(s, i)] == '"' || (s[ScanValue(s, i)] == '\\' && ScanValue(s, i) + 1 == |s|)
    decreases |s| - i
  {
    var r := ScanValue(s, i);
    if i < |s| && s[i] == '\\' && i + 1 < |s| {
      ScanValueSound(s, i + 2);
      assert s[i..r][2..] == s[i + 2..r];
    } else if i < |s| && s[i] != '\\' && s[i] != '"' {
      ScanValueSound(s, i + 1);
      assert s[i..r][1..] == s[i + 1..r];
    }
  }

  datatype FieldMatch = FieldMatch(start: nat, valueStart: nat, valueEnd: nat)

  /** `_NARRATION_FIELD_RE.match(s, i)`: the value span when the pattern
      matches at `i`.  Each part of the pattern has one way to match, so the
      scan never needs to back up. */
  function MatchAt(s: string, name: string, i: nat): (m: Option<FieldMatch>)
    ensures m.Some? ==> m.value.start == i && i < m.value.valueStart <= m.value.valueEnd < |s|
  {
    if i + |name| <= |s| && FoldedMatchAt(s, i, name) then
      var p := SkipSpace(s, i + |name|);
      if p < |s| && s[p] == ':' then
        var q := SkipSpace(s, p + 1);
        if q < |s| && s[q] == '"' then
          var e := ScanValue(s, q + 1);
          if e < |s| && s[e] == '"' then Some(FieldMatch(i, q + 1, e)) else None
        else None
      else None
    else None
  }

  /** Any match found is a match of the pattern. */
  lemma MatchAtSound(s: string, name: string, i: nat)
    requires MatchAt(s, name, i).Some?
    ensures FieldAt(s, name, i, SkipSpace(s, i + |name|), MatchAt(s, name, i).value.valueStart - 1, MatchAt(s, name, i).value.valueEnd)
  {
    var p := SkipSpace(s, i + |name|);
    var q := SkipSpace(s, p + 1);
    var e := ScanValue(s, q + 1);
    assert i + |name| <= |s| && FoldedMatchAt(s, i, name);
    assert p < |s| && s[p] == ':' && q < |s| && s[q] == '"' && e < |s| && s[e] == '"';
    assert MatchAt(s, name, i) == Some(FieldMatch(i, q + 1, e));
    SkipSpaceSound(s, i + |name|);
    SkipSpaceSound(s, p + 1);
    ScanValueSound(s, q + 1);
  }

  /** A run of whitespace ending at a non-space is the greedy run. */
  lemma SkipSpaceAt(s: string, i: nat, p: nat)
    requires i <= p < |s| && AllSpace(s[i..p]) && !IsSpace(s[p])
    ensures SkipSpace(s, i) == p
    decreases p - i
  {
    if i < p {
      assert s[i..p][0] == s[i];
      assert s[i + 1..p] == s[i..p][1..];
      SkipSpaceAt(s, i + 1, p);
    }
  }

  /** A value body closed by a quote is exactly what the scan consumes. */
  lemma {:induction false} ScanValueAt(s: string, i: nat, e: nat)
    requires i <= e < |s| && ValueBody(s[i..e]) && s[e] == '"'
    ensures ScanValue(s, i) == e
    decreases e - i
  {
    var v := s[i..e];
    if v != [] {
      assert v[0] == s[i];
      if s[i] == '\\' {
        assert |v| >= 2 && ValueBody(v[2..]);
        assert v[2..] == s[i + 2..e];
        ScanValueAt(s, i + 2, e);
      } else {
        assert ValueBody(v[1..]);
        assert v[1..] == s[i + 1..e];
        ScanValueAt(s, i + 1, e);
      }
    }
  }

  /** Every match of the pattern is found, with the same value span. */
  lemma MatchAtComplete(s: string, name: string, i: nat, p: nat, q: nat, e: nat)
    requires FieldAt(s, name, i, p, q, e)
    ensures MatchAt(s, name, i) == Some(FieldMatch(i, q + 1, e))
  {
    SkipSpaceAt(s, i + |name|, p);
    SkipSpaceAt(s, p + 1, q);
    ScanValueAt(s, q + 1, e);
  }

  /** `_NARRATION_FIELD_RE.search(s)` from position `from`: the leftmost
      match. */
  function Search(s: string, name: string, from: nat): (m: Option<FieldMatch>)
    ensures m.Some? ==> from <= m.value.start && MatchAt(s, name, m.value.start) == m
    ensures m.Some? ==> forall k :: from <= k < m.value.start ==> MatchAt(s, name, k).None?
    ensures m.None? ==> forall k :: from <= k ==> MatchAt(s, name, k).None?
    decreases |s| + 1 - from
  {
    if from > |s| then
      assert forall k :: from <= k ==> MatchAt(s, name, k).None? by {
        forall k | from <= k ensures MatchAt(s, name, k).None? { assert k + |name| > |s|; }
      }
      None
    else if MatchAt(s, name, from).Some? then MatchAt(s, name, from)
    else Search(s, name, from + 1)
  }

  /** The fallback when the captured value is not a valid JSON string body:
      un-escape quotes, then `\n` sequences. */
  function Unescape(raw: string): string {
    Replace(Replace(raw, "\\\"", "\""), "\\n", "\n")
  }

  /** The search finds the leftmost match. */
  lemma {:induction false} SearchFindsFirst(s: string, name: string, from: nat, i: nat, m: FieldMatch)
    requires from <= i && MatchAt(s, name, i) == Some(m)
    requires forall k :: from <= k < i ==> MatchAt(s, name, k).None?
    ensures Search(s, name, from) == Some(m)
    decreases i - from
  {
    if from < i {
      assert MatchAt(s, name, from).None?;
      SearchFindsFirst(s, name, from + 1, i, m);
    }
  }

  /** `_extract_narration_from_text(text)`: None when the field is absent;
      otherwise the value decoded as a JSON string, or un-escaped by hand
      when it does not decode. */
  function ExtractNarration(codec: Codec, text: string): (r: Option<Json>)
    ensures r.Some? ==> Search(text, FieldName, 0).Some?
  {
    ExtractField(codec, text, FieldName)
  }

  /** The extraction for a field called `name`. */
  function ExtractField(codec: Codec, text: string, name: string): (r: Option<Json>)
    ensures r.Some? ==> Search(text, name, 0).Some?
  {
    match Search(text, name, 0)
    case None => None
    case Some(m) => Some(DecodeValue(codec, text[m.valueStart..m.valueEnd]))
  }

  /** The captured value decoded as a JSON string body, or un-escaped by
      hand when it does not decode. */
  function DecodeValue(codec: Codec, raw: string): Json {
    match codec.decode("\"" + raw + "\"")
    case Some(v) => v
    case None => JString(Unescape(raw))
  }

  /** No narration is extracted exactly when no position of the text holds
      the field. */
  lemma NarrationAbsent(codec: Codec, text: string)
    ensures ExtractNarration(codec, text).None? <==> forall k :: MatchAt(text, FieldName, k).None?
  {
    if Search(text, FieldName, 0).Some? {
      var m := Search(text, FieldName, 0).value;
      assert MatchAt(text, FieldName, m.start).Some?;
    }
  }

  /** The narration field, wherever it first occurs, is found: the value
      captured is the body between its quotes. */
  lemma ExtractFindsField(codec: Codec, s: string, i: nat, p: nat, q: nat, e: nat)
    requires FieldAt(s, FieldName, i, p, q, e)
    requires forall k: nat :: k < i ==> MatchAt(s, FieldName, k).None?
    ensures Search(s, FieldName, 0) == Some(FieldMatch(i, q + 1, e))
    ensures ExtractNarration(codec, s).Some?
    ensures var raw := s[q + 1..e];
      ExtractNarration(codec, s).value == codec.decode("\"" + raw + "\"").GetOr(JString(Unescape(raw)))
  {
    ExtractFieldFinds(codec, s, FieldName, i, p, q, e);
  }

  lemma ExtractFieldFinds(codec: Codec, s: string, name: string, i: nat, p: nat, q: nat, e: nat)
    requires FieldAt(s, name, i, p, q, e)
    requires forall k: nat :: k < i ==> MatchAt(s, name, k).None?
    ensures Search(s, name, 0) == Some(FieldMatch(i, q + 1, e))
    ensures ExtractField(codec, s, name) == Some(DecodeValue(codec, s[q + 1..e]))
  {
    FirstFieldFound(s, name, i, p, q, e);
  }

  /** The first occurrence of the field is what the search returns. */
  lemma FirstFieldFound(s: string, name: string, i: nat, p: nat, q: nat, e: nat)
    requires FieldAt(s, name, i, p, q, e)
    requires forall k: nat :: k < i ==> MatchAt(s, name, k).None?
    ensures Search(s, name, 0) == Some(FieldMatch(i, q + 1, e))
  {
    MatchAtComplete(s, name, i, p, q, e);
    SearchFindsFirst(s, name, 0, i, FieldMatch(i, q + 1, e));
  }

  /** A value with no backslash is its own un-escaping. */
  lemma UnescapePlain(raw: string)
    requires forall k :: 0 <= k < |raw| ==> raw[k] != '\\'
    ensures Unescape(raw) == raw
  {
    NoBackslashReplace(raw, "\\\"", "\"");
    assert Replace(raw, "\\\"", "\"") == raw;
    NoBackslashReplace(Replace(raw, "\\\"", "\""), "\\n", "\n");
  }

  lemma NoBackslashReplace(s: string, target: string, replacement: string)
    requires |target| > 0 && target[0] == '\\'
    requires forall k :: 0 <= k < |s| ==> s[k] != '\\'
    ensures Replace(s, target, replacement) == s
  {
    forall j | 0 <= j ensures !OccursAt(s, target, j) {
      if j + |target| <= |s| { assert s[j..j + |target|][0] == s[j]; }
    }
    assert Find(s, target, 0).None?;
  }
}

=== FILE: text.dfy ===
/** String primitives of the Python runtime the narrator relies on:
    whitespace, `strip`, `split`, `join`, `find`, `splitlines`, `replace`,
    `lower` and the integer/hex conversions.  Strings are `seq<char>` of
    Unicode scalar values, as Python's `str` is. */
module Text {
  import opened Wrappers

  /** The Markdown code fence, three backticks. */
  const Fence: string := "```"

  /** Python's `str.isspace()`; the same set drives `strip()`, `split()`
      without arguments and the regular-expression class `\s`. */
  predicate IsSpace(c: char) {
    || c == ' '
    || ('\t' <= c <= '\r')
    || ('\U{1C}' <= c <= '\U{1F}')
    || c == '\U{85}' || c == '\U{A0}' || c == '\U{1680}'
    || ('\U{2000}' <= c <= '\U{200A}')
    || c == '\U{2028}' || c == '\U{2029}' || c == '\U{202F}'
    || c == '\U{205F}' || c == '\U{3000}'
  }

  predicate AllSpace(s: string) {
    forall i :: 0 <= i < |s| ==> IsSpace(s[i])
  }

  /** No whitespace at either end (the shape `strip()` produces). */
  predicate Trimmed(s: string) {
    s == [] || (!IsSpace(s[0]) && !IsSpace(s[|s| - 1]))
  }

  /** `s.lstrip()`: drops the leading whitespace and nothing else. */
  function LStrip(s: string): (r: string)
    ensures |r| <= |s| && r == s[|s| - |r|..]
    ensures AllSpace(s[..|s| - |r|])
    ensures r == [] || !IsSpace(r[0])
  {
    if |s| > 0 && IsSpace(s[0]) then
      var r := LStrip(s[1..]);
      var n := |s| - |r|;
      assert AllSpace(s[..n]) by {
        forall k | 0 <= k < n ensures IsSpace(s[..n][k]) {
          if k > 0 { assert s[..n][k] == s[1..][..n - 1][k - 1]; }
        }
      }
      r
    else s
  }

  /** `s.rstrip()`: drops the trailing whitespace and nothing else. */
  function RStrip(s: string): (r: string)
    ensures |r| <= |s| && r == s[..|r|]
    ensures AllSpace(s[|r|..])
    ensures r == [] || !IsSpace(r[|r| - 1])
  {
    if |s| > 0 && IsSpace(s[|s| - 1]) then
      var r := RStrip(s[..|s| - 1]);
      assert AllSpace(s[|r|..]) by {
        forall k | 0 <= k < |s| - |r| ensures IsSpace(s[|r|..][k]) {
          if k < |s| - 1 - |r| { assert s[|r|..][k] == s[..|s| - 1][|r|..][k]; }
        }
      }
      r
    else s
  }

  /** `s.strip()`: the longest infix with no whitespace at either end. */
  function Strip(s: string): (r: string)
    ensures Trimmed(r)
    ensures |r| <= |s|
    ensures r == [] <==> AllSpace(s)
    decreases |s|
  {
    if |s| > 0 && IsSpace(s[0]) then
      var r := Strip(s[1..]);
      assert AllSpace(s[1..]) ==> AllSpace(s) by {
        if AllSpace(s[1..]) {
          forall k | 0 < k < |s| ensures IsSpace(s[k]) { assert s[k] == s[1..][k - 1]; }
        }
      }
      r
    else
      var r := RStrip(s);
      assert r == [] ==> s[|r|..] == s;
      r
  }

  /** `strip()` is `lstrip()` followed by `rstrip()`. */
  lemma {:induction false} StripBothEnds(s: string)
    ensures Strip(s) == RStrip(LStrip(s))
    decreases |s|
  {
    if |s| > 0 && IsSpace(s[0]) {
      StripBothEnds(s[1..]);
    }
  }

  lemma StripTrimmed(s: string)
    requires Trimmed(s)
    ensures Strip(s) == s
  {
  }

  lemma {:induction false} LStripSpacePrefix(a: string, b: string)
    requires AllSpace(a)
    ensures LStrip(a + b) == LStrip(b)
    decreases |a|
  {
    if a != [] {
      assert (a + b)[1..] == a[1..] + b;
      LStripSpacePrefix(a[1..], b);
    } else {
      assert a + b == b;
    }
  }

  lemma {:induction false} RStripSpaceSuffix(b: string, c: string)
    requires AllSpace(c)
    ensures RStrip(b + c) == RStrip(b)
    decreases |c|
  {
    if c != [] {
      assert (b + c)[..|b + c| - 1] == b + c[..|c| - 1];
      RStripSpaceSuffix(b, c[..|c| - 1]);
    } else {
      assert b + c == b;
    }
  }

  lemma {:induction false} LStripAppend(b: string, c: string)
    requires !AllSpace(b)
    ensures LStrip(b + c) == LStrip(b) + c
    decreases |b|
  {
    if IsSpace(b[0]) {
      assert (b + c)[1..] == b[1..] + c;
      assert !AllSpace(b[1..]) by {
        var k :| 0 <= k < |b| && !IsSpace(b[k]);
        assert b[1..][k - 1] == b[k];
      }
      LStripAppend(b[1..], c);
    }
  }

  /** Whitespace around a body does not change what `strip()` keeps. */
  lemma StripPadded(a: string, b: string, c: string)
    requires AllSpace(a) && AllSpace(c)
    ensures Strip(a + b + c) == Strip(b)
  {
    if AllSpace(b) {
      AllSpaceConcat(a, b, c);
    } else {
      StripPaddedBody(a, b, c);
    }
  }

  lemma AllSpaceConcat(a: string, b: string, c: string)
    requires AllSpace(a) && AllSpace(b) && AllSpace(c)
    ensures AllSpace(a + b + c)
  {
    var s := a + b + c;
    forall k | 0 <= k < |s| ensures IsSpace(s[k]) {
      if k < |a| {
        assert s[k] == a[k];
      } else if k < |a| + |b| {
        assert s[k] == b[k - |a|];
      } else {
        assert s[k] == c[k - |a| - |b|];
      }
    }
  }

  lemma StripPaddedBody(a: string, b: string, c: string)
    requires AllSpace(a) && AllSpace(c) && !AllSpace(b)
    ensures Strip(a + b + c) == Strip(b)
  {
    var t := b + c;
    assert a + b + c == a + t;
    calc {
      Strip(a + b + c);
      { StripBothEnds(a + b + c); }
      RStrip(LStrip(a + t));
      { LStripSpacePrefix(a, t); }
      RStrip(LStrip(t));
      { LStripAppend(b, c); }
      RStrip(LStrip(b) + c);
      { RStripSpaceSuffix(LStrip(b), c); }
      RStrip(LStrip(b));
      { StripBothEnds(b); }
      Strip(b);
    }
  }

  /** Where `Strip(s)` sits inside `s`. */
  lemma {:induction false} StripSlice(s: string) returns (lo: nat)
    ensures lo + |Strip(s)| <= |s| && Strip(s) == s[lo..lo + |Strip(s)|]
    decreases |s|
  {
    if |s| > 0 && IsSpace(s[0]) {
      var r := Strip(s);
      var lo' := StripSlice(s[1..]);
      lo := lo' + 1;
      assert s[1..][lo'..lo' + |r|] == s[lo..lo + |r|];
    } else {
      lo := 0;
    }
  }

  /** Trimming never introduces a character. */
  lemma LacksStrip(s: string, c: char)
    requires Lacks(s, c)
    ensures Lacks(Strip(s), c)
  {
    var lo := StripSlice(s);
    var r := Strip(s);
    forall j | 0 <= j < |r| ensures r[j] != c {
      assert r[j] == s[lo + j];
    }
  }

  /** `Strip(s)` occurs inside `s`. */
  lemma StripIsInfix(s: string)
    ensures IsInfix(Strip(s), s)
  {
    var i := StripSlice(s);
    assert OccursAt(s, Strip(s), i);
  }

  /** `r` occurs in `s` as a contiguous run. */
  ghost predicate IsInfix(r: string, s: string) {
    exists i :: OccursAt(s, r, i)
  }

  lemma InfixTransitive(a: string, b: string, c: string)
    requires IsInfix(a, b) && IsInfix(b, c)
    ensures IsInfix(a, c)
  {
    var i :| OccursAt(b, a, i);
    var j :| OccursAt(c, b, j);
    OccursInSlice(c, a, j, j + |b|, i);
  }

  // ---------------------------------------------------------------------
  // join
  // ---------------------------------------------------------------------

  /** `sep.join(parts)`. */
  function Join(parts: seq<string>, sep: string): string {
    if |parts| == 0 then ""
    else if |parts| == 1 then parts[0]
    else parts[0] + sep + Join(parts[1..], sep)
  }

  /** Concatenation with no separator: `"".join(parts)`. */
  function Concat(parts: seq<string>): string {
    if |parts| == 0 then "" else parts[0] + Concat(parts[1..])
  }

  lemma {:induction false} ConcatAppend(a: seq<string>, b: seq<string>)
    ensures Concat(a + b) == Concat(a) + Concat(b)
  {
    if |a| == 0 {
      assert a + b == b;
    } else {
      assert (a + b)[1..] == a[1..] + b;
      ConcatAppend(a[1..], b);
    }
  }

  lemma {:induction false} JoinAppend(a: seq<string>, b: seq<string>, sep: string)
    requires |a| > 0 && |b| > 0
    ensures Join(a + b, sep) == Join(a, sep) + sep + Join(b, sep)
  {
    if |a| == 1 {
      assert (a + b)[1..] == b;
    } else {
      assert (a + b)[1..] == a[1..] + b;
      JoinAppend(a[1..], b, sep);
    }
  }

  // ---------------------------------------------------------------------
  // find / rfind
  // ---------------------------------------------------------------------

  /** `s.startswith(prefix)`. */
  predicate StartsWith(s: string, prefix: string) {
    |prefix| <= |s| && s[..|prefix|] == prefix
  }

  /** `s.endswith(suffix)`. */
  predicate EndsWith(s: string, suffix: string) {
    |suffix| <= |s| && s[|s| - |suffix|..] == suffix
  }

  lemma StartsWithPrepend(a: string, b: string, c: string)
    requires StartsWith(b, c)
    ensures StartsWith(a + b, a + c)
  {
    assert (a + b)[..|a + c|] == a + b[..|c|];
  }

  lemma EndsWithPrepend(a: string, b: string, c: string)
    requires EndsWith(b, c)
    ensures EndsWith(a + b, c)
  {
    var k := |b| - |c|;
    assert (a + b)[|a| + k..] == b[k..];
  }

  /** `sep.join(ws)` opens with its first two parts and the separator
      between them. */
  lemma JoinOpening(ws: seq<string>, sep: string)
    requires |ws| >= 2
    ensures StartsWith(Join(ws, sep), ws[0] + sep + ws[1])
  {
    JoinHead(ws[1..], sep);
    assert ws[1..][0] == ws[1];
    StartsWithPrepend(ws[0] + sep, Join(ws[1..], sep), ws[1]);
  }

  /** `sep.join(ws)` closes with the separator and its last part. */
  lemma {:induction false} JoinClosing(ws: seq<string>, sep: string)
    requires |ws| >= 2
    ensures EndsWith(Join(ws, sep), sep + ws[|ws| - 1])
  {
    var rest := ws[1..];
    if |ws| == 2 {
      assert Join(rest, sep) == ws[1];
      assert Join(ws, sep) == ws[0] + (sep + ws[1]);
    } else {
      JoinClosing(rest, sep);
      assert rest[|rest| - 1] == ws[|ws| - 1];
      assert Join(ws, sep) == (ws[0] + sep) + Join(rest, sep);
      EndsWithPrepend(ws[0] + sep, Join(rest, sep), sep + ws[|ws| - 1]);
    }
    assert Join(ws, sep) == Join(ws, sep);
  }

  /** `pat` occurs in `s` starting at index `j`. */
  predicate OccursAt(s: string, pat: string, j: int) {
    0 <= j && j + |pat| <= |s| && s[j..j + |pat|] == pat
  }

  /** `s.find(pat, from)`: the first occurrence at or after `from`. */
  function Find(s: string, pat: string, from: nat): (r: Option<nat>)
    ensures r.Some? ==> from <= r.value && OccursAt(s, pat, r.value)
    ensures r.Some? ==> forall j :: from <= j < r.value ==> !OccursAt(s, pat, j)
    ensures r.None? ==> forall j :: from <= j ==> !OccursAt(s, pat, j)
    decreases |s| - from
  {
    if from + |pat| > |s| then None
    else if s[from..from + |pat|] == pat then Some(from)
    else Find(s, pat, from + 1)
  }

  /** An occurrence with none before it, from `from` on, is what `find`
      returns. */
  lemma FindFirst(s: string, pat: string, from: nat, k: nat)
    requires from <= k && OccursAt(s, pat, k)
    requires forall j :: from <= j < k ==> !OccursAt(s, pat, j)
    ensures Find(s, pat, from) == Some(k)
  {
  }

  /** `pat in s`. */
  predicate Contains(s: string, pat: string) {
    Find(s, pat, 0).Some?
  }

  /** `s.rfind(c)` for a one-character pattern: the last occurrence. */
  function RFindChar(s: string, c: char): (r: Option<nat>)
    ensures r.Some? ==> r.value < |s| && s[r.value] == c
    ensures r.Some? ==> forall j :: r.value < j < |s| ==> s[j] != c
    ensures r.None? ==> forall j :: 0 <= j < |s| ==> s[j] != c
  {
    if |s| == 0 then None
    else if s[|s| - 1] == c then Some(|s| - 1)
    else RFindChar(s[..|s| - 1], c)
  }

  /** An occurrence inside a prefix or a suffix is an occurrence in the whole. */
  lemma OccursInSlice(s: string, pat: string, lo: nat, hi: nat, j: int)
    requires lo <= hi <= |s|
    requires OccursAt(s[lo..hi], pat, j)
    ensures OccursAt(s, pat, lo + j)
  {
    forall k | 0 <= k < |pat|
      ensures s[lo + j + k] == pat[k]
    {
      assert s[lo..hi][j..j + |pat|][k] == pat[k];
    }
    assert s[lo + j..lo + j + |pat|] == pat;
  }

  // ---------------------------------------------------------------------
  // split(sep) / replace
  // ---------------------------------------------------------------------

  /** `s.split(sep)` for a non-empty separator: cut at every leftmost,
      non-overlapping occurrence.  Joining the parts back gives `s`, and no
      part contains the separator. */
  function Split(s: string, sep: string): (parts: seq<string>)
    requires |sep| > 0
    ensures |parts| >= 1
    decreases |s|
  {
    match Find(s, sep, 0)
    case None => [s]
    case Some(i) => [s[..i]] + Split(s[i + |sep|..], sep)
  }

  /** Joining the parts of a split with its separator gives the string back. */
  lemma {:induction false} SplitJoinsBack(s: string, sep: string)
    requires |sep| > 0
    ensures Join(Split(s, sep), sep) == s
    decreases |s|
  {
    match Find(s, sep, 0)
    case None =>
    case Some(i) =>
      var rest := s[i + |sep|..];
      var parts := Split(s, sep);
      assert parts == [s[..i]] + Split(rest, sep);
      assert parts[1..] == Split(rest, sep);
      SplitJoinsBack(rest, sep);
      assert Join(parts, sep) == s[..i] + sep + rest;
      assert s == s[..i] + sep + rest;
  }

  /** No part of a split contains the separator. */
  lemma {:induction false} SplitPartsLackSeparator(s: string, sep: string)
    requires |sep| > 0
    ensures forall k :: 0 <= k < |Split(s, sep)| ==> !Contains(Split(s, sep)[k], sep)
    decreases |s|
  {
    match Find(s, sep, 0)
    case None =>
    case Some(i) =>
      var head := s[..i];
      assert !Contains(head, sep) by {
        if Contains(head, sep) {
          var j := Find(head, sep, 0).value;
          OccursInSlice(s, sep, 0, i, j);
        }
      }
      SplitPartsLackSeparator(s[i + |sep|..], sep);
      assert Split(s, sep) == [head] + Split(s[i + |sep|..], sep);
  }

  /** Splitting a join on a one-character separator that no part contains
      returns the parts. */
  lemma {:induction false} SplitJoin(parts: seq<string>, c: char)
    requires |parts| >= 1
    requires forall k, j :: 0 <= k < |parts| && 0 <= j < |parts[k]| ==> parts[k][j] != c
    ensures Split(Join(parts, [c]), [c]) == parts
  {
    var s := Join(parts, [c]);
    if |parts| == 1 {
      assert s == parts[0];
      forall j | 0 <= j < |s|
        ensures !OccursAt(s, [c], j)
      {
        assert s[j..j + 1][0] == s[j];
      }
    } else {
      var p := parts[0];
      var tail := Join(parts[1..], [c]);
      assert s == p + [c] + tail;
      assert OccursAt(s, [c], |p|);
      forall j | 0 <= j < |p|
        ensures !OccursAt(s, [c], j)
      {
        assert s[j] == p[j];
      }
      assert Find(s, [c], 0) == Some(|p|);
      assert s[..|p|] == p;
      assert s[|p| + 1..] == tail;
      SplitJoin(parts[1..], c);
    }
  }

  /** `c not in s`, for a single character. */
  predicate Lacks(s: string, c: char) {
    forall j :: 0 <= j < |s| ==> s[j] != c
  }

  lemma LacksConcat(a: string, b: string, c: char)
    requires Lacks(a, c) && Lacks(b, c)
    ensures Lacks(a + b, c)
  {
    forall j | 0 <= j < |a + b| ensures (a + b)[j] != c {
      if j >= |a| { assert (a + b)[j] == b[j - |a|]; }
    }
  }

  /** Splitting at a one-character separator cuts off a first part that
      does not contain it. */
  lemma SplitCons(a: string, rest: string, c: char)
    requires Lacks(a, c)
    ensures Split(a + [c] + rest, [c]) == [a] + Split(rest, [c])
  {
    var s := a + [c] + rest;
    assert OccursAt(s, [c], |a|) by { assert s[|a|..|a| + 1] == [c]; }
    forall j | 0 <= j < |a| ensures !OccursAt(s, [c], j) {
      assert s[j] == a[j];
      assert s[j..j + 1][0] == s[j];
    }
    assert Find(s, [c], 0) == Some(|a|);
    assert s[..|a|] == a;
    assert s[|a| + 1..] == rest;
  }

  lemma JoinUnfold(parts: seq<string>, last: string, sep: string)
    requires |parts| > 0
    ensures Join(parts + [last], sep) == parts[0] + sep + Join(parts[1..] + [last], sep)
  {
    assert (parts + [last])[1..] == parts[1..] + [last];
  }

  lemma AppendAssoc<T>(xs: seq<T>, ys: seq<T>, zs: seq<T>)
    ensures (xs + ys) + zs == xs + (ys + zs)
    ensures xs + [] == xs
  {
  }

  lemma ConsAppend<T>(xs: seq<T>, ys: seq<T>)
    requires |xs| > 0
    ensures xs + ys == [xs[0]] + (xs[1..] + ys)
  {
  }

  /** Lines free of the separator come back one by one from splitting their
      join, ahead of whatever the last part splits into. */
  lemma {:induction false} SplitJoinPrefix(parts: seq<string>, last: string, c: char)
    requires forall i :: 0 <= i < |parts| ==> Lacks(parts[i], c)
    ensures Split(Join(parts + [last], [c]), [c]) == parts + Split(last, [c])
  {
    if |parts| == 0 {
      assert parts + [last] == [last];
    } else {
      var rest := parts[1..];
      var tail := Join(rest + [last], [c]);
      JoinUnfold(parts, last, [c]);
      assert Lacks(parts[0], c);
      SplitCons(parts[0], tail, c);
      assert forall i :: 0 <= i < |rest| ==> rest[i] == parts[i + 1];
      SplitJoinPrefix(rest, last, c);
      ConsAppend(parts, Split(last, [c]));
    }
  }

  /** `s.replace(old, new)`: Python replaces exactly the pieces `split` cuts at. */
  function Replace(s: string, target: string, replacement: string): string
    requires |target| > 0
  {
    Join(Split(s, target), replacement)
  }

  // ---------------------------------------------------------------------
  // split() on whitespace
  // ---------------------------------------------------------------------

  /** A maximal run of non-whitespace characters, as `str.split()` yields. */
  predicate IsWord(w: string) {
    |w| > 0 && forall i :: 0 <= i < |w| ==> !IsSpace(w[i])
  }

  /** End of the non-whitespace run of `t` that starts at or before `i`. */
  function RunEnd(t: string, i: nat): (r: nat)
    requires i <= |t|
    ensures i <= r <= |t|
    ensures forall j :: i <= j < r ==> !IsSpace(t[j])
    ensures r < |t| ==> IsSpace(t[r])
    decreases |t| - i
  {
    if i < |t| && !IsSpace(t[i]) then RunEnd(t, i + 1) else i
  }

  /** The run that `RunEnd` finds is pinned down by where it stops. */
  lemma RunEndAt(t: string, i: nat, r: nat)
    requires i <= r <= |t|
    requires forall j :: i <= j < r ==> !IsSpace(t[j])
    requires r < |t| ==> IsSpace(t[r])
    ensures RunEnd(t, i) == r
    decreases r - i
  {
    if i < r {
      RunEndAt(t, i + 1, r);
    }
  }

  /** The words of `s[i..]`: skip whitespace, take a maximal run, repeat. */
  function WordsFrom(s: string, i: nat): (ws: seq<string>)
    requires i <= |s|
    ensures forall k :: 0 <= k < |ws| ==> IsWord(ws[k])
    ensures ws == [] <==> forall j :: i <= j < |s| ==> IsSpace(s[j])
    decreases |s| - i
  {
    if i == |s| then []
    else if IsSpace(s[i]) then WordsFrom(s, i + 1)
    else
      var e := RunEnd(s, i);
      [s[i..e]] + WordsFrom(s, e)
  }

  /** `s.split()`: the maximal runs of non-whitespace, in order. */
  function Words(s: string): (ws: seq<string>)
    ensures forall k :: 0 <= k < |ws| ==> IsWord(ws[k])
    ensures ws == [] <==> AllSpace(s)
  {
    WordsFrom(s, 0)
  }

  /** Every element is a word. */
  predicate AllWords(ws: seq<string>) {
    forall k :: 0 <= k < |ws| ==> IsWord(ws[k])
  }

  /** Words joined by single spaces split back into the same words. */
  lemma WordsOfJoin(ws: seq<string>)
    requires AllWords(ws)
    ensures Words(Join(ws, " ")) == ws
  {
    var s := Join(ws, " ");
    if |ws| > 0 {
      assert s[0..] == s;
      JoinIsJoinedAt(s, 0, ws);
      WordsFromJoin(s, 0, ws);
    }
  }

  /** `ws` is laid out in `s` from `i` on, one space between words. */
  predicate JoinedAt(s: string, i: nat, ws: seq<string>)
    decreases |ws|
  {
    && |ws| > 0 && IsWord(ws[0])
    && i + |ws[0]| <= |s| && s[i..i + |ws[0]|] == ws[0]
    && (|ws| == 1 ==> i + |ws[0]| == |s|)
    && (|ws| > 1 ==> i + |ws[0]| < |s| && s[i + |ws[0]|] == ' ' && JoinedAt(s, i + |ws[0]| + 1, ws[1..]))
  }

  lemma {:induction false} JoinIsJoinedAt(s: string, i: nat, ws: seq<string>)
    requires i <= |s| && |ws| > 0 && AllWords(ws)
    requires s[i..] == Join(ws, " ")
    ensures JoinedAt(s, i, ws)
    decreases |ws|
  {
    JoinedWordLayout(s, i, ws);
    if |ws| > 1 {
      var rest := ws[1..];
      assert AllWords(rest) by {
        forall k | 0 <= k < |rest| ensures IsWord(rest[k]) { assert rest[k] == ws[k + 1]; }
      }
      JoinIsJoinedAt(s, i + |ws[0]| + 1, rest);
    }
  }

  lemma {:induction false} WordsFromJoin(s: string, i: nat, ws: seq<string>)
    requires JoinedAt(s, i, ws)
    ensures WordsFrom(s, i) == ws
    decreases |ws|
  {
    var w := ws[0];
    var e := i + |w|;
    assert IsWord(w) && e <= |s| && s[i..e] == w;
    if |ws| == 1 {
      assert e == |s|;
      FirstWordRun(s, i, w);
      assert WordsFrom(s, e) == [];
    } else {
      var next, rest := e + 1, ws[1..];
      assert e < |s| && s[e] == ' ' && JoinedAt(s, next, rest);
      WordsFromJoin(s, next, rest);
      WordThenSpace(s, i, ws);
    }
  }

  /** The first word, one space, then text reading as the other words. */
  lemma WordThenSpace(s: string, i: nat, ws: seq<string>)
    requires |ws| > 0 && IsWord(ws[0])
    requires i + |ws[0]| < |s| && s[i..i + |ws[0]|] == ws[0] && IsSpace(s[i + |ws[0]|])
    requires WordsFrom(s, i + |ws[0]| + 1) == ws[1..]
    ensures WordsFrom(s, i) == ws
  {
    var w := ws[0];
    FirstWordRun(s, i, w);
    WordsFromSkip(s, i + |w|);
    assert ws == [w] + ws[1..];
  }

  /** A word followed by whitespace or the end is read whole. */
  lemma FirstWordRun(s: string, i: nat, w: string)
    requires IsWord(w) && i + |w| <= |s| && s[i..i + |w|] == w
    requires i + |w| < |s| ==> IsSpace(s[i + |w|])
    ensures WordsFrom(s, i) == [w] + WordsFrom(s, i + |w|)
  {
    var e := i + |w|;
    assert RunEnd(s, i) == e by {
      forall j | i <= j < e ensures !IsSpace(s[j]) { assert s[j] == w[j - i]; }
      RunEndAt(s, i, e);
    }
    WordsFromRun(s, i);
  }

  /** Where the first word of a space-joined suffix sits, and what follows it. */
  lemma JoinedWordLayout(s: string, i: nat, ws: seq<string>)
    requires i <= |s|
    requires |ws| > 0 && IsWord(ws[0])
    requires s[i..] == Join(ws, " ")
    ensures i + |ws[0]| <= |s| && s[i..i + |ws[0]|] == ws[0]
    ensures forall j :: i <= j < i + |ws[0]| ==> !IsSpace(s[j])
    ensures |ws| == 1 ==> i + |ws[0]| == |s|
    ensures |ws| > 1 ==> i + |ws[0]| < |s| && s[i + |ws[0]|] == ' '
    ensures |ws| > 1 ==> s[i + |ws[0]| + 1..] == Join(ws[1..], " ")
  {
    var w := ws[0];
    var e := i + |w|;
    JoinHead(ws, " ");
    assert s[i..e] == s[i..][..|w|];
    forall j | i <= j < e
      ensures !IsSpace(s[j])
    {
      assert s[j] == s[i..e][j - i];
    }
    if |ws| > 1 {
      assert s[e..] == s[i..][|w|..];
      assert s[e + 1..] == s[e..][1..];
    }
  }

  lemma WordsFromSkip(s: string, i: nat)
    requires i < |s| && IsSpace(s[i])
    ensures WordsFrom(s, i) == WordsFrom(s, i + 1)
  {
  }

  lemma WordsFromRun(s: string, i: nat)
    requires i < |s| && !IsSpace(s[i])
    ensures WordsFrom(s, i) == [s[i..RunEnd(s, i)]] + WordsFrom(s, RunEnd(s, i))
  {
  }

  /** `sep.join(ws)` starts with `ws[0]`, followed by the separator when
      more parts follow. */
  lemma JoinHead(ws: seq<string>, sep: string)
    requires |ws| > 0
    ensures |Join(ws, sep)| >= |ws[0]|
    ensures Join(ws, sep)[..|ws[0]|] == ws[0]
    ensures |ws| == 1 ==> Join(ws, sep) == ws[0]
    ensures |ws| > 1 ==> Join(ws, sep)[|ws[0]|..] == sep + Join(ws[1..], sep)
  {
  }

  // ---------------------------------------------------------------------
  // splitlines
  // ---------------------------------------------------------------------

  /** A line boundary recognised by `str.splitlines()`. */
  predicate IsLineBreak(c: char) {
    c == '\n' || c == '\r' || c == '\U{B}' || c == '\U{C}'
    || c == '\U{1C}' || c == '\U{1D}' || c == '\U{1E}'
    || c == '\U{85}' || c == '\U{2028}' || c == '\U{2029}'
  }

  /** Index of the first line boundary at or after `i`, or `|s|`. */
  function LineEnd(s: string, i: nat): (r: nat)
    requires i <= |s|
    ensures i <= r <= |s|
    ensures forall j :: i <= j < r ==> !IsLineBreak(s[j])
    ensures r < |s| ==> IsLineBreak(s[r])
    decreases |s| - i
  {
    if i < |s| && !IsLineBreak(s[i]) then LineEnd(s, i + 1) else i
  }

  /** `s.splitlines()`: lines without their terminators; `\r\n` is one
      boundary and a final terminator opens no empty line. */
  function SplitLines(s: string): (lines: seq<string>)
    ensures s == [] <==> lines == []
    decreases |s|
  {
    if s == [] then []
    else
      var e := LineEnd(s, 0);
      if e == |s| then [s]
      else
        var width := if s[e] == '\r' && e + 1 < |s| && s[e + 1] == '\n' then 2 else 1;
        [s[..e]] + SplitLines(s[e + width..])
  }

  /** A first line without breaks, ended by `\n`, is the first line. */
  lemma SplitLinesFirst(first: string, rest: string)
    requires forall j :: 0 <= j < |first| ==> !IsLineBreak(first[j])
    ensures SplitLines(first + "\n" + rest) == [first] + SplitLines(rest)
  {
    var s := first + "\n" + rest;
    assert s[|first|] == '\n';
    LineEndAt(s, 0, |first|);
    assert s[..|first|] == first;
    assert s[|first| + 1..] == rest;
  }

  lemma {:induction false} LineEndAt(s: string, i: nat, e: nat)
    requires i <= e < |s| && IsLineBreak(s[e])
    requires forall j :: i <= j < e ==> !IsLineBreak(s[j])
    ensures LineEnd(s, i) == e
    decreases e - i
  {
    if i < e {
      LineEndAt(s, i + 1, e);
    }
  }

  /** A text whose only line breaks are `\n`, terminated by one more `\n`,
      splits into lines that join back into the text. */
  lemma {:induction false} SplitLinesTerminated(s: string)
    requires forall j :: 0 <= j < |s| && IsLineBreak(s[j]) ==> s[j] == '\n'
    ensures Join(SplitLines(s + "\n"), "\n") == s
    decreases |s|
  {
    var e := LineEnd(s, 0);
    if e == |s| {
      var t := s + "\n";
      LineEndAt(t, 0, e);
      assert t[..e] == s;
      assert SplitLines(t) == [s];
    } else {
      var rest := s[e + 1..];
      assert s == s[..e] + "\n" + rest;
      assert s + "\n" == s[..e] + "\n" + (rest + "\n");
      SplitLinesFirst(s[..e], rest + "\n");
      SplitLinesTerminated(rest);
    }
  }

  // ---------------------------------------------------------------------
  // lower / numbers
  // ---------------------------------------------------------------------

  /** Lower-case of an ASCII letter; every other character is unchanged. */
  function LowerChar(c: char): char {
    if 'A' <= c <= 'Z' then (c as int + 32) as char else c
  }

  function Lower(s: string): (r: string)
    ensures |r| == |s|
    ensures forall i :: 0 <= i < |s| ==> r[i] == LowerChar(s[i])
  {
    seq(|s|, i requires 0 <= i < |s| => LowerChar(s[i]))
  }

  /** Case-insensitive equality on ASCII letters. */
  predicate EqualsIgnoreCase(s: string, t: string) {
    Lower(s) == Lower(t)
  }

  /** `pat` occurs at `i` in `s`, ignoring ASCII case, checked one
      character at a time. */
  predicate FoldedMatchAt(s: string, i: nat, pat: string)
    decreases |pat|
  {
    pat == [] || (i < |s| && LowerChar(s[i]) == LowerChar(pat[0]) && FoldedMatchAt(s, i + 1, pat[1..]))
  }

  /** The character-wise check is case-insensitive equality of the slice. */
  lemma {:induction false} FoldedMatchAtIff(s: string, i: nat, pat: string)
    requires i <= |s|
    ensures FoldedMatchAt(s, i, pat) <==> i + |pat| <= |s| && EqualsIgnoreCase(s[i..i + |pat|], pat)
    decreases |pat|
  {
    if pat != [] && i < |s| {
      FoldedMatchAtIff(s, i + 1, pat[1..]);
      if i + |pat| <= |s| {
        var a := s[i..i + |pat|];
        var b := s[i + 1..i + |pat|];
        assert a[1..] == b;
        assert Lower(a) == Lower(pat) <==> LowerChar(a[0]) == LowerChar(pat[0]) && Lower(b) == Lower(pat[1..]) by {
          assert Lower(a) == [LowerChar(a[0])] + Lower(b);
          assert Lower(pat) == [LowerChar(pat[0])] + Lower(pat[1..]);
        }
      }
    }
  }

  function DigitChar(d: nat): char
    requires d < 10
  {
    ('0' as int + d) as char
  }

  /** Decimal digits of a natural number, as `str(n)` prints it. */
  function NatToString(n: nat): (r: string)
    ensures |r| > 0
    ensures forall i :: 0 <= i < |r| ==> '0' <= r[i] <= '9'
  {
    if n < 10 then [DigitChar(n)] else NatToString(n / 10) + [DigitChar(n % 10)]
  }

  /** `str(n)` for any integer. */
  function IntToString(n: int): string {
    if n < 0 then "-" + NatToString(-n) else NatToString(n)
  }

  predicate IsHexDigit(c: char) {
    ('0' <= c <= '9') || ('a' <= c <= 'f')
  }

  function HexValue(c: char): (v: nat)
    requires IsHexDigit(c)
    ensures v < 16
  {
    if '0' <= c <= '9' then c as int - '0' as int else c as int - 'a' as int + 10
  }

  function Pow16(n: nat): (p: nat)
    ensures p >= 1
  {
    if n == 0 then 1 else 16 * Pow16(n - 1)
  }

  /** `int(s, 16)` for a string of lower-case hex digits; its value is below
      16 to the power of its length. */
  function ParseHex(s: string): (v: nat)
    requires forall i :: 0 <= i < |s| ==> IsHexDigit(s[i])
    ensures v < Pow16(|s|)
  {
    if |s| == 0 then 0
    else
      var prefix := ParseHex(s[..|s| - 1]);
      var last := HexValue(s[|s| - 1]);
      assert prefix * 16 + last < Pow16(|s| - 1) * 16 by {
        assert prefix + 1 <= Pow16(|s| - 1);
        assert (prefix + 1) * 16 <= Pow16(|s| - 1) * 16;
      }
      prefix * 16 + last
  }
}

=== FILE: viewport.dfy ===
/** `zork_ui.py`: the two scroll-back panes of the terminal UI, the
    wrap-aware choice of which trailing lines are visible, and the keystroke
    loop of `read_prompt`.  Rich's layout engine is abstract: `rows(line,
    width)` is the number of terminal rows the line wraps to. */
module Viewport {
  import opened Wrappers
  import opened Text

  /** Rich's `len(console.render_lines(Text(line), width))`. */
  type RowCount = (string, int) -> nat

  /** Each panel loses two columns to its border on either side. */
  const BorderColumns: int := 4
  /** Rows taken by the prompt panel and by the body panels' borders. */
  const PromptHeight: int := 4
  const BodyBorderRows: int := 2

  // ---------------------------------------------------------------------
  // _get_renderable_lines
  // ---------------------------------------------------------------------

  /** Rows taken by `lines[k..]` at width `w`. */
  function SuffixRows(lines: seq<string>, rows: RowCount, w: int, k: nat): nat
    decreases |lines| - k
  {
    if k >= |lines| then 0 else rows(lines[k], w) + SuffixRows(lines, rows, w, k + 1)
  }

  /** Dropping older lines never needs more rows. */
  lemma {:induction false} SuffixRowsMonotone(lines: seq<string>, rows: RowCount, w: int, j: nat, k: nat)
    requires j <= k
    ensures SuffixRows(lines, rows, w, j) >= SuffixRows(lines, rows, w, k)
    decreases k - j
  {
    if j < k {
      SuffixRowsMonotone(lines, rows, w, j + 1, k);
    }
  }

  /** The backward walk: `i` lines remain unvisited and the lines after them
      take `total` rows, which fit.  The walk stops at the first line that
      would overflow, or when every line has been taken. */
  function FitFrom(lines: seq<string>, rows: RowCount, w: int, height: int, i: nat, total: nat): (k: nat)
    requires i <= |lines| && total == SuffixRows(lines, rows, w, i)
    requires i < |lines| ==> total <= height
    ensures k <= i
    ensures k < |lines| ==> SuffixRows(lines, rows, w, k) <= height
    ensures k > 0 ==> SuffixRows(lines, rows, w, k - 1) > height
    decreases i
  {
    if i == 0 then 0
    else
      var next := total + rows(lines[i - 1], w);
      if next > height then i else FitFrom(lines, rows, w, height, i - 1, next)
  }

  /** Index of the oldest visible line in a panel of `panelWidth` columns
      and `height` rows. */
  function VisibleStart(lines: seq<string>, rows: RowCount, panelWidth: int, height: int): (k: nat)
    ensures k <= |lines|
    ensures k < |lines| ==> SuffixRows(lines, rows, panelWidth - BorderColumns, k) <= height
    ensures k > 0 ==> SuffixRows(lines, rows, panelWidth - BorderColumns, k - 1) > height
  {
    FitFrom(lines, rows, panelWidth - BorderColumns, height, |lines|, 0)
  }

  /** `_get_renderable_lines(lines, panel_width, target_height)`. */
  function RenderableLines(lines: seq<string>, rows: RowCount, panelWidth: int, height: int): (text: string)
    ensures lines == [] ==> text == ""
    ensures text == Join(lines[VisibleStart(lines, rows, panelWidth, height)..], "\n")
  {
    if lines == [] then "" else Join(lines[VisibleStart(lines, rows, panelWidth, height)..], "\n")
  }

  /** The visible lines are the longest trailing run that fits: every longer
      run overflows the panel. */
  lemma VisibleIsLongest(lines: seq<string>, rows: RowCount, panelWidth: int, height: int, j: nat)
    requires j < VisibleStart(lines, rows, panelWidth, height)
    ensures SuffixRows(lines, rows, panelWidth - BorderColumns, j) > height
  {
    var k := VisibleStart(lines, rows, panelWidth, height);
    SuffixRowsMonotone(lines, rows, panelWidth - BorderColumns, j, k - 1);
  }

  /** When everything fits, everything is shown. */
  lemma AllFitAllShown(lines: seq<string>, rows: RowCount, panelWidth: int, height: int)
    requires SuffixRows(lines, rows, panelWidth - BorderColumns, 0) <= height
    ensures VisibleStart(lines, rows, panelWidth, height) == 0
  {
    var k := VisibleStart(lines, rows, panelWidth, height);
    if k > 0 {
      SuffixRowsMonotone(lines, rows, panelWidth - BorderColumns, 0, k - 1);
    }
  }

  /** The pane text splits back into exactly the visible lines, oldest
      first, when no line holds a newline of its own. */
  lemma RenderableSplits(lines: seq<string>, rows: RowCount, panelWidth: int, height: int)
    requires forall i, j :: 0 <= i < |lines| && 0 <= j < |lines[i]| ==> lines[i][j] != '\n'
    requires VisibleStart(lines, rows, panelWidth, height) < |lines|
    ensures Split(RenderableLines(lines, rows, panelWidth, height), "\n")
         == lines[VisibleStart(lines, rows, panelWidth, height)..]
  {
    var k := VisibleStart(lines, rows, panelWidth, height);
    var shown := lines[k..];
    forall i, j | 0 <= i < |shown| && 0 <= j < |shown[i]| ensures shown[i][j] != '\n' {
      assert shown[i] == lines[k + i];
    }
    SplitJoin(shown, '\n');
  }

  // ---------------------------------------------------------------------
  // RichZorkUI state
  // ---------------------------------------------------------------------

  /** The UI's logical state: the two line logs and the prompt text. */
  datatype Ui = Ui(zorkLines: seq<string>, aiLines: seq<string>, promptText: string)

  /** A fresh UI: empty logs, empty prompt. */
  const Initial: Ui := Ui([], [], "")

  /** `append_zork(text)`. */
  function AppendZork(ui: Ui, text: string): (r: Ui)
    ensures |r.zorkLines| == |ui.zorkLines| + 1 && r.zorkLines[..|ui.zorkLines|] == ui.zorkLines && r.zorkLines[|ui.zorkLines|..] == [text]
    ensures r.aiLines == ui.aiLines && r.promptText == ui.promptText
  {
    ui.(zorkLines := ui.zorkLines + [text])
  }

  /** `append_ai(text)`. */
  function AppendAi(ui: Ui, text: string): (r: Ui)
    ensures |r.aiLines| == |ui.aiLines| + 1 && r.aiLines[..|ui.aiLines|] == ui.aiLines && r.aiLines[|ui.aiLines|..] == [text]
    ensures r.zorkLines == ui.zorkLines && r.promptText == ui.promptText
  {
    ui.(aiLines := ui.aiLines + [text])
  }

  /** `set_prompt(text)`. */
  function SetPrompt(ui: Ui, text: string): (r: Ui)
    ensures r.promptText == text && r.zorkLines == ui.zorkLines && r.aiLines == ui.aiLines
  {
    ui.(promptText := text)
  }

  /** What `render` puts in the three panels. */
  datatype View = View(left: string, right: string, prompt: string)

  /** `render()` for a console of `consoleHeight` rows whose body columns are
      `leftWidth` and `rightWidth` wide: each log pane shows its own visible
      tail in the rows left after the prompt panel and the borders. */
  function Render(ui: Ui, rows: RowCount, consoleHeight: int, leftWidth: int, rightWidth: int): (v: View)
    ensures v.prompt == ui.promptText
    ensures ui.zorkLines == [] ==> v.left == ""
    ensures ui.aiLines == [] ==> v.right == ""
    ensures v.left == RenderableLines(ui.zorkLines, rows, leftWidth, consoleHeight - PromptHeight - BodyBorderRows)
    ensures v.right == RenderableLines(ui.aiLines, rows, rightWidth, consoleHeight - PromptHeight - BodyBorderRows)
  {
    var bodyHeight := consoleHeight - PromptHeight - BodyBorderRows;
    View(RenderableLines(ui.zorkLines, rows, leftWidth, bodyHeight),
         RenderableLines(ui.aiLines, rows, rightWidth, bodyHeight),
         ui.promptText)
  }

  /** Appending to one pane leaves the other pane and the prompt as they
      were drawn. */
  lemma AppendsAreIndependent(ui: Ui, text: string, rows: RowCount, consoleHeight: int, leftWidth: int, rightWidth: int)
    ensures Render(AppendZork(ui, text), rows, consoleHeight, leftWidth, rightWidth).right
         == Render(ui, rows, consoleHeight, leftWidth, rightWidth).right
    ensures Render(AppendAi(ui, text), rows, consoleHeight, leftWidth, rightWidth).left
         == Render(ui, rows, consoleHeight, leftWidth, rightWidth).left
    ensures Render(AppendZork(ui, text), rows, consoleHeight, leftWidth, rightWidth).prompt == ui.promptText
    ensures Render(AppendAi(ui, text), rows, consoleHeight, leftWidth, rightWidth).prompt == ui.promptText
  {
  }

  /** A line that fits on its own is shown at the bottom of its pane right
      after it is appended. */
  lemma AppendedLineShown(ui: Ui, text: string, rows: RowCount, consoleHeight: int, leftWidth: int, rightWidth: int)
    requires rows(text, rightWidth - BorderColumns) <= consoleHeight - PromptHeight - BodyBorderRows
    ensures var lines := ui.aiLines + [text];
      VisibleStart(lines, rows, rightWidth, consoleHeight - PromptHeight - BodyBorderRows) <= |ui.aiLines|
  {
  }

  // ---------------------------------------------------------------------
  // read_prompt
  // ---------------------------------------------------------------------

  predicate IsEnter(ch: char) {
    ch == '\r' || ch == '\n'
  }

  predicate IsBackspace(ch: char) {
    ch == '\U{8}' || ch == '\U{7F}'
  }

  /** The buffer after one non-Enter key: backspace drops the last
      character (if any), every other key is appended. */
  function Edit(buffer: string, ch: char): (r: string)
    requires !IsEnter(ch)
    ensures IsBackspace(ch) ==> r == (if buffer == [] then [] else buffer[..|buffer| - 1])
    ensures !IsBackspace(ch) ==> |r| == |buffer| + 1 && r[..|buffer|] == buffer && r[|buffer|] == ch
  {
    if IsBackspace(ch) then (if buffer == [] then [] else buffer[..|buffer| - 1])
    else buffer + [ch]
  }

  /** The buffer after a run of non-Enter keys, starting empty. */
  function Typed(keys: seq<char>): string
    requires forall i :: 0 <= i < |keys| ==> !IsEnter(keys[i])
  {
    if keys == [] then [] else Edit(Typed(keys[..|keys| - 1]), keys[|keys| - 1])
  }

  /** Keys with no editing characters come back exactly as typed. */
  lemma {:induction false} TypedPlain(keys: seq<char>)
    requires forall i :: 0 <= i < |keys| ==> !IsEnter(keys[i]) && !IsBackspace(keys[i])
    ensures Typed(keys) == keys
  {
    if keys != [] {
      TypedPlain(keys[..|keys| - 1]);
      assert keys[..|keys| - 1] + [keys[|keys| - 1]] == keys;
    }
  }

  /** A backspace right after a character undoes it. */
  lemma BackspaceUndoes(keys: seq<char>, c: char, bs: char)
    requires forall i :: 0 <= i < |keys| ==> !IsEnter(keys[i])
    requires !IsEnter(c) && !IsBackspace(c) && IsBackspace(bs)
    ensures Typed(keys + [c, bs]) == Typed(keys)
  {
    var ks := keys + [c, bs];
    assert ks[..|ks| - 1] == keys + [c];
    assert (keys + [c])[..|keys|] == keys;
  }

  /** Backspace on an empty buffer does nothing. */
  lemma BackspaceOnEmpty(bs: char)
    requires IsBackspace(bs)
    ensures Typed([bs]) == []
  {
    assert [bs][..0] == [];
  }

  /** `read_prompt(prompt)` fed the keys `keys`: it reads keys until Enter
      and returns the buffer, showing `prompt` plus the buffer after every
      edit and clearing the prompt on return.  `consumed` is the number of
      keys read; without an Enter the call has not returned (`None`). */
  method ReadPrompt(prompt: string, keys: seq<char>) returns (line: Option<string>, shown: seq<string>, consumed: nat)
    ensures consumed <= |keys|
    ensures forall i :: 0 <= i < consumed - 1 ==> !IsEnter(keys[i])
    ensures line.Some? ==> 0 < consumed && IsEnter(keys[consumed - 1])
    ensures line.None? ==> consumed == |keys| && forall i :: 0 <= i < |keys| ==> !IsEnter(keys[i])
    ensures line.Some? ==> line.value == Typed(keys[..consumed - 1])
    ensures |shown| == consumed + 1 && shown[0] == prompt
    ensures forall i :: 0 <= i < consumed && !IsEnter(keys[i]) ==>
      shown[i + 1] == prompt + Typed(keys[..i + 1])
    ensures line.Some? ==> shown[consumed] == ""
  {
    var buffer: string := [];
    shown := [prompt];
    var i := 0;
    while i < |keys|
      invariant 0 <= i <= |keys|
      invariant |shown| == i + 1 && shown[0] == prompt
      invariant forall j :: 0 <= j < i ==> !IsEnter(keys[j])
      invariant buffer == Typed(keys[..i])
      invariant forall j {:trigger shown[j]} :: 1 <= j <= i ==> shown[j] == prompt + Typed(keys[..j])
    {
      var ch := keys[i];
      if IsEnter(ch) {
        line := Some(buffer);
        shown := shown + [""];
        consumed := i + 1;
        return;
      }
      assert keys[..i + 1][..i] == keys[..i];
      buffer := Edit(buffer, ch);
      shown := shown + [prompt + buffer];
      i := i + 1;
    }
    line := None;
    consumed := i;
  }
}

=== FILE: wrappers.dfy ===
/** Failure-carrying wrappers shared by every module of the narrator pipeline. */
module Wrappers {

  /** A value that may be absent: Python's `Optional[T]` / `None`. */
  datatype Option<+T> = None | Some(value: T) {

    /** The wrapped value, or `default` when absent. */
    function GetOr(default: T): T {
      match this
      case Some(v) => v
      case None => default
    }
  }

  /** Either a computed value or the error the source raises instead. */
  datatype Result<+T, +E> = Ok(value: T) | Err(error: E)
}
